=== FILE: README.md ===
# Supply-chain analytics backend — Dafny model

This project models the deterministic core of a Flask backend. The backend serves supply-chain KPIs for a bakery network, which runs from factories through distribution centres (DCs) to stores. It also answers natural-language questions by generating SQL against a SQLite copy of the CSV data. The model covers six areas:

- **Data layer** (`DataQuality`, `Kpi`, `CommandCenter`, `NodeHealth`):
  - frame validation: clipping negative quantities and the quality report;
  - safe division;
  - the factory, DC and store KPI formulas for every aggregation level;
  - the level preference used when the KPI tables are filtered;
  - the six command-centre KPIs;
  - the good / warning / danger classification of every network node.
- **API service** (`ApiService`, `Hourly`):
  - the factory KPI summary;
  - the 24-hour production series;
  - dispatch planning;
  - the DC KPI summary;
  - the inventory-age buckets.
- **HTTP layer** (`App`):
  - API-key masking and agent start-up;
  - every response of the `/query` endpoint;
  - the completed 24-hour series of `/store-hourly-sales`.
- **Summarizer agent** (`Summarizer`): the chart-type classifier, the branches of `summarize` that do not depend on what the model says, and the guards of `generate_viz`.
- **Database builder** (`DbBuilder`):
  - loading the schema;
  - building the database from CSV files, with the protected `order_log` table;
  - `execute_sql`, with its read/write split and connection life cycle.
- **Mailer** (`Mailer`): the recipient list parsed from the `ALERT_EMAILS` setting, and the message `send_success_email` builds.

Supporting modules:

- `Wrappers`: `Option` and `Result`.
- `Text`: Python string operations, namely `strip`, ASCII `lower`/`upper`, `in`, `split`, `join`, and decimal formatting with its parser.
- `Numeric`: safe division, clipping, sums, means and `int()` truncation.
- `Frames`: a pandas frame as named columns of cells.
- `Seqs`: filtering and counting.
- `Sorting`: a sort by key (Python string order or integer order), proved ordered, a permutation of its input, and stable.
- `Hours`: the `HH:00` labels.

Modelling choices:

- Floating-point values are modelled as exact reals.
- Python's `int()` on a float truncates toward zero (`Numeric.Trunc`).
- A pandas `groupby` becomes a filter per key.
- Dictionaries built in a loop keep the last value written for a key.
- The language model, the SQL engine, CSV reading, chart rendering and SMTP delivery are parameters of the functions that use them. Their outcomes, including failures, are inputs, so every error path of the callers is modelled.

## Model

All source paths are under `src/Text2SQL_V2-main/`.

| member | source | states |
|---|---|---|
| DataQuality.NegativeCount | src/Text2SQL_V2-main/core/data_layer.py:57 | the number of negative cells in a column never exceeds the number of cells |
| DataQuality.MissingCount | src/Text2SQL_V2-main/core/data_layer.py:49 | the number of missing cells in a column never exceeds the number of cells |
| DataQuality.MissingAndNegativeFit | src/Text2SQL_V2-main/core/data_layer.py:49-67 | a cell is never both missing and negative, so the two counts together fit in the column |
| DataQuality.NoNegativeCounted | src/Text2SQL_V2-main/core/data_layer.py:57-58 | the invalid count is zero exactly when no cell of the column is negative |
| DataQuality.ClipCells | src/Text2SQL_V2-main/core/data_layer.py:60 | clipping at zero keeps the length and maps each cell independently |
| DataQuality.CleanColumn | src/Text2SQL_V2-main/core/data_layer.py:53-61 | a numeric column whose name mentions qty, units, stock, demand or capacity has its negative cells replaced by 0; every other cell, name and type is unchanged |
| DataQuality.CleanColumns | src/Text2SQL_V2-main/core/data_layer.py:54-61 | every column is cleaned on its own, in order |
| DataQuality.ClipKeepsMissing | src/Text2SQL_V2-main/core/data_layer.py:60 | clipping neither fills nor creates missing values |
| DataQuality.CleanKeepsMissing | src/Text2SQL_V2-main/core/data_layer.py:65 | the missing-cell total counted after cleaning equals the one before |
| DataQuality.FlaggedCellsFit | src/Text2SQL_V2-main/core/data_layer.py:64-67 | missing plus invalid cells never exceed rows × columns |
| DataQuality.QualityScore | src/Text2SQL_V2-main/core/data_layer.py:63-67 | one minus the flagged share: (1 − score) × max(cells, 1) is the number of missing plus invalid cells, so the score is 1 exactly when nothing is flagged |
| DataQuality.ScoreInUnitInterval | src/Text2SQL_V2-main/core/data_layer.py:63-67 | the quality score lies in [0, 1], and is 1 when nothing is flagged |
| DataQuality.MissingMap | src/Text2SQL_V2-main/core/data_layer.py:49-50 | the report lists exactly the columns with a missing cell, each with its count |
| DataQuality.InvalidMap | src/Text2SQL_V2-main/core/data_layer.py:56-59 | the report lists exactly the quantity columns with a negative cell, each with its count |
| DataQuality.CleanFrame | src/Text2SQL_V2-main/core/data_layer.py:46-61 | shape, names and types are kept; quantity negatives become 0 and every other cell is untouched |
| DataQuality.ValidateFrame | src/Text2SQL_V2-main/core/data_layer.py:30-72 | the cleaned frame, the per-column missing and invalid maps, the name, no row dropped, and the score `QualityScore(missing cells, invalid cells, rows × columns)`, which lies in [0, 1] and is 1 for a clean or empty frame |
| DataQuality.NegativeIndicesCounted | src/Text2SQL_V2-main/core/data_layer.py:57 | the negative count is the number of positions holding a negative cell |
| DataQuality.ClippedCellsCounted | src/Text2SQL_V2-main/core/data_layer.py:57-60 | the cells that clipping changes are exactly as many as the invalid count reports |
| DataQuality.ValidateIdempotent | src/Text2SQL_V2-main/core/data_layer.py:30-72 | validating a validated frame changes nothing and reports no invalid value |
| DataQuality.NoNegativesLeft | src/Text2SQL_V2-main/core/data_layer.py:53-61 | after cleaning, no column reports an invalid value |
| DataQuality.SafeDivide | src/Text2SQL_V2-main/core/data_layer.py:75-77 | the aligned quotient has the longer length; where both sides exist, are present and the denominator is nonzero, result × denominator = numerator; every other position gets the default |
| Seqs.FilterMultiset | src/Text2SQL_V2-main/core/data_layer.py:382-383 | boolean-mask selection keeps each row that meets the condition exactly as often as it occurs, and no other row |
| Seqs.FilterAppend | src/Text2SQL_V2-main/core/data_layer.py:382-383 | selection keeps row order: selecting from `xs + ys` gives the selection from `xs` followed by the selection from `ys` |
| Kpi.FactoryTotalsAppend | src/Text2SQL_V2-main/core/data_layer.py:224-230 | the group sums of actual, plan, defect, scrap and batch over `a + b` are the sums over `a` plus those over `b`, so they do not depend on how the rows are split |
| Kpi.FactoryGroupKpi | src/Text2SQL_V2-main/core/data_layer.py:232-251 | utilisation, adherence and defect rate are 100 × the ratio of the group totals, or 0 on a zero denominator; waste is the scrap total, priced at 10 per unit |
| Kpi.FactoryPercentagesBounded | src/Text2SQL_V2-main/core/data_layer.py:232-248 | when every row has 0 ≤ defect ≤ actual ≤ batch, utilisation and defect rate stay within [0, 100] |
| Kpi.DcNextHour | src/Text2SQL_V2-main/core/data_layer.py:382-383 | with an offset column each next-hour row is kept exactly as often as it occurs, and no other row; without one the frame is unchanged |
| Kpi.DcTotalsAppend | src/Text2SQL_V2-main/core/data_layer.py:387-390 | the stock and demand sums over `a + b` are the sums over `a` plus those over `b` |
| Kpi.DcGroupKpi | src/Text2SQL_V2-main/core/data_layer.py:393-419 | service = 100 × min(stock, demand) / demand; excess = stock − demand when stock exceeds demand and 0 otherwise; waste = 100 × excess / stock; backorders are the demand only when stock is 0; days of cover = stock / demand, 0 at zero demand, absent at the DC-only level; each ratio is 0 when its denominator is 0 |
| Kpi.DcServiceBounded | src/Text2SQL_V2-main/core/data_layer.py:393-398 | with non-negative inputs service lies in [0, 100], and is 100 exactly when stock covers a positive demand |
| Kpi.DcWasteBounded | src/Text2SQL_V2-main/core/data_layer.py:401-406 | with non-negative inputs the DC waste percentage lies in [0, 100] |
| Kpi.StoreNextHour | src/Text2SQL_V2-main/core/data_layer.py:506-507 | with an offset column each next-hour row is kept exactly as often as it occurs, and no other row; without one the frame is unchanged |
| Kpi.StoreTotalsAppend | src/Text2SQL_V2-main/core/data_layer.py:520-530 | the capacity, CSV waste and CSV cost sums over `a + b` are the sums over `a` plus those over `b` |
| Kpi.StoreGroupKpi | src/Text2SQL_V2-main/core/data_layer.py:510-611 | availability = 100 × clipped shelf / capacity; below store level the stockout count is 1 exactly when nothing is on shelf; at store level it counts the empty rows; waste comes from the CSV columns or from the overflow above capacity |
| Kpi.StoreAvailabilityBounded | src/Text2SQL_V2-main/core/data_layer.py:533-547 | when no row's shelf exceeds its capacity, availability lies in [0, 100] and the computed waste is 0 |
| Kpi.SelectKpis | src/Text2SQL_V2-main/core/data_layer.py:665-697 | only rows matching the filters are returned; when a matching row sits at a preferred level, exactly the matching rows at preferred levels are returned; otherwise every matching row is |
| Kpi.SelectKpisCounts | src/Text2SQL_V2-main/core/data_layer.py:665-697 | each selected row appears as often as in the input: the matching rows at preferred levels when one exists, otherwise every matching row |
| Kpi.MatchingCounts | src/Text2SQL_V2-main/core/data_layer.py:680-683 | filtering on the ids keeps every row whose ids match, as often as it occurs, and no other row |
| Kpi.PreferredCounts | src/Text2SQL_V2-main/core/data_layer.py:686-695 | narrowing the matching rows to the preferred levels keeps exactly the matching rows at those levels, with their multiplicities |
| Kpi.PreferredNonEmpty | src/Text2SQL_V2-main/core/data_layer.py:684-695 | the preferred subset is non-empty exactly when some matching row sits at a preferred level, so the fallback to all matching rows is taken only when none does |
| Kpi.GetFactoryKpis | src/Text2SQL_V2-main/core/data_layer.py:665-697 | factory and line given: only line-level rows when one exists; factory only: only factory-level rows when one exists |
| Kpi.GetDcKpis | src/Text2SQL_V2-main/core/data_layer.py:699-728 | DC and SKU given: only DC-SKU rows when one exists; DC only: only DC-level rows when one exists |
| Kpi.GetStoreKpis | src/Text2SQL_V2-main/core/data_layer.py:730-759 | store and SKU given: only store-SKU rows when one exists; store only: only store-level rows when one exists |
| Kpi.EmptyIdIsNoFilter | src/Text2SQL_V2-main/core/data_layer.py:680-683 | an empty identifier filters nothing, exactly like an absent one |
| CommandCenter.MeanOr | src/Text2SQL_V2-main/core/data_layer.py:839-840 | the mean of an empty column is the given fallback; otherwise the value times the row count is the column sum |
| CommandCenter.AccuracyFromMape | src/Text2SQL_V2-main/core/data_layer.py:828-832 | accuracy is 100 − mean MAPE, clamped into [0, 100]: exactly 0 once the mean MAPE reaches 100, exactly 100 when it is 0 or below |
| CommandCenter.ForecastAccuracyAsWritten | src/Text2SQL_V2-main/core/data_layer.py:810-840 | as written, adherence replaces the MAPE accuracy whenever that accuracy is 0, even when MAPE data exists |
| CommandCenter.ForecastAccuracy | src/Text2SQL_V2-main/core/data_layer.py:810-840 | corrected: MAPE data decides the accuracy, clamped into [0, 100]; adherence is used only when there is no MAPE value |
| CommandCenter.AdherenceMasksFailedForecast | src/Text2SQL_V2-main/core/data_layer.py:832-840 | MAPE [150] with adherence [95] reports 95 as written, but 0 when corrected |
| CommandCenter.ForecastAccuracyAgrees | src/Text2SQL_V2-main/core/data_layer.py:810-840 | the two versions agree whenever MAPE is absent, its accuracy is nonzero, or there is no adherence data |
| CommandCenter.WasteCost | src/Text2SQL_V2-main/core/data_layer.py:846-867 | factory and store waste units at unit cost 2, plus DC spoilage (clipped DC stock times the mean waste share) when both DC columns have values |
| CommandCenter.WasteCostNonNegative | src/Text2SQL_V2-main/core/data_layer.py:846-867 | with non-negative waste inputs the waste cost is never negative |
| CommandCenter.ServiceLevel | src/Text2SQL_V2-main/core/data_layer.py:873-890 | the mean of the DC and store service means that are present: one mean alone, half their sum when both exist, 0 when neither does |
| CommandCenter.ServiceLevelBounded | src/Text2SQL_V2-main/core/data_layer.py:873-890 | percentages in, a percentage out |
| CommandCenter.OnShelfAvailability | src/Text2SQL_V2-main/core/data_layer.py:895-902 | clipped on-shelf units as a percentage of the capacity sum (value × capacity = 100 × clipped shelf units); never negative, and 0 without shelf data or without positive capacity |
| CommandCenter.Revenue | src/Text2SQL_V2-main/core/data_layer.py:910-932 | clipped units released to DCs × 5; falls back to clipped store demand when that is 0; never negative |
| CommandCenter.RawUplift | src/Text2SQL_V2-main/core/data_layer.py:953-957 | the uplift before flooring, 0.15 × waste cost + 1050 × service − 100000 in closed form |
| CommandCenter.CommandCenterKpis | src/Text2SQL_V2-main/core/data_layer.py:767-960 | corrected: the record holds the corrected forecast accuracy (in [0, 100] when MAPE exists) and the waste cost, service level, revenue and on-shelf availability defined above; net margin is the absolute gap between revenue and waste cost; the uplift is the raw uplift floored at 0 |
| CommandCenter.CommandCenterKpisAsWritten | src/Text2SQL_V2-main/core/data_layer.py:767-960 | as written: the same record with the as-written forecast accuracy |
| CommandCenter.CommandCenterKpisAgree | src/Text2SQL_V2-main/core/data_layer.py:832-840 | the two records are equal unless MAPE data drives the accuracy to 0 while adherence data exists |
| CommandCenter.UpliftNeedsHighService | src/Text2SQL_V2-main/core/data_layer.py:953-958 | with a service level of at most 95 and a waste cost of at most 1000, the raw uplift is negative, so 0 is reported |
| NodeHealth.NodeStatus | src/Text2SQL_V2-main/core/data_layer.py:1034-1039 | good exactly when service > 90 and waste < 5; warning only inside the 75–90 service band or the 5–15 waste band |
| NodeHealth.DangerIff | src/Text2SQL_V2-main/core/data_layer.py:1034-1039 | danger exactly when service < 75 with waste outside [5, 15], or service > 90 with waste > 15 |
| NodeHealth.DangerMeansLowServiceOrHighWaste | src/Text2SQL_V2-main/core/data_layer.py:1030-1039 | a danger node has service below 75 or waste above 15 |
| NodeHealth.LowServiceMidWasteIsWarning | src/Text2SQL_V2-main/core/data_layer.py:1036-1037 | service 60 with waste 10 is a warning, not danger: the warning test comes before the danger one |
| NodeHealth.WasteAlerts | src/Text2SQL_V2-main/core/data_layer.py:1025-1028 | one alert exactly when waste exceeds 10% |
| NodeHealth.StoreAlerts | src/Text2SQL_V2-main/core/data_layer.py:1171-1176 | one alert each for stockouts and for waste above 10%; none exactly when neither holds |
| NodeHealth.WasteAlertNotGood | src/Text2SQL_V2-main/core/data_layer.py:1025-1039 | a node with a waste alert is never good |
| NodeHealth.Mape | src/Text2SQL_V2-main/core/data_layer.py:1020-1023 | 100 × \|actual − forecast\| / actual for positive actuals, 0 otherwise; zero exactly on a perfect forecast or a non-positive actual |
| Numeric.SharePct | src/Text2SQL_V2-main/core/data_layer.py:999-1002 | 100 × part / whole for a positive whole, 0 otherwise; the dispatch plan's waste rate (api_service.py:222-225) is the same share |
| NodeHealth.SharePctBounded | src/Text2SQL_V2-main/core/data_layer.py:999-1002 | a part of a whole is a percentage in [0, 100] |
| NodeHealth.SharePctEnds | src/Text2SQL_V2-main/core/data_layer.py:999-1002 | 100% exactly for the whole, 0% exactly for nothing |
| NodeHealth.FactoryHealth | src/Text2SQL_V2-main/core/data_layer.py:986-1039 | service is the adherence; waste is scrap over actual from the raw rows, and 0 without them (the KPI fallback's production total is always 0, as the factory KPI rows carry no `prod_actual_qty`); MAPE against the plan, 0 without raw rows; the alert and status rules |
| NodeHealth.DcHealth | src/Text2SQL_V2-main/core/data_layer.py:1060-1105 | waste is expiring over opening stock; MAPE uses opening stock against demand; both are 0 without raw rows; the alert and status rules |
| NodeHealth.StoreService | src/Text2SQL_V2-main/core/data_layer.py:1128-1141 | the share of raw rows with stock on shelf: 100 exactly when every row has stock, 0 exactly when none has; the KPI availability without raw rows |
| NodeHealth.StoreHealth | src/Text2SQL_V2-main/core/data_layer.py:1119-1187 | store waste is KPI waste over raw demand; MAPE of the clipped shelf against demand; both are 0 without raw rows; stockout and waste alerts; the status rule |
| ApiService.FactoryKpiSummary | src/Text2SQL_V2-main/core/api_service.py:20-53 | with no selected KPI row, the zero summary; otherwise utilisation, adherence and defect rate are the means of their columns over the selected rows, waste units the truncated column total and waste cost the column total |
| ApiService.FactorySummaryBounds | src/Text2SQL_V2-main/core/api_service.py:45-51 | for well-formed KPI rows the three percentages lie in [0, 100], waste units are non-negative, and waste cost stays within one 10-unit step of 10 × units |
| ApiService.WasteRisk | src/Text2SQL_V2-main/core/api_service.py:228-233 | low up to 2%, medium up to 5%, high above |
| ApiService.WasteRiskMonotone | src/Text2SQL_V2-main/core/api_service.py:228-233 | a higher waste rate never gives a lower risk |
| ApiService.WasteRiskOfCounts | src/Text2SQL_V2-main/core/api_service.py:219-233 | the risk in terms of the raw counts: low exactly when 100 × scrap ≤ 2 × production, high exactly when 100 × scrap > 5 × production |
| ApiService.Recommended | src/Text2SQL_V2-main/core/api_service.py:209 | the recommendation is the forecast plus 5%, truncated toward zero: never below a non-negative forecast, and less than one unit under 1.05 × forecast |
| ApiService.CapacityImpact | src/Text2SQL_V2-main/core/api_service.py:212-216 | the recommendation as a percentage of line capacity, 0 without capacity |
| ApiService.SkuDisplay | src/Text2SQL_V2-main/core/api_service.py:238 | same length, no underscore, no lower-case letter; every other character is upper-cased in place |
| ApiService.SkuDisplayIdempotent | src/Text2SQL_V2-main/core/api_service.py:238 | formatting a formatted SKU changes nothing |
| ApiService.SkuDisplayExample | src/Text2SQL_V2-main/core/api_service.py:237-238 | sku_101 becomes SKU-101 |
| ApiService.ProductName | src/Text2SQL_V2-main/core/api_service.py:236 | "Product " followed by the SKU with underscores turned into spaces |
| ApiService.DemandBySku | src/Text2SQL_V2-main/core/api_service.py:181-191 | exactly the SKUs of the DC rows, each mapped to its summed demand |
| ApiService.DcDemandData | src/Text2SQL_V2-main/core/api_service.py:181-191 | 24-hour demand when present, otherwise predicted demand, otherwise nothing; nothing without a DC frame, rows or SKU column |
| ApiService.ForecastDemandLookup | src/Text2SQL_V2-main/core/api_service.py:206 | the DC demand for the SKU when known, the production plan otherwise, truncated |
| ApiService.SkuGroups | src/Text2SQL_V2-main/core/api_service.py:194-199 | exactly the SKUs present, without duplicates, in ascending order |
| ApiService.DispatchPlanning | src/Text2SQL_V2-main/core/api_service.py:144-252 | one plan item per SKU of the scoped rows and no other, sorted by SKU; empty without data |
| Sorting.SortStable | src/Text2SQL_V2-main/core/api_service.py:250 | `list.sort` is stable: the elements whose keys are equivalent come out in the order they went in |
| Sorting.StrLeAntisymmetric | src/Text2SQL_V2-main/core/api_service.py:250 | Python's string order is antisymmetric: two strings that compare both ways are equal |
| ApiService.SameDisplaySku | src/Text2SQL_V2-main/core/api_service.py:238-250 | two plan items tie in the sort exactly when their display SKUs are equal |
| ApiService.DispatchTiesKeepSkuOrder | src/Text2SQL_V2-main/core/api_service.py:144-252 | plan items whose display SKUs coincide (`sku_a` and `SKU_A` both show as `SKU-A`) keep the ascending `sku_id` order in which they were built |
| ApiService.DispatchItemRules | src/Text2SQL_V2-main/core/api_service.py:206-238 | each item's recommendation covers its forecast by at most 5%, its SKU is display-formatted, its risk follows its own waste rate, and known DC demand is its forecast |
| ApiService.DcKpiSummary | src/Text2SQL_V2-main/core/api_service.py:259-291 | fixed shelf life; the requested DC identifier is echoed; the default summary when nothing matches; otherwise the first row's DC, service level and waste share as the means of their columns over the selected rows, and backorders as the truncated column total |
| ApiService.DcSummaryBounds | src/Text2SQL_V2-main/core/api_service.py:283-289 | percentages in, percentages out; backorders are never negative |
| ApiService.Snapshot | src/Text2SQL_V2-main/core/api_service.py:361-362 | with an offset column each next-hour row is kept exactly as often as it occurs, and no other row; otherwise all rows |
| ApiService.SplitRemaining | src/Text2SQL_V2-main/core/api_service.py:371-393 | the 40/25/20/15 shares of the remaining stock, each truncated, never exceeding it |
| ApiService.AgeBuckets | src/Text2SQL_V2-main/core/api_service.py:397-416 | three buckets with fixed labels and colours; At Risk is the truncated 25% share of the non-expiring stock, Near Expiry the truncated 20% plus 15% shares, and Fresh Stock the rest: the expiring units, the 40% share and the truncation remainder, so the units add up to max(total, expiring) |
| ApiService.StockTotals | src/Text2SQL_V2-main/core/api_service.py:366-367 | the truncated clipped total of opening stock, and the truncated clipped total of expiring stock when that column exists, else 0 |
| ApiService.InventoryAge | src/Text2SQL_V2-main/core/api_service.py:331-418 | no buckets without rows for the DC; otherwise the three buckets of the next-hour snapshot, whose units add up to max(total, expiring) |
| Hourly.Scoped | src/Text2SQL_V2-main/core/api_service.py:80-88 | exactly the rows of the requested factory and line, each as often as it occurs |
| Hourly.ScopedWithoutIds | src/Text2SQL_V2-main/core/api_service.py:80-88 | with neither id given no filter applies: the rows come back unchanged, in order |
| Hourly.GroupHours | src/Text2SQL_V2-main/core/api_service.py:98 | the hours present, each once, ascending |
| Hourly.DemandSourceOf | src/Text2SQL_V2-main/core/api_service.py:103-114 | predicted demand when its total is nonzero, else the DC 24-hour demand when present, else zero |
| Hourly.Slots | src/Text2SQL_V2-main/core/api_service.py:98-114 | one slot per hour present, holding that hour's totals |
| Hourly.Grouped | src/Text2SQL_V2-main/core/api_service.py:98-114 | keyed by exactly the hours present, each with its totals |
| Hourly.FillSlotsShape | src/Text2SQL_V2-main/core/api_service.py:129-139 | after sorting and filling, every hour 0–23 appears once, with its data or with zeros |
| Hourly.FilledDayExact | src/Text2SQL_V2-main/core/api_service.py:132-139 | the completed series has 24 entries and entry h is hour h |
| Hourly.FillHoursRenders | src/Text2SQL_V2-main/core/api_service.py:116-139 | filling the rendered points equals rendering the filled slots |
| Hourly.LabelsInjective | src/Text2SQL_V2-main/core/api_service.py:119 | distinct hours get distinct labels, so a label identifies its slot |
| Hourly.FillByRenders | src/Text2SQL_V2-main/core/api_service.py:129-139 | completion by label matches completion by hour for any injective labelling |
| Hourly.HourlyProduction | src/Text2SQL_V2-main/core/api_service.py:56-141 | corrected: empty without data, an hour column or scoped rows; otherwise the rendered 24-hour day of the grouped totals |
| Hourly.HourlyProductionDay | src/Text2SQL_V2-main/core/api_service.py:56-141 | for hours in 0–23, entry h renders hour h's totals, or zeros when no row has that hour |
| Hourly.HourlyProductionAsWritten | src/Text2SQL_V2-main/core/api_service.py:98-104 | as written the aggregation fails exactly when the scoped frame lacks y_pred; otherwise it agrees with the corrected series |
| Hourly.MissingPredictionFails | src/Text2SQL_V2-main/core/api_service.py:98-114 | a one-row frame with DC demand but no y_pred fails as written; corrected, it gives 03:00 with actual 10 and demand 7 |
| Hourly.HourlyProductionAgrees | src/Text2SQL_V2-main/core/api_service.py:98-114 | the two versions agree whenever the frame has y_pred |
| Hours.Pad2 | src/Text2SQL_V2-main/core/api_service.py:119 | two digits with a leading zero below 10, no colon |
| Hours.HourLabel | src/Text2SQL_V2-main/core/api_service.py:119 | ends in ":00"; for hours 0–23, five characters with two digits before the colon |
| Hours.HourLabelOneDigit | src/Text2SQL_V2-main/core/api_service.py:119 | hours below 10 are zero-padded |
| Hours.HourKeyOfLabel | src/Text2SQL_V2-main/core/api_service.py:130 | the sort key parsed back from a label is the hour |
| Hours.HourLabelInjective | src/Text2SQL_V2-main/core/api_service.py:119 | different hours never share a label |
| App.MaskKey | src/Text2SQL_V2-main/app.py:155-158 | keys longer than 8 are stars followed by their last 8 characters, at the same length; an empty key is "NOT SET"; a short one is "too short to mask" |
| App.MaskKeyReveals | src/Text2SQL_V2-main/app.py:155-158 | two long keys have the same mask exactly when they share length and last 8 characters |
| App.StartAgents | src/Text2SQL_V2-main/app.py:149-180 | agents are ready exactly when there is no error; a missing Google or OpenAI key for the selected provider gives its own message; when the selected provider's key is set, or the provider is neither, the outcome is the constructor's error, if any |
| App.ReadReply | src/Text2SQL_V2-main/app.py:297-337 | the reply to a read query: empty data with a summary quoting the question when no row came back, otherwise the records and the summary or its fallback; a chart only when asked for and drawn |
| App.Answer | src/Text2SQL_V2-main/app.py:216-337 | generation and execution failures are 500s with the right details; a successful write reports its row count and e-mail; a successful read is answered by the read reply |
| App.Dispatch | src/Text2SQL_V2-main/app.py:186-337 | the preflight answer exactly for OPTIONS; an unhandled failure only when a requested chart fails in the uncorrected handler |
| App.QueryAsWritten | src/Text2SQL_V2-main/app.py:315-351 | as written, a failing chart for a non-empty read escapes as Flask's unhandled error |
| App.Query | src/Text2SQL_V2-main/app.py:185-351 | corrected: OPTIONS preflight; 503 without agents; 400 without a body; 400 exactly for a blank question; otherwise the answer to the stripped question; never unhandled |
| App.BlankQuestionNeedsNoAgent | src/Text2SQL_V2-main/app.py:209-213 | a blank question is rejected with 400 without calling the generator |
| App.MissingKeyReported | src/Text2SQL_V2-main/app.py:151-153 | with the Google provider selected and no Google key, agent start-up fails with the missing-key message, and every later query is answered 503 "Agents not available" carrying that message as details (app.py:173-174, 193-203) |
| App.QueryAgrees | src/Text2SQL_V2-main/app.py:315-329 | when no chart is requested, or the chart succeeds, the two versions give the same reply |
| App.ChartFailureEscapes | src/Text2SQL_V2-main/app.py:326-329 | a failing chart makes the as-written handler unhandled, while the corrected one answers without a chart |
| App.RowHours | src/Text2SQL_V2-main/app.py:418-421 | the hours that have rows, strictly ascending, and every hour with rows among them |
| App.HourGroupsOfHours | src/Text2SQL_V2-main/app.py:418-424 | the groups are one per hour with rows, in ascending hour order, each that hour's labelled sales and forecast sums |
| App.IndexByHour | src/Text2SQL_V2-main/app.py:435-441 | every point is found under its own hour label |
| App.CompleteDay | src/Text2SQL_V2-main/app.py:435-441 | exactly 24 points; point h is the indexed entry for hour h's label when there is one and a zero entry with that label otherwise; over an index that files each entry under its own label, point h carries hour h's label |
| App.StoreHourlySales | src/Text2SQL_V2-main/app.py:382-447 | the 404 reply exactly when there is no store history; an empty list when the store has no rows (app.py:406-408) |
| App.StoreHourlySalesDay | src/Text2SQL_V2-main/app.py:405-441 | for a store with rows, point h is labelled hour h and holds that hour's sales and forecast sums, or zeros |
| App.IndexOfGroups | src/Text2SQL_V2-main/app.py:418-441 | indexing the per-hour groups by label finds exactly the hours that have rows, each with its own group |
| Summarizer.DetectChartType | src/Text2SQL_V2-main/agents/summarizer_agent.py:77-91 | the first chart type, in line, bar, scatter, hist, pie order, with a word in the lower-cased question; auto exactly when none has one |
| Summarizer.DetectChartTypeIgnoresCase | src/Text2SQL_V2-main/agents/summarizer_agent.py:78 | upper- or lower-casing the question does not change the chart type |
| Summarizer.LinePrecedesBar | src/Text2SQL_V2-main/agents/summarizer_agent.py:80-83 | "compare online sales" asks for a line chart: "line" inside "online" wins over "compare" |
| Summarizer.SampleSize | src/Text2SQL_V2-main/agents/summarizer_agent.py:18 | at most 10 rows and at most the rows there are, and exactly one of those limits |
| Summarizer.Excerpt | src/Text2SQL_V2-main/agents/summarizer_agent.py:61 | the sample unchanged up to 500 characters; otherwise its first 500 characters followed by "..." |
| Summarizer.Summarize | src/Text2SQL_V2-main/agents/summarizer_agent.py:11-72 | the no-data message for an empty frame; the model's reply unless it is generic; the sample excerpt for a generic reply; the row count and first five columns when the model fails |
| Summarizer.EmptyNeedsNoModel | src/Text2SQL_V2-main/agents/summarizer_agent.py:13-14 | an empty result gives the same message whatever the model would say, and the message quotes the question |
| Summarizer.ExcerptBound | src/Text2SQL_V2-main/agents/summarizer_agent.py:61 | at most 503 characters, ending in "..." at full length exactly when the sample was cut |
| Summarizer.GenerateViz | src/Text2SQL_V2-main/agents/summarizer_agent.py:93-221 | nothing for an empty frame or a failed render; for a non-empty frame whose chart type is drawable (a numeric column for line, bar, hist and pie, two for scatter, no check for auto without a time column) the rendered PNG with its mime type, and nothing when it is not drawable |
| Summarizer.VizIffDrawable | src/Text2SQL_V2-main/agents/summarizer_agent.py:93-221 | an image comes back exactly when the frame has rows, the chart is drawable and rendering succeeds |
| Summarizer.AutoWithoutTimeDraws | src/Text2SQL_V2-main/agents/summarizer_agent.py:192-201 | an auto chart without a time column is attempted even with no numeric column, so its outcome is the render's |
| DbBuilder.ExecuteSql | src/Text2SQL_V2-main/core/db_builder.py:53-75 | SELECT-led text is read and anything else is written; results come from the right engine; failures carry the prefix and the engine's message; the connection opens first and closes last, once; only a successful write commits |
| DbBuilder.IsReadIgnoresCase | src/Text2SQL_V2-main/core/db_builder.py:57-61 | the read test ignores letter case |
| DbBuilder.IsReadIgnoresIndent | src/Text2SQL_V2-main/core/db_builder.py:57-61 | the read test ignores leading whitespace |
| DbBuilder.SelectIsRead | src/Text2SQL_V2-main/core/db_builder.py:57-61 | any statement starting with "SELECT " or "select " is a read |
| DbBuilder.WithClauseIsNotRead | src/Text2SQL_V2-main/core/db_builder.py:57-61 | a statement starting with "WITH " takes the write path |
| DbBuilder.BuildStep | src/Text2SQL_V2-main/core/db_builder.py:25-44 | order_log is created empty once and never read from CSV; any other table is replaced by its CSV, or the build stops with the CSV's error |
| DbBuilder.BuildDatabase | src/Text2SQL_V2-main/core/db_builder.py:19-49 | an empty schema leaves the database unchanged |
| DbBuilder.OrderLogPreserved | src/Text2SQL_V2-main/core/db_builder.py:25-38 | an existing order_log survives the rebuild unchanged; a new one starts empty |
| DbBuilder.OrderLogCsvUnread | src/Text2SQL_V2-main/core/db_builder.py:25-38 | the build never depends on order_log's CSV |
| DbBuilder.BuildDatabaseTables | src/Text2SQL_V2-main/core/db_builder.py:19-49 | after a successful build the tables are the old ones plus those the schema names; unnamed tables are untouched; each other named table holds the CSV of its last schema entry |
| DbBuilder.BuildDatabaseError | src/Text2SQL_V2-main/core/db_builder.py:21-44 | a failed build stops at the first non-order_log entry whose CSV cannot be read and reports that CSV's error; every CSV before it was read, the database is exactly what the entries before it built, and no later entry is reached |
| DbBuilder.BuildDatabaseSucceeds | src/Text2SQL_V2-main/core/db_builder.py:21-44 | a build completes exactly when every CSV of a non-order_log entry can be read |
| DbBuilder.LoadSchema | src/Text2SQL_V2-main/core/db_builder.py:5-13 | a loaded schema has exactly the tables the config lists |
| DbBuilder.LoadSchemaSucceeds | src/Text2SQL_V2-main/core/db_builder.py:5-13 | loading succeeds exactly when every listed CSV header can be read |
| DbBuilder.LoadSchemaColumns | src/Text2SQL_V2-main/core/db_builder.py:5-13 | each table's columns are the header of the last entry naming it |
| Mailer.StrippedPieces | src/Text2SQL_V2-main/mailer.py:50-52 | never more recipients than pieces |
| Mailer.StrippedPiecesMembers | src/Text2SQL_V2-main/mailer.py:50-52 | every non-blank stripped piece is a recipient, and every recipient is one |
| Mailer.Recipients | src/Text2SQL_V2-main/mailer.py:48-52 | every recipient is non-empty, has no surrounding whitespace and contains no comma |
| Mailer.StrippedPiecesAppend | src/Text2SQL_V2-main/mailer.py:50-52 | recipients keep the order of their pieces |
| Mailer.BlankSettingHasNoRecipients | src/Text2SQL_V2-main/mailer.py:48-52 | an empty or whitespace setting gives no recipients |
| Mailer.RecipientsOfJoined | src/Text2SQL_V2-main/mailer.py:48-52 | clean addresses joined by commas parse back to exactly those addresses |
| Mailer.SendSuccessEmail | src/Text2SQL_V2-main/mailer.py:54-73 | without recipients nothing is built; otherwise an HTML message from the SMTP user to all recipients with the given subject and body, sent exactly when delivery succeeds |
| Mailer.ToHeaderRoundTrip | src/Text2SQL_V2-main/mailer.py:48-63 | parsing the To header as a setting gives back the recipients |

## Left out

- `get_dc_days_cover` (core/api_service.py:294-328) is not modelled. It is a per-SKU table lookup with no rule beyond those of the DC KPI summary.
- Python's `round` is not modelled: values are reported unrounded.
- Values are exact reals, not IEEE doubles.
- The KPI grouping of raw rows by identifier, date and hour is not modelled. A KPI row is computed from one group given as a sequence of rows, and the pandas `concat` of the levels is not modelled.
- NodeHealth.FactoryHealth: the loop over unique identifiers and the choice of the first KPI row are not modelled. The row's values are parameters, and so are the raw sums. The title-cased display names are left out as string formatting.
- CSV reading, timestamps, the `DataLayer` singleton and its cache are not modelled: frames are inputs.
- The language model and SQL generation, the SQLite engine, matplotlib rendering and SMTP delivery are not modelled. Their outcomes are parameters of type `Result`/`Option`.
- ApiService.SkuDisplay: upper-casing is modelled for ASCII letters only. Python's `str.upper` also maps other letters (é to É) and can change the length (ß to SS); SKU identifiers such as `sku_101` are ASCII.
- DataQuality.MustBeNonNegative: the quantity-column test lower-cases labels for ASCII letters only. Python's `str.lower` also maps a few other characters onto ASCII letters (the Kelvin sign U+212A becomes `k`), so a label such as `STOC` followed by a Kelvin sign would be clipped by the source and not by the model; the frames' column labels are ASCII.
- App.Query: a request body that is not JSON, and a `question` field that is not a string, are not modelled. The body is modelled as a string map.
- App.Answer: a failure of the e-mail summary generator in the write branch is not modelled. That failure leaves the e-mail content unbound, so the reply itself raises. The model treats the e-mail subject and body as given. Failures to persist `order_log` or to send the e-mail are only logged, so they do not change the reply and are not modelled either.
- `wants_chart`, and the choice of whether to call the language model for a summary, are parameters of `App.Steps`.
- App.StoreHourlySales: a history file whose timestamps fail to parse (the 500 reply) is not modelled. Rows arrive with their hour already extracted.
- Summarizer.GenerateViz: the column typing, time-column detection, aggregation and plotting are not modelled. Only the guards that decide whether an image is produced are modelled.
- Logging, `print` and the Flask routing table are not modelled.

## Findings

| source | as written | input that shows it | evidently intended | confidence | as-written member | corrected member |
|---|---|---|---|---|---|---|
| src/Text2SQL_V2-main/core/data_layer.py:832-840 | the adherence fallback runs whenever the MAPE accuracy equals 0.0, including when MAPE data exists and is 100 or more | MAPE values [150], adherence [95]: reports 95 | fall back only when there is no MAPE value; report 0 for a forecast that is off by 100% or more | not executed | CommandCenter.ForecastAccuracyAsWritten, CommandCenter.CommandCenterKpisAsWritten (CommandCenter.AdherenceMasksFailedForecast) | CommandCenter.ForecastAccuracy, CommandCenter.CommandCenterKpis |
| src/Text2SQL_V2-main/core/api_service.py:98-104 | the hour aggregation asks for `y_pred` before checking that the column exists, so a frame without it raises KeyError and the `dc_demand_24h` fallback is unreachable | one scoped row, hour 3, actual 10, `dc_demand_24h` 7, no `y_pred` column | aggregate `y_pred` only when present and fall back to DC demand: point 03:00 with actual 10, demand 7 | not executed | Hourly.HourlyProductionAsWritten (Hourly.MissingPredictionFails) | Hourly.HourlyProduction |
| src/Text2SQL_V2-main/app.py:328 | the visualisation error handler calls `traceback.logger.info_exc()`, which raises AttributeError; the outer handler at line 342 makes the same call, so the request ends in Flask's unhandled 500 instead of a reply without a chart | a non-empty read query with a chart requested whose rendering fails | log the traceback and answer the query without a chart | not executed | App.QueryAsWritten (App.ChartFailureEscapes) | App.Query |

=== FILE: api_service.dfy ===
/** The presentational services of `core/api_service.py` other than the hourly series: the
    factory and DC KPI summaries with their defaults for an empty selection, the dispatch
    plan (forecast, recommended production, capacity impact, waste-risk band, display SKU)
    and the DC inventory-age split. Python's `round` for display is not modelled. */
module ApiService {
  import opened Wrappers
  import opened Numeric
  import opened Seqs
  import opened Sorting
  import opened Text
  import Kpi
  import Hourly

  // ---------------------------------------------------------------- factory KPI summary

  datatype FactorySummary = FactorySummary(lineUtilization: real, productionAdherence: real,
    defectRate: real, wasteUnits: int, wasteSar: real)

  const EmptyFactorySummary := FactorySummary(0.0, 0.0, 0.0, 0, 0.0)

  /** One KPI column of the selected rows. */
  function KpiColumn<T>(rows: seq<Kpi.KpiRow<T>>, f: T -> real): (c: seq<real>)
    ensures |c| == |rows|
    ensures forall i :: 0 <= i < |rows| ==> c[i] == f(rows[i].kpi)
  {
    seq(|rows|, i requires 0 <= i < |rows| => f(rows[i].kpi))
  }

  /** `FactoryKPIService.get_factory_kpis`: the means of the percentages and the totals of
      the waste over the selected KPI rows, or all zeros when none is selected. */
  function FactoryKpiSummary(rows: seq<Kpi.KpiRow<Kpi.FactoryKpi>>, factoryId: Option<string>,
    lineId: Option<string>): (s: FactorySummary)
    ensures var sel := Kpi.GetFactoryKpis(rows, factoryId, lineId);
      |sel| == 0 ==> s == EmptyFactorySummary
    // otherwise each percentage is the mean of its column and the waste figures are totals
    ensures var sel := Kpi.GetFactoryKpis(rows, factoryId, lineId);
      |sel| > 0 ==>
        && s.lineUtilization == Mean(KpiColumn(sel, (k: Kpi.FactoryKpi) => k.utilizationPct))
        && s.productionAdherence == Mean(KpiColumn(sel, (k: Kpi.FactoryKpi) => k.adherencePct))
        && s.defectRate == Mean(KpiColumn(sel, (k: Kpi.FactoryKpi) => k.defectRatePct))
        && s.wasteUnits == Trunc(SumReal(KpiColumn(sel, (k: Kpi.FactoryKpi) => k.wasteUnits)))
        && s.wasteSar == SumReal(KpiColumn(sel, (k: Kpi.FactoryKpi) => k.wasteSar))
  {
    var sel := Kpi.GetFactoryKpis(rows, factoryId, lineId);
    if |sel| == 0 then EmptyFactorySummary else FactorySummaryOf(sel)
  }

  function FactorySummaryOf(sel: seq<Kpi.KpiRow<Kpi.FactoryKpi>>): FactorySummary
    requires |sel| > 0
  {
    FactorySummary(
      Mean(KpiColumn(sel, (k: Kpi.FactoryKpi) => k.utilizationPct)),
      Mean(KpiColumn(sel, (k: Kpi.FactoryKpi) => k.adherencePct)),
      Mean(KpiColumn(sel, (k: Kpi.FactoryKpi) => k.defectRatePct)),
      Trunc(SumReal(KpiColumn(sel, (k: Kpi.FactoryKpi) => k.wasteUnits))),
      SumReal(KpiColumn(sel, (k: Kpi.FactoryKpi) => k.wasteSar)))
  }

  /** A KPI row as the data layer builds it: percentages within 0..100, waste cost ten
      times the waste units, waste units not negative. */
  predicate WellFormedFactoryKpi(k: Kpi.FactoryKpi) {
    && 0.0 <= k.utilizationPct <= 100.0
    && 0.0 <= k.adherencePct <= 100.0
    && 0.0 <= k.defectRatePct <= 100.0
    && k.wasteUnits >= 0.0
    && k.wasteSar == 10.0 * k.wasteUnits
  }

  lemma {:induction false} SumRealScaled(xs: seq<real>, ys: seq<real>, c: real)
    requires |xs| == |ys|
    requires forall i :: 0 <= i < |xs| ==> xs[i] == c * ys[i]
    ensures SumReal(xs) == c * SumReal(ys)
    decreases |xs|
  {
    if |xs| > 0 {
      var n := |xs| - 1;
      SumRealScaled(xs[..n], ys[..n], c);
    }
  }

  /** Over well-formed KPI rows the summary's percentages stay within 0..100, the waste units
      are not negative and the waste cost is ten times the total waste units, of which the
      reported units are the truncation. */
  lemma FactorySummaryBounds(rows: seq<Kpi.KpiRow<Kpi.FactoryKpi>>, factoryId: Option<string>,
    lineId: Option<string>)
    requires forall i :: 0 <= i < |rows| ==> WellFormedFactoryKpi(rows[i].kpi)
    ensures var s := FactoryKpiSummary(rows, factoryId, lineId);
      && 0.0 <= s.lineUtilization <= 100.0
      && 0.0 <= s.productionAdherence <= 100.0
      && 0.0 <= s.defectRate <= 100.0
      && s.wasteUnits >= 0
      && 10.0 * (s.wasteUnits as real) <= s.wasteSar < 10.0 * (s.wasteUnits as real) + 10.0
  {
    var sel := Kpi.GetFactoryKpis(rows, factoryId, lineId);
    if |sel| > 0 {
      forall i | 0 <= i < |sel|
        ensures WellFormedFactoryKpi(sel[i].kpi)
      {
        assert sel[i] in rows;
      }
      SummaryOfBounds(sel);
    }
  }

  lemma SummaryOfBounds(sel: seq<Kpi.KpiRow<Kpi.FactoryKpi>>)
    requires |sel| > 0
    requires forall i :: 0 <= i < |sel| ==> WellFormedFactoryKpi(sel[i].kpi)
    ensures var s := FactorySummaryOf(sel);
      && 0.0 <= s.lineUtilization <= 100.0
      && 0.0 <= s.productionAdherence <= 100.0
      && 0.0 <= s.defectRate <= 100.0
      && s.wasteUnits >= 0
      && 10.0 * (s.wasteUnits as real) <= s.wasteSar < 10.0 * (s.wasteUnits as real) + 10.0
  {
    MeanBounds(KpiColumn(sel, (k: Kpi.FactoryKpi) => k.utilizationPct), 0.0, 100.0);
    MeanBounds(KpiColumn(sel, (k: Kpi.FactoryKpi) => k.adherencePct), 0.0, 100.0);
    MeanBounds(KpiColumn(sel, (k: Kpi.FactoryKpi) => k.defectRatePct), 0.0, 100.0);
    var units := KpiColumn(sel, (k: Kpi.FactoryKpi) => k.wasteUnits);
    SumRealNonNegative(units);
    SumRealScaled(KpiColumn(sel, (k: Kpi.FactoryKpi) => k.wasteSar), units, 10.0);
  }

  // ---------------------------------------------------------------- dispatch planning

  /** Waste-risk bands of the dispatch plan. */
  datatype Risk = Low | Medium | High

  function RiskName(r: Risk): string {
    match r
    case Low => "Low"
    case Medium => "Medium"
    case High => "High"
  }

  function RiskRank(r: Risk): nat {
    match r
    case Low => 0
    case Medium => 1
    case High => 2
  }

  /** The band of a waste rate: up to 2 percent is low, up to 5 medium, above that high. */
  function WasteRisk(rate: real): (r: Risk)
    ensures r == Low <==> rate <= 2.0
    ensures r == Medium <==> 2.0 < rate <= 5.0
    ensures r == High <==> rate > 5.0
  {
    if rate <= 2.0 then Low else if rate <= 5.0 then Medium else High
  }

  /** A higher waste rate never lowers the band. */
  lemma WasteRiskMonotone(a: real, b: real)
    requires a <= b
    ensures RiskRank(WasteRisk(a)) <= RiskRank(WasteRisk(b))
  {
  }

  /** The band read off the raw counts: with production, low means scrap is at most 2 units
      per 100 produced and high means more than 5; without production the band is low. */
  lemma WasteRiskOfCounts(scrap: real, production: real)
    ensures production <= 0.0 ==> WasteRisk(SharePct(scrap, production)) == Low
    ensures production > 0.0 ==>
      (WasteRisk(SharePct(scrap, production)) == Low <==> 100.0 * scrap <= 2.0 * production)
    ensures production > 0.0 ==>
      (WasteRisk(SharePct(scrap, production)) == High <==> 100.0 * scrap > 5.0 * production)
  {
    if production > 0.0 {
      var rate := SharePct(scrap, production);
      ScaleByPositive(rate, 2.0, production);
      ScaleByPositive(rate, 5.0, production);
    }
  }

  lemma ScaleByPositive(x: real, y: real, p: real)
    requires p > 0.0
    ensures x <= y <==> x * p <= y * p
  {
    if x <= y {
      assert (y - x) * p >= 0.0;
    } else {
      assert (x - y) * p > 0.0;
    }
  }

  /** Recommended production: the forecast with a 5 percent buffer, truncated. */
  function Recommended(forecast: int): (r: int)
    ensures forecast >= 0 ==> forecast <= r && r as real <= forecast as real * 1.05 < r as real + 1.0
    ensures forecast <= 0 ==> r <= forecast && forecast as real * 1.05 <= r as real
  {
    Trunc(forecast as real * 1.05)
  }

  /** The recommended production as a percentage of the batch capacity, 0 without capacity. */
  function CapacityImpact(recommended: int, capacity: real): (c: real)
    ensures capacity <= 0.0 ==> c == 0.0
    ensures capacity > 0.0 ==> c * capacity == 100.0 * (recommended as real)
  {
    if capacity > 0.0 then (recommended as real) / capacity * 100.0 else 0.0
  }

  /** The display SKU: underscores become hyphens, letters upper case. */
  function SkuDisplay(id: string): (r: string)
    ensures |r| == |id|
    ensures '_' !in r
    ensures forall i :: 0 <= i < |r| ==> !('a' <= r[i] <= 'z')
    ensures forall i :: 0 <= i < |id| && id[i] != '_' ==> r[i] == UpperChar(id[i])
  {
    Upper(ReplaceChar(id, '_', '-'))
  }

  /** Formatting a display SKU again changes nothing. */
  lemma SkuDisplayIdempotent(id: string)
    ensures SkuDisplay(SkuDisplay(id)) == SkuDisplay(id)
  {
    var d := SkuDisplay(id);
    forall i | 0 <= i < |d|
      ensures SkuDisplay(d)[i] == d[i]
    {
      assert d[i] != '_';
    }
  }

  /** The source comment's example: the digits are kept as they are. */
  lemma SkuDisplayExample()
    ensures SkuDisplay("sku_101") == "SKU-101"
  {
  }

  /** The product name: "Product " and the id with underscores as spaces. */
  function ProductName(id: string): (r: string)
    ensures StartsWith(r, "Product ") && |r| == 8 + |id|
    ensures forall i :: 0 <= i < |id| ==> r[8 + i] == (if id[i] == '_' then ' ' else id[i])
  {
    "Product " + ReplaceChar(id, '_', ' ')
  }

  /** One DC forecast row as the dispatch plan reads it. */
  datatype DcDemandRow = DcDemandRow(sku: string, demand24h: real, predicted: real)

  datatype DcFrame = DcFrame(rows: seq<DcDemandRow>, hasSku: bool, hasDemand24h: bool,
    hasPredicted: bool)

  /** The sum of `f` over the rows of one SKU. */
  function DcSkuSum(rows: seq<DcDemandRow>, sku: string, f: DcDemandRow -> real): real {
    if |rows| == 0 then 0.0
    else
      var last := rows[|rows| - 1];
      DcSkuSum(rows[..|rows| - 1], sku, f) + (if last.sku == sku then f(last) else 0.0)
  }

  function DcSkus(rows: seq<DcDemandRow>): set<string> {
    set i | 0 <= i < |rows| :: rows[i].sku
  }

  /** `groupby("sku_id")[col].sum().to_dict()`. */
  function DemandBySku(rows: seq<DcDemandRow>, f: DcDemandRow -> real): (m: map<string, real>)
    ensures m.Keys == DcSkus(rows)
    ensures forall k :: k in m ==> m[k] == DcSkuSum(rows, k, f)
  {
    map k | k in DcSkus(rows) :: DcSkuSum(rows, k, f)
  }

  /** The DC demand per SKU: `dc_demand_24h` when present, else `predicted_demand`, and
      nothing when the DC frame is missing, empty or has no `sku_id`. */
  function DcDemandData(dc: Option<DcFrame>): (m: map<string, real>)
    ensures dc.None? || |dc.value.rows| == 0 || !dc.value.hasSku ==> m == map[]
    ensures dc.Some? && dc.value.hasSku && |dc.value.rows| > 0 ==>
      (dc.value.hasDemand24h ==> m == DemandBySku(dc.value.rows, (r: DcDemandRow) => r.demand24h))
      && (!dc.value.hasDemand24h && dc.value.hasPredicted ==>
            m == DemandBySku(dc.value.rows, (r: DcDemandRow) => r.predicted))
      && (!dc.value.hasDemand24h && !dc.value.hasPredicted ==> m == map[])
  {
    if dc.None? || |dc.value.rows| == 0 || !dc.value.hasSku then map[]
    else if dc.value.hasDemand24h then DemandBySku(dc.value.rows, (r: DcDemandRow) => r.demand24h)
    else if dc.value.hasPredicted then DemandBySku(dc.value.rows, (r: DcDemandRow) => r.predicted)
    else map[]
  }

  /** The forecast demand of a SKU: its DC demand when the map is non-empty and has it,
      the planned production otherwise. */
  function ForecastDemand(demand: map<string, real>, sku: string, plan: real): int {
    if |demand| > 0 then Trunc(if sku in demand then demand[sku] else plan) else Trunc(plan)
  }

  /** The emptiness test on the demand map changes nothing: a SKU's forecast is its DC demand
      when it has one and its planned production otherwise. */
  lemma ForecastDemandLookup(demand: map<string, real>, sku: string, plan: real)
    ensures sku in demand ==> ForecastDemand(demand, sku, plan) == Trunc(demand[sku])
    ensures sku !in demand ==> ForecastDemand(demand, sku, plan) == Trunc(plan)
  {
    if sku in demand {
      assert sku in demand.Keys;
      assert |demand| > 0;
    }
  }

  /** The sum of `f` over the production rows of one SKU. */
  function SkuSum(rows: seq<Hourly.ProdRow>, sku: string, f: Hourly.ProdRow -> real): real {
    if |rows| == 0 then 0.0
    else
      var last := rows[|rows| - 1];
      SkuSum(rows[..|rows| - 1], sku, f) + (if last.sku == sku then f(last) else 0.0)
  }

  datatype DispatchItem = DispatchItem(sku: string, name: string, forecastDemand: int,
    recommendedProd: int, capacityImpact: real, wasteRisk: Risk)

  /** The plan entry of one SKU group. */
  function DispatchItemOf(rows: seq<Hourly.ProdRow>, demand: map<string, real>, sku: string)
    : DispatchItem
  {
    var forecast := ForecastDemand(demand, sku, SkuSum(rows, sku, (r: Hourly.ProdRow) => r.plan));
    var recommended := Recommended(forecast);
    var capacity := SkuSum(rows, sku, (r: Hourly.ProdRow) => r.batch);
    var production := SkuSum(rows, sku, (r: Hourly.ProdRow) => r.actual);
    var scrap := SkuSum(rows, sku, (r: Hourly.ProdRow) => r.scrap);
    DispatchItem(SkuDisplay(sku), ProductName(sku), forecast, recommended,
      CapacityImpact(recommended, capacity), WasteRisk(SharePct(scrap, production)))
  }

  function Identity(s: string): string {
    s
  }

  function SkuOf(r: Hourly.ProdRow): string {
    r.sku
  }

  /** The SKU groups in `groupby` order: each SKU once, ascending. */
  function SkuGroups(rows: seq<Hourly.ProdRow>): (skus: seq<string>)
    ensures forall s :: s in skus <==> exists i :: 0 <= i < |rows| && rows[i].sku == s
    ensures forall i, j :: 0 <= i < j < |skus| ==> skus[i] != skus[j]
    ensures Sorted(skus, Identity, StrLe)
  {
    var ids := MapSeq(SkuOf, rows);
    var d := Distinct(ids);
    var skus := Sort(d, Identity, StrLe);
    StrLePreorder();
    SortSorted(d, Identity, StrLe);
    DistinctTransfer(d, skus);
    SameMembers(d, skus);
    SkusOfRows(rows);
    skus
  }

  /** A permutation has the same members. */
  lemma SameMembers<T>(a: seq<T>, b: seq<T>)
    requires multiset(a) == multiset(b)
    ensures forall x :: x in a <==> x in b
  {
    forall x
      ensures x in a <==> x in b
    {
      assert x in a <==> x in multiset(a);
      assert x in b <==> x in multiset(b);
    }
  }

  /** The SKU column holds exactly the SKUs of the rows. */
  lemma SkusOfRows(rows: seq<Hourly.ProdRow>)
    ensures forall s :: s in MapSeq(SkuOf, rows) <==> exists i :: 0 <= i < |rows| && rows[i].sku == s
  {
    var ids := MapSeq(SkuOf, rows);
    forall s | exists i :: 0 <= i < |rows| && rows[i].sku == s
      ensures s in ids
    {
      var i :| 0 <= i < |rows| && rows[i].sku == s;
      assert ids[i] == s;
    }
  }

  /** A permutation of a list without repeats has no repeats. */
  lemma DistinctTransfer<T>(a: seq<T>, b: seq<T>)
    requires multiset(a) == multiset(b)
    requires forall i, j :: 0 <= i < j < |a| ==> a[i] != a[j]
    ensures forall i, j :: 0 <= i < j < |b| ==> b[i] != b[j]
  {
    forall i, j | 0 <= i < j < |b|
      ensures b[i] != b[j]
    {
      if b[i] == b[j] {
        TwoCopies(b, i, j);
        var p, q := CopiesGivePositions(a, b[i]);
        assert false;
      }
    }
  }

  function ItemSku(x: DispatchItem): string {
    x.sku
  }

  /** `FactoryKPIService.get_factory_dispatch_planning`: one entry per SKU of the scoped
      production rows, sorted by display SKU; nothing without production rows in scope. */
  function DispatchPlanning(raw: Option<Hourly.ProdFrame>, dc: Option<DcFrame>,
    factoryId: Option<string>, lineId: Option<string>): (r: seq<DispatchItem>)
    ensures raw.None? ==> r == []
    ensures raw.Some? ==> var rows := Hourly.Scoped(raw.value.rows, factoryId, lineId);
      && (|rows| == 0 ==> r == [])
      && |r| == |SkuGroups(rows)|
      && Sorted(r, ItemSku, StrLe)
      && (forall x :: x in r ==> exists s :: s in SkuGroups(rows) && x == DispatchItemOf(rows, DcDemandData(dc), s))
      && (forall s :: s in SkuGroups(rows) ==> DispatchItemOf(rows, DcDemandData(dc), s) in r)
  {
    if raw.None? || |raw.value.rows| == 0 then []
    else
      var rows := Hourly.Scoped(raw.value.rows, factoryId, lineId);
      if |rows| == 0 then []
      else
        PlanOfSkus(rows, DcDemandData(dc), SkuGroups(rows));
        Sort(ItemsOf(rows, DcDemandData(dc), SkuGroups(rows)), ItemSku, StrLe)
  }

  /** Items whose display SKUs tie keep the order of their SKUs: `sorted` is stable, so
      SKUs such as `sku_a` and `SKU_A`, which both display as `SKU-A`, stay in ascending
      `sku_id` order. */
  lemma DispatchTiesKeepSkuOrder(raw: Option<Hourly.ProdFrame>, dc: Option<DcFrame>,
    factoryId: Option<string>, lineId: Option<string>, d: string)
    ensures raw.Some? ==>
      Filter(DispatchPlanning(raw, dc, factoryId, lineId), SameKey(ItemSku, StrLe, d)) ==
      Filter(ItemsOf(Hourly.Scoped(raw.value.rows, factoryId, lineId), DcDemandData(dc),
        SkuGroups(Hourly.Scoped(raw.value.rows, factoryId, lineId))), SameKey(ItemSku, StrLe, d))
  {
    if raw.Some? {
      var rows := Hourly.Scoped(raw.value.rows, factoryId, lineId);
      var items := ItemsOf(rows, DcDemandData(dc), SkuGroups(rows));
      StrLePreorder();
      SortStable(items, ItemSku, StrLe, d);
    }
  }

  /** Two plan items tie in the sort exactly when their display SKUs are equal. */
  lemma SameDisplaySku(d: string, x: DispatchItem)
    ensures SameKey(ItemSku, StrLe, d)(x) <==> x.sku == d
  {
    StrLePreorder();
    if StrLe(x.sku, d) && StrLe(d, x.sku) {
      StrLeAntisymmetric(x.sku, d);
    }
  }

  /** One plan item per SKU, in the order of `skus`. */
  function ItemsOf(rows: seq<Hourly.ProdRow>, demand: map<string, real>, skus: seq<string>)
    : (items: seq<DispatchItem>)
    ensures |items| == |skus|
    ensures forall i :: 0 <= i < |skus| ==> items[i] == DispatchItemOf(rows, demand, skus[i])
  {
    seq(|skus|, i requires 0 <= i < |skus| => DispatchItemOf(rows, demand, skus[i]))
  }

  /** Sorting the items of `skus` by SKU gives one item per SKU and no other, in order. */
  lemma PlanOfSkus(rows: seq<Hourly.ProdRow>, demand: map<string, real>, skus: seq<string>)
    ensures var r := Sort(ItemsOf(rows, demand, skus), ItemSku, StrLe);
      && |r| == |skus|
      && Sorted(r, ItemSku, StrLe)
      && (forall x :: x in r ==> exists s :: s in skus && x == DispatchItemOf(rows, demand, s))
      && (forall s :: s in skus ==> DispatchItemOf(rows, demand, s) in r)
  {
    var items := ItemsOf(rows, demand, skus);
    var r := Sort(items, ItemSku, StrLe);
    StrLePreorder();
    SortSorted(items, ItemSku, StrLe);
    SameMembers(items, r);
    ItemsOfSkus(rows, demand, skus, items);
  }

  /** The items built one per SKU are exactly the items of those SKUs. */
  lemma ItemsOfSkus(rows: seq<Hourly.ProdRow>, demand: map<string, real>, skus: seq<string>,
    items: seq<DispatchItem>)
    requires |items| == |skus|
    requires forall i :: 0 <= i < |skus| ==> items[i] == DispatchItemOf(rows, demand, skus[i])
    ensures forall x :: x in items ==> exists s :: s in skus && x == DispatchItemOf(rows, demand, s)
    ensures forall s :: s in skus ==> DispatchItemOf(rows, demand, s) in items
  {
    forall x | x in items
      ensures exists s :: s in skus && x == DispatchItemOf(rows, demand, s)
    {
      var i :| 0 <= i < |items| && items[i] == x;
      assert skus[i] in skus;
    }
    forall s | s in skus
      ensures DispatchItemOf(rows, demand, s) in items
    {
      var i :| 0 <= i < |skus| && skus[i] == s;
      assert items[i] == DispatchItemOf(rows, demand, s);
    }
  }

  /** Every plan entry keeps the production rules: the recommendation covers a non-negative
      forecast by at most 5 percent, the band follows the waste rate, and the SKU shows no
      underscore and no lower-case letter. */
  lemma DispatchItemRules(rows: seq<Hourly.ProdRow>, demand: map<string, real>, sku: string)
    ensures var x := DispatchItemOf(rows, demand, sku);
      && (x.forecastDemand >= 0 ==>
            x.forecastDemand <= x.recommendedProd
            && x.recommendedProd as real <= x.forecastDemand as real * 1.05)
      && x.sku == SkuDisplay(sku) && '_' !in x.sku
      && x.wasteRisk == WasteRisk(SharePct(SkuSum(rows, sku, (r: Hourly.ProdRow) => r.scrap),
           SkuSum(rows, sku, (r: Hourly.ProdRow) => r.actual)))
      && (sku in demand ==> x.forecastDemand == Trunc(demand[sku]))
  {
    ForecastDemandLookup(demand, sku, SkuSum(rows, sku, (r: Hourly.ProdRow) => r.plan));
  }

  // ---------------------------------------------------------------- DC KPI summary

  datatype DcSummary = DcSummary(dcId: string, serviceLevelPct: real, wastePercent: real,
    avgShelfLifeDays: real, backorders: int)

  /** The shelf life reported for every DC: the data has no age column. */
  const PlaceholderShelfLife: real := 4.0

  /** `DCKPIService.get_dc_kpis`: the selected rows' mean service level and waste share and
      total backorders; the id asked for, or the first row's, or "UNKNOWN" without rows. */
  function DcKpiSummary(rows: seq<Kpi.KpiRow<Kpi.DcKpi>>, dcId: Option<string>): (s: DcSummary)
    ensures s.avgShelfLifeDays == PlaceholderShelfLife
    ensures Kpi.Given(dcId) ==> s.dcId == dcId.value
    ensures |Kpi.GetDcKpis(rows, dcId, None)| == 0 ==>
      s == DcSummary(if Kpi.Given(dcId) then dcId.value else "UNKNOWN", 0.0, 0.0, 4.0, 0)
    ensures var sel := Kpi.GetDcKpis(rows, dcId, None);
      |sel| > 0 && !Kpi.Given(dcId) ==> s.dcId == sel[0].node.value
    // otherwise the shares are column means and the backorders a truncated total
    ensures var sel := Kpi.GetDcKpis(rows, dcId, None);
      |sel| > 0 ==>
        && s.serviceLevelPct == Mean(KpiColumn(sel, (k: Kpi.DcKpi) => k.servicePct))
        && s.wastePercent == Mean(KpiColumn(sel, (k: Kpi.DcKpi) => k.wastePct))
        && s.backorders == Trunc(SumReal(KpiColumn(sel, (k: Kpi.DcKpi) => k.backorderUnits)))
  {
    var sel := Kpi.GetDcKpis(rows, dcId, None);
    if |sel| == 0 then
      DcSummary(if Kpi.Given(dcId) then dcId.value else "UNKNOWN", 0.0, 0.0, PlaceholderShelfLife, 0)
    else
      assert Kpi.Matches(sel[0], dcId, None);
      DcSummary(
        if Kpi.Given(dcId) then dcId.value else sel[0].node.value,
        Mean(KpiColumn(sel, (k: Kpi.DcKpi) => k.servicePct)),
        Mean(KpiColumn(sel, (k: Kpi.DcKpi) => k.wastePct)),
        PlaceholderShelfLife,
        Trunc(SumReal(KpiColumn(sel, (k: Kpi.DcKpi) => k.backorderUnits))))
  }

  /** Over KPI rows with percentages in 0..100 and no negative backorders, the summary's
      shares are percentages and its backorders are not negative. */
  lemma DcSummaryBounds(rows: seq<Kpi.KpiRow<Kpi.DcKpi>>, dcId: Option<string>)
    requires forall i :: 0 <= i < |rows| ==>
      0.0 <= rows[i].kpi.servicePct <= 100.0 && 0.0 <= rows[i].kpi.wastePct <= 100.0
      && rows[i].kpi.backorderUnits >= 0.0
    ensures var s := DcKpiSummary(rows, dcId);
      0.0 <= s.serviceLevelPct <= 100.0 && 0.0 <= s.wastePercent <= 100.0 && s.backorders >= 0
  {
    var sel := Kpi.GetDcKpis(rows, dcId, None);
    if |sel| > 0 {
      assert forall i :: 0 <= i < |sel| ==> sel[i] in rows;
      MeanBounds(KpiColumn(sel, (k: Kpi.DcKpi) => k.servicePct), 0.0, 100.0);
      MeanBounds(KpiColumn(sel, (k: Kpi.DcKpi) => k.wastePct), 0.0, 100.0);
      SumRealNonNegative(KpiColumn(sel, (k: Kpi.DcKpi) => k.backorderUnits));
    }
  }

  // ---------------------------------------------------------------- inventory age

  /** One DC forecast row as the age split reads it. */
  datatype StockRow = StockRow(dc: string, offset: int, opening: real, expiring: real)

  datatype StockFrame = StockFrame(rows: seq<StockRow>, hasOffset: bool, hasExpiring: bool)

  datatype AgeBucket = AgeBucket(bucket: string, units: int, color: string)

  const FreshLabel := "Fresh Stock (0-3 days)"
  const AtRiskLabel := "At Risk (4-5 days)"
  const NearExpiryLabel := "Near Expiry (6+ days)"
  const FreshColor := "#2CA02C"
  const AtRiskColor := "#FF7F0E"
  const NearExpiryColor := "#D62728"

  function Openings(rows: seq<StockRow>): (c: seq<real>)
    ensures |c| == |rows| && forall i :: 0 <= i < |rows| ==> c[i] == rows[i].opening
  {
    seq(|rows|, i requires 0 <= i < |rows| => rows[i].opening)
  }

  function Expirings(rows: seq<StockRow>): (c: seq<real>)
    ensures |c| == |rows| && forall i :: 0 <= i < |rows| ==> c[i] == rows[i].expiring
  {
    seq(|rows|, i requires 0 <= i < |rows| => rows[i].expiring)
  }

  /** The rows of the current snapshot: forecast hour offset 1, when that column exists. */
  function Snapshot(rows: seq<StockRow>, hasOffset: bool): (r: seq<StockRow>)
    ensures !hasOffset ==> r == rows
    ensures hasOffset ==> forall i :: 0 <= i < |r| ==> r[i] in rows && r[i].offset == 1
    ensures hasOffset ==> forall i :: 0 <= i < |rows| && rows[i].offset == 1 ==> rows[i] in r
    ensures hasOffset ==> forall x :: multiset(r)[x] == if x.offset == 1 then multiset(rows)[x] else 0
  {
    if hasOffset then
      var p := (x: StockRow) => x.offset == 1;
      FilterMultiset(rows, p);
      Filter(rows, p)
    else rows
  }

  /** The split of the stock that is not expiring: the 2-3, 4-5, 6-7 and 7+ day shares of
      40, 25, 20 and 15 percent, each truncated. */
  datatype Shares = Shares(b23: int, b45: int, b67: int, b7: int)

  function SplitRemaining(rem: int): (s: Shares)
    requires rem >= 0
    ensures s.b23 >= 0 && s.b45 >= 0 && s.b67 >= 0 && s.b7 >= 0
    ensures s.b23 + s.b45 + s.b67 + s.b7 <= rem
    ensures 5 * s.b23 <= 2 * rem < 5 * s.b23 + 5
    ensures 4 * s.b45 <= rem < 4 * s.b45 + 4
    ensures 5 * s.b67 <= rem < 5 * s.b67 + 5
    ensures 20 * s.b7 <= 3 * rem < 20 * s.b7 + 20
  {
    var x := rem as real;
    Shares(Trunc(x * 0.40), Trunc(x * 0.25), Trunc(x * 0.20), Trunc(x * 0.15))
  }

  /** The three buckets of a snapshot with `total` units in stock, `expiring` of them within
      a day: the expiring units and the 2-3 day share (which takes the truncation remainder)
      are fresh, the 4-5 day share is at risk, the rest is near expiry. */
  function AgeBuckets(total: int, expiring: int): (r: seq<AgeBucket>)
    requires total >= 0 && expiring >= 0
    ensures |r| == 3
    ensures r[0].bucket == FreshLabel && r[1].bucket == AtRiskLabel && r[2].bucket == NearExpiryLabel
    ensures r[0].color == FreshColor && r[1].color == AtRiskColor && r[2].color == NearExpiryColor
    ensures r[0].units >= 0 && r[1].units >= 0 && r[2].units >= 0
    ensures r[0].units + r[1].units + r[2].units == Max(total, expiring)
    ensures r[0].units >= expiring
    ensures 4 * r[1].units <= Max(0, total - expiring) < 4 * r[1].units + 4
    // near expiry is the 6-7 day share plus the 7+ day share of the remaining stock
    ensures r[2].units == SplitRemaining(Max(0, total - expiring)).b67 + SplitRemaining(Max(0, total - expiring)).b7
    // fresh takes the rest: the expiring units, the 2-3 day share and the truncation remainder
    ensures total >= expiring ==> r[0].units == total - r[1].units - r[2].units
    ensures total <= expiring ==> r[0].units == expiring && r[1].units == 0 && r[2].units == 0
  {
    var rem := Max(0, total - expiring);
    var s := SplitRemaining(rem);
    var distributed := expiring + s.b23 + s.b45 + s.b67 + s.b7;
    var b23 := if distributed < total then s.b23 + (total - distributed) else s.b23;
    [AgeBucket(FreshLabel, expiring + b23, FreshColor),
     AgeBucket(AtRiskLabel, s.b45, AtRiskColor),
     AgeBucket(NearExpiryLabel, s.b67 + s.b7, NearExpiryColor)]
  }

  /** Total and expiring stock of a snapshot: negative cells clipped to 0, sums truncated;
      no expiring column counts as nothing expiring. */
  function StockTotals(rows: seq<StockRow>, hasExpiring: bool): (t: (int, int))
    ensures t.0 >= 0 && t.1 >= 0
    ensures t.0 == Trunc(ClippedSum(Openings(rows)))
    ensures hasExpiring ==> t.1 == Trunc(ClippedSum(Expirings(rows)))
    ensures !hasExpiring ==> t.1 == 0
  {
    (Trunc(ClippedSum(Openings(rows))), if hasExpiring then Trunc(ClippedSum(Expirings(rows))) else 0)
  }

  /** `DCKPIService.get_dc_inventory_age_distribution`. Nothing without DC rows (in scope);
      otherwise three buckets that together hold every unit in stock, or the expiring units
      when the stock figures say fewer. */
  function InventoryAge(raw: Option<StockFrame>, dcId: Option<string>): (r: seq<AgeBucket>)
    ensures raw.None? || |raw.value.rows| == 0 ==> r == []
    ensures raw.Some? ==> var scoped := Filter(raw.value.rows, (x: StockRow) => Kpi.Given(dcId) ==> x.dc == dcId.value);
      && (|scoped| == 0 ==> r == [])
      && (|scoped| > 0 ==>
            var t := StockTotals(Snapshot(scoped, raw.value.hasOffset), raw.value.hasExpiring);
            r == AgeBuckets(t.0, t.1) && |r| == 3
            && r[0].units + r[1].units + r[2].units == Max(t.0, t.1))
  {
    if raw.None? || |raw.value.rows| == 0 then []
    else
      var scoped := Filter(raw.value.rows, (x: StockRow) => Kpi.Given(dcId) ==> x.dc == dcId.value);
      if |scoped| == 0 then []
      else
        var t := StockTotals(Snapshot(scoped, raw.value.hasOffset), raw.value.hasExpiring);
        AgeBuckets(t.0, t.1)
  }
}

=== FILE: app.dfy ===
/** The Flask application's own rules: how the configured API key is shown in the log,
    whether the agents start, what `/query` answers for each outcome of its steps, and
    the 24-hour completion of `/store-hourly-sales`. The language model, the SQL
    generator, `wants_chart` and the e-mail summary are parameters: their outcomes are
    given. */
module App {
  import opened Wrappers
  import opened Text
  import opened Seqs
  import opened Hours
  import opened Frames
  import DbBuilder
  import Hourly

  // ---------------------------------------------------------------- API-key masking

  const NotSet: string := "NOT SET"
  const TooShort: string := "SET (too short to mask)"

  /** The key as logged: all but its last eight characters starred out. */
  function MaskKey(key: string): (r: string)
    ensures |key| > 8 ==> |r| == |key| && r[|r| - 8..] == key[|key| - 8..]
    ensures |key| > 8 ==> forall i :: 0 <= i < |key| - 8 ==> r[i] == '*'
    ensures |key| == 0 ==> r == NotSet
    ensures 0 < |key| <= 8 ==> r == TooShort
  {
    if |key| > 8 then seq(|key| - 8, _ => '*') + key[|key| - 8..]
    else if |key| == 0 then NotSet
    else TooShort
  }

  /** The mask shows nothing but the length and the last eight characters: keys that
      agree on those are logged alike, and keys that differ in them are not. */
  lemma MaskKeyReveals(k1: string, k2: string)
    requires |k1| > 8 && |k2| > 8
    ensures MaskKey(k1) == MaskKey(k2) <==> |k1| == |k2| && k1[|k1| - 8..] == k2[|k2| - 8..]
  {
    if |k1| == |k2| && k1[|k1| - 8..] == k2[|k2| - 8..] {
      assert forall i :: 0 <= i < |k1| ==> MaskKey(k1)[i] == MaskKey(k2)[i];
    }
  }

  // ---------------------------------------------------------------- agent start-up

  /** The agents after start-up, and the message of the exception that stopped them. */
  datatype Agents = Agents(ready: bool, error: Option<string>)

  const GoogleKeyMissing: string := "GOOGLE_API_KEY is required but not set. Please check your .env file."
  const OpenaiKeyMissing: string := "OPENAI_API_KEY is required but not set. Please check your .env file."

  /** A key counts as set when it is present and not empty. */
  predicate KeySet(key: Option<string>) {
    key.Some? && key.value != ""
  }

  /** Start-up for the configured provider and keys. A provider's key is required when
      that provider is selected (an unset or empty key raises); `construct` is the
      outcome of building the two agents: None, or the message of what they raised. */
  function StartAgents(provider: string, googleKey: Option<string>, openaiKey: Option<string>,
    construct: Option<string>): (r: Agents)
    ensures r.ready <==> r.error.None?
    ensures provider == "google" && !KeySet(googleKey) ==> r.error == Some(GoogleKeyMissing)
    ensures provider == "openai" && !KeySet(openaiKey) ==> r.error == Some(OpenaiKeyMissing)
    // with the selected provider's key set, or another provider, the constructor decides
    ensures (provider == "google" && KeySet(googleKey)) || (provider == "openai" && KeySet(openaiKey))
      ==> r.error == construct
    ensures provider != "google" && provider != "openai" ==> r.error == construct
  {
    if provider == "google" && !KeySet(googleKey) then
      Agents(false, Some(GoogleKeyMissing))
    else if provider == "openai" && !KeySet(openaiKey) then
      Agents(false, Some(OpenaiKeyMissing))
    else
      match construct
      case None => Agents(true, None)
      case Some(e) => Agents(false, Some(e))
  }

  // ---------------------------------------------------------------- /query

  datatype Method = Options | Post

  datatype Email = Email(subject: string, body: string)

  /** The answer of the view. `Failed` bodies carry `data: []` and null `viz` and `mime`;
      `Unhandled` is an exception escaping the view, which the framework turns into its
      own 500 page. */
  datatype Reply =
    | Preflight
    | Rejected(status: int, error: string)
    | Failed(status: int, error: string, details: string, statement: Option<string>, summary: string)
    | Written(sql: string, rowsAffected: int, emailSubject: string, emailBody: string, summary: string)
    | Answered(sql: string, data: seq<map<string, Cell>>, summary: string,
               viz: Option<string>, mime: Option<string>)
    | Unhandled

  function Status(r: Reply): int {
    match r
    case Preflight => 200
    case Rejected(s, _) => s
    case Failed(s, _, _, _, _) => s
    case Written(_, _, _, _, _) => 200
    case Answered(_, _, _, _, _) => 200
    case Unhandled => 500
  }

  const AgentsMissingDetails: string := "Agents not initialized. Please check backend configuration."
  const AgentsMissingSummary: string :=
    "The AI agents are not properly configured. Please check the backend logs for details. "
    + "Common issues: missing API keys (GOOGLE_API_KEY or OPENAI_API_KEY) in environment variables."
  const GenerateSummary: string :=
    "I encountered an error while processing your query. Please try rephrasing it."
  const ExecuteSummary: string :=
    "I generated a SQL query but encountered an error executing it. Please try rephrasing your question."

  /** `body.get("question", "")`; a body is any JSON object, a missing one is None. */
  function QuestionOf(body: map<string, string>): string {
    if "question" in body then body["question"] else ""
  }

  function WrittenSummary(n: int): string {
    IntString(n) + " row(s) successfully written to order_log."
  }

  function EmptyReadSummary(question: string): string {
    "No data found for your query: '" + question
      + "'. Please try rephrasing your question or check if the data exists in the database."
  }

  /** The summary used when the summarizer raises. */
  function FallbackSummary(df: Frame): string {
    "Query returned " + NatString(df.height) + " row(s). Columns: "
      + Join(Names(df)[..if |df.columns| < 5 then |df.columns| else 5], ", ")
  }

  /** Every outcome the view depends on. `generate` is the SQL generator on the stripped
      question; `read` and `write` are the database as `execute_sql` sees it; `summary`
      is what the summarizer returns or raises; `wantsChart` is `wants_chart(question)`;
      `viz` is what `generate_viz` returns or raises. */
  datatype Steps = Steps(
    agents: Agents,
    generate: string -> Result<string>,
    read: string -> Result<Frame>,
    write: string -> Result<int>,
    email: Email,
    summary: Result<string>,
    wantsChart: bool,
    viz: Result<(Option<string>, Option<string>)>)

  /** A pandas frame always has cells for every row of every column. */
  ghost predicate FramesWellFormed(s: Steps) {
    forall sql :: s.read(sql).Success? ==> WellFormed(s.read(sql).value)
  }

  /** The read branch: the summary, the records and the chart. `corrected` says whether
      a chart that raises is skipped (true) or lets the exception escape (false), so that
      the as-written and the corrected handlers share this step. */
  function ReadReply(question: string, sql: string, df: Frame, s: Steps, corrected: bool)
    : (r: Reply)
    requires WellFormed(df)
    ensures r.Unhandled? <==> !corrected && s.wantsChart && !IsEmpty(df) && s.viz.Failure?
    ensures !r.Unhandled? ==> r.Answered? && r.sql == sql
    // an empty result carries no records, is never summarized by the model and never charted
    ensures r.Answered? && IsEmpty(df) ==>
      r.data == [] && r.summary == EmptyReadSummary(question) && r.viz.None? && r.mime.None?
    ensures r.Answered? && !IsEmpty(df) ==> r.data == Records(df)
    ensures r.Answered? && !IsEmpty(df) ==>
      r.summary == (if s.summary.Success? then s.summary.value else FallbackSummary(df))
    // a chart appears only when one was asked for and drawn
    ensures r.Answered? && (r.viz.Some? || r.mime.Some?) ==>
      s.wantsChart && s.viz.Success? && (r.viz, r.mime) == s.viz.value
  {
    var summary := if IsEmpty(df) then EmptyReadSummary(question)
                   else match s.summary
                        case Success(text) => text
                        case Failure(_) => FallbackSummary(df);
    var data := if IsEmpty(df) then [] else Records(df);
    if s.wantsChart && !IsEmpty(df) then
      match s.viz
      case Success(pair) => Answered(sql, data, summary, pair.0, pair.1)
      case Failure(_) => if corrected then Answered(sql, data, summary, None, None) else Unhandled
    else Answered(sql, data, summary, None, None)
  }

  /** The three steps for a validated question: generate, execute, then answer. */
  function Answer(question: string, s: Steps, corrected: bool): (r: Reply)
    requires FramesWellFormed(s)
    ensures r.Failed? || r.Written? || r.Answered? || r.Unhandled?
    ensures r.Unhandled? ==> !corrected && s.wantsChart && s.viz.Failure?
    ensures r.Failed? ==> Status(r) == 500
    ensures r.Failed? && r.statement.None? <==> s.generate(question).Failure?
    ensures r.Failed? && r.statement.None? ==>
      r.error == "Failed to generate SQL query" && r.details == s.generate(question).error
    ensures r.Failed? && r.statement.Some? ==>
      && s.generate(question) == Success(r.statement.value)
      && r.error == "Failed to execute SQL query"
      && DbBuilder.ExecuteSql(r.statement.value, s.read, s.write).result
           == Failure(r.details)
    ensures r.Written? || r.Answered? ==> s.generate(question) == Success(r.sql)
    ensures r.Written? ==>
      && !DbBuilder.IsRead(r.sql) && s.write(r.sql) == Success(r.rowsAffected)
      && r.summary == WrittenSummary(r.rowsAffected)
      && r.emailSubject == s.email.subject && r.emailBody == s.email.body
    ensures r.Answered? ==>
      && DbBuilder.IsRead(r.sql) && s.read(r.sql).Success?
      && r == ReadReply(question, r.sql, s.read(r.sql).value, s, corrected)
  {
    match s.generate(question)
    case Failure(e) => Failed(500, "Failed to generate SQL query", e, None, GenerateSummary)
    case Success(sql) =>
      var exec := DbBuilder.ExecuteSql(sql, s.read, s.write);
      match exec.result
      case Failure(e) => Failed(500, "Failed to execute SQL query", e, Some(sql), ExecuteSummary)
      case Success(done) =>
        if done.RowCount? then
          Written(sql, done.count, s.email.subject, s.email.body, WrittenSummary(done.count))
        else ReadReply(question, sql, done.frame, s, corrected)
  }

  /** The preflight answer and the validation of the agents and the request. */
  function Dispatch(verb: Method, body: Option<map<string, string>>, s: Steps, corrected: bool)
    : (r: Reply)
    requires FramesWellFormed(s)
    ensures r.Preflight? <==> verb.Options?
    ensures r.Unhandled? ==> verb.Post? && !corrected && s.wantsChart && s.viz.Failure?
  {
    if verb.Options? then Preflight
    else if !s.agents.ready then
      var details := if s.agents.error.Some? && s.agents.error.value != "" then s.agents.error.value
                     else AgentsMissingDetails;
      Failed(503, "Agents not available", details, None, AgentsMissingSummary)
    else if body.None? || |body.value| == 0 then Rejected(400, "Request body is required")
    else
      var question := Strip(QuestionOf(body.value));
      if question == "" then Rejected(400, "Question is required")
      else
        Answer(question, s, corrected)
  }

  /** The view as written: when chart generation raises, its handler calls
      `traceback.logger.info_exc()`, which does not exist; the AttributeError reaches the
      outer handler, whose own call to it raises again, so the exception escapes. */
  function QueryAsWritten(verb: Method, body: Option<map<string, string>>, s: Steps): (r: Reply)
    requires FramesWellFormed(s)
    ensures r.Unhandled? ==> verb.Post? && s.wantsChart && s.viz.Failure?
  {
    Dispatch(verb, body, s, false)
  }

  /** The view with the traceback printed as intended: a chart that cannot be drawn
      leaves `viz` and `mime` null and the answer stands. */
  function Query(verb: Method, body: Option<map<string, string>>, s: Steps): (r: Reply)
    requires FramesWellFormed(s)
    ensures r.Preflight? <==> verb.Options?
    // every answer of a POST is one of the documented JSON bodies
    ensures !r.Unhandled?
    ensures verb.Post? && !s.agents.ready ==>
      && r.Failed? && Status(r) == 503 && r.statement.None? && r.summary == AgentsMissingSummary
      && (r.details == AgentsMissingDetails || Some(r.details) == s.agents.error)
    ensures verb.Post? && s.agents.ready && (body.None? || |body.value| == 0) ==>
      r == Rejected(400, "Request body is required")
    ensures verb.Post? && s.agents.ready && body.Some? && |body.value| > 0 ==>
      (r == Rejected(400, "Question is required") <==> AllSpace(QuestionOf(body.value)))
    ensures verb.Post? && s.agents.ready && body.Some? && !AllSpace(QuestionOf(body.value)) ==>
      r == Answer(Strip(QuestionOf(body.value)), s, true)
  {
    StripEmptyIff(if body.Some? then QuestionOf(body.value) else "");
    Dispatch(verb, body, s, true)
  }

  /** The question is validated before any agent runs: a blank question is rejected
      whatever the generator, the database or the model would do. */
  lemma BlankQuestionNeedsNoAgent(body: map<string, string>, s1: Steps, s2: Steps)
    requires FramesWellFormed(s1) && FramesWellFormed(s2)
    requires s1.agents == s2.agents && s1.agents.ready
    requires |body| > 0 && AllSpace(QuestionOf(body))
    ensures Query(Post, Some(body), s1) == Query(Post, Some(body), s2) == Rejected(400, "Question is required")
  {
    StripEmptyIff(QuestionOf(body));
  }

  /** A missing provider key stops the agents, and every query then reports the missing
      key with a 503. */
  lemma MissingKeyReported(body: Option<map<string, string>>, s: Steps, openaiKey: Option<string>,
    construct: Option<string>)
    requires FramesWellFormed(s)
    requires s.agents == StartAgents("google", None, openaiKey, construct)
    ensures Query(Post, body, s) == Failed(503, "Agents not available",
      GoogleKeyMissing, None, AgentsMissingSummary)
  {
  }

  /** The two handlers differ only when a chart was asked for, the result was not empty
      and chart generation raised. */
  lemma QueryAgrees(verb: Method, body: Option<map<string, string>>, s: Steps)
    requires FramesWellFormed(s)
    requires s.viz.Success? || !s.wantsChart
    ensures QueryAsWritten(verb, body, s) == Query(verb, body, s)
  {
  }

  /** A read whose chart fails: as written the request ends in the framework's 500 page;
      corrected, the rows and summary are answered without a chart. */
  lemma ChartFailureEscapes(question: string, s: Steps, sql: string)
    requires FramesWellFormed(s)
    requires s.agents.ready && Strip(question) != ""
    requires s.generate(Strip(question)) == Success(sql) && DbBuilder.IsRead(sql)
    requires s.read(sql).Success? && !IsEmpty(s.read(sql).value)
    requires s.wantsChart && s.viz.Failure?
    ensures QueryAsWritten(Post, Some(map["question" := question]), s) == Unhandled
    ensures Query(Post, Some(map["question" := question]), s).Answered?
    ensures Query(Post, Some(map["question" := question]), s).viz.None?
  {
    assert QuestionOf(map["question" := question]) == question;
  }

  // ---------------------------------------------------------------- /store-hourly-sales

  type HourOfDay = h: int | 0 <= h < 24

  /** A row of the historical comparison file, with the hour of its timestamp. */
  datatype SalesRow = SalesRow(store: string, hour: HourOfDay, sales: real, forecast: real)

  datatype SalesPoint = SalesPoint(hour: string, sales: real, forecast: real)

  datatype SalesReply = NoHistory | Points(points: seq<SalesPoint>)

  const DefaultStore: string := "ST_DUBAI_HYPER_01"

  function SalesAt(rows: seq<SalesRow>, h: int): real {
    if |rows| == 0 then 0.0
    else (if rows[0].hour == h then rows[0].sales else 0.0) + SalesAt(rows[1..], h)
  }

  function ForecastAt(rows: seq<SalesRow>, h: int): real {
    if |rows| == 0 then 0.0
    else (if rows[0].hour == h then rows[0].forecast else 0.0) + ForecastAt(rows[1..], h)
  }

  predicate HasRowsAt(rows: seq<SalesRow>, h: int) {
    exists i :: 0 <= i < |rows| && rows[i].hour == h
  }

  /** The group of hour `h`, labelled by `name`. */
  function GroupPoint(rows: seq<SalesRow>, name: int -> string, h: int): SalesPoint {
    SalesPoint(name(h), SalesAt(rows, h), ForecastAt(rows, h))
  }

  /** The hours below `n` that have rows, ascending. */
  function RowHours(rows: seq<SalesRow>, n: nat): (hs: seq<int>)
    ensures forall i :: 0 <= i < |hs| ==> 0 <= hs[i] < n && HasRowsAt(rows, hs[i])
    ensures forall i, j :: 0 <= i < j < |hs| ==> hs[i] < hs[j]
    ensures forall h :: 0 <= h < n && HasRowsAt(rows, h) ==> h in hs
  {
    if n == 0 then []
    else RowHours(rows, n - 1) + (if HasRowsAt(rows, n - 1) then [n - 1] else [])
  }

  /** `groupby("hour").agg(sum)`: one entry per hour below `n` that has rows, in hour order. */
  function HourGroups(rows: seq<SalesRow>, name: int -> string, n: nat): (r: seq<SalesPoint>)
    ensures |r| <= n
    decreases n
  {
    if n == 0 then []
    else
      var earlier := HourGroups(rows, name, n - 1);
      if HasRowsAt(rows, n - 1) then earlier + [GroupPoint(rows, name, n - 1)] else earlier
  }

  /** The groups are those of the hours with rows, one each, in ascending hour order. */
  lemma {:induction false} HourGroupsOfHours(rows: seq<SalesRow>, name: int -> string, n: nat)
    ensures |HourGroups(rows, name, n)| == |RowHours(rows, n)|
    ensures forall i :: 0 <= i < |RowHours(rows, n)| ==>
      HourGroups(rows, name, n)[i] == GroupPoint(rows, name, RowHours(rows, n)[i])
    decreases n
  {
    if n > 0 {
      HourGroupsOfHours(rows, name, n - 1);
    }
  }

  /** `{item["hour"]: item for item in result}`: a later entry with the same label wins. */
  function IndexByHour(items: seq<SalesPoint>): (m: map<string, SalesPoint>)
    ensures forall i :: 0 <= i < |items| ==> items[i].hour in m
    ensures forall hr :: hr in m ==> m[hr].hour == hr
  {
    if |items| == 0 then map[]
    else
      var last := items[|items| - 1];
      IndexByHour(items[..|items| - 1])[last.hour := last]
  }

  /** Adding an entry at the end replaces the one under its label and keeps the rest. */
  lemma IndexSnoc(items: seq<SalesPoint>, p: SalesPoint)
    ensures IndexByHour(items + [p]) == IndexByHour(items)[p.hour := p]
  {
    assert (items + [p])[..|items|] == items;
  }

  /** `[existing.get(label, zero entry) for label in "00:00".."23:00"]`. */
  function CompleteDay(index: map<string, SalesPoint>): (r: seq<SalesPoint>)
    ensures |r| == 24
    ensures forall h :: 0 <= h < 24 && HourLabel(h) in index ==> r[h] == index[HourLabel(h)]
    ensures forall h :: 0 <= h < 24 && HourLabel(h) !in index ==> r[h] == SalesPoint(HourLabel(h), 0.0, 0.0)
    // an index that files each point under its own label gives every hour its label
    ensures (forall hr :: hr in index ==> index[hr].hour == hr) ==>
      forall h :: 0 <= h < 24 ==> r[h].hour == HourLabel(h)
  {
    seq(24, h requires 0 <= h < 24 =>
      if HourLabel(h) in index then index[HourLabel(h)] else SalesPoint(HourLabel(h), 0.0, 0.0))
  }

  /** `/store-hourly-sales?store_id=...`: `history` is the comparison file (None when it
      does not exist). */
  function StoreHourlySales(history: Option<seq<SalesRow>>, storeId: Option<string>): (r: SalesReply)
    ensures history.None? <==> r.NoHistory?
    ensures history.Some? && |StoreRows(history.value, StoreOf(storeId))| == 0 ==> r == Points([])
  {
    match history
    case None => NoHistory
    case Some(rows) =>
      var mine := StoreRows(rows, StoreOf(storeId));
      if |mine| == 0 then Points([])
      else Points(CompleteDay(IndexByHour(HourGroups(mine, HourLabel, 24))))
  }

  /** The store asked for, or the default one. */
  function StoreOf(storeId: Option<string>): string {
    if storeId.Some? then storeId.value else DefaultStore
  }

  /** The rows of one store. */
  function StoreRows(rows: seq<SalesRow>, store: string): seq<SalesRow> {
    Filter(rows, (x: SalesRow) => x.store == store)
  }

  /** For a store with rows, the answer is the whole day in hour order: entry `h` is
      labelled "HH:00" and holds the sums of that hour's rows, which are zero for an
      hour without rows. */
  lemma StoreHourlySalesDay(rows: seq<SalesRow>, storeId: Option<string>)
    requires |StoreRows(rows, StoreOf(storeId))| > 0
    ensures StoreHourlySales(Some(rows), storeId).Points?
    ensures |StoreHourlySales(Some(rows), storeId).points| == 24
    ensures forall h :: 0 <= h < 24 ==>
      var mine := StoreRows(rows, StoreOf(storeId));
      StoreHourlySales(Some(rows), storeId).points[h]
        == SalesPoint(HourLabel(h), SalesAt(mine, h), ForecastAt(mine, h))
  {
    var mine := StoreRows(rows, StoreOf(storeId));
    var index := IndexByHour(HourGroups(mine, HourLabel, 24));
    Hourly.LabelsInjective();
    IndexOfGroups(mine, HourLabel, 24);
    var day := CompleteDay(index);
    forall h | 0 <= h < 24
      ensures day[h] == SalesPoint(HourLabel(h), SalesAt(mine, h), ForecastAt(mine, h))
    {
      if !HasRowsAt(mine, h) {
        NoRowsNoSales(mine, h);
      }
    }
  }

  /** An hour without rows sums to zero. */
  lemma {:induction false} NoRowsNoSales(rows: seq<SalesRow>, h: int)
    requires !HasRowsAt(rows, h)
    ensures SalesAt(rows, h) == 0.0 && ForecastAt(rows, h) == 0.0
    decreases |rows|
  {
    if |rows| > 0 {
      assert rows[0].hour != h;
      assert forall i :: 0 <= i < |rows[1..]| ==> rows[1..][i] == rows[i + 1];
      NoRowsNoSales(rows[1..], h);
    }
  }

  /** With labels that tell hours apart, the index of the groups below `n` has a label
      exactly for the hours below `n` with rows, and maps it to that hour's group. */
  lemma {:induction false} IndexOfGroups(rows: seq<SalesRow>, name: int -> string, n: nat)
    requires forall a, b :: name(a) == name(b) ==> a == b
    ensures forall k :: name(k) in IndexByHour(HourGroups(rows, name, n)) <==>
      0 <= k < n && HasRowsAt(rows, k)
    ensures forall k :: 0 <= k < n && HasRowsAt(rows, k) ==>
      IndexByHour(HourGroups(rows, name, n))[name(k)] == GroupPoint(rows, name, k)
    decreases n
  {
    if n > 0 {
      IndexOfGroups(rows, name, n - 1);
      var prev := HourGroups(rows, name, n - 1);
      if HasRowsAt(rows, n - 1) {
        var g := GroupPoint(rows, name, n - 1);
        IndexSnoc(prev, g);
        var m := IndexByHour(prev)[name(n - 1) := g];
        assert IndexByHour(HourGroups(rows, name, n)) == m;
        forall k
          ensures name(k) in m <==> 0 <= k < n && HasRowsAt(rows, k)
          ensures 0 <= k < n && HasRowsAt(rows, k) ==> m[name(k)] == GroupPoint(rows, name, k)
        {
          if name(k) == name(n - 1) {
            assert k == n - 1;
          }
        }
      }
    }
  }
}

=== FILE: command_center.dfy ===
/** The global command-centre KPIs of `GlobalDataLayer.get_global_command_center_kpis`:
    forecast accuracy, waste cost, service level, on-shelf availability, revenue, net
    margin and AI uplift. The inputs are the columns the computation reads, each given as
    the sequence of its non-missing values (empty when the frame is empty or lacks the
    column). Rounding for display is not modelled. */
module CommandCenter {
  import opened Numeric

  /** Production cost and selling price per unit, in SAR. */
  const UnitCost: real := 2.0
  const UnitPrice: real := 5.0

  datatype Inputs = Inputs(
    mape: seq<real>,              // MAPE percentages parsed from the predictions
    adherence: seq<real>,         // production_adherence_pct of the factory KPI rows
    factoryWaste: seq<real>,      // waste_units of the factory KPI rows
    dcWastePct: seq<real>,        // waste_pct of the DC KPI rows
    dcService: seq<real>,         // service_level_pct of the DC KPI rows
    dcStock: seq<real>,           // raw opening_stock_units of the DC forecasts
    storeAvailability: seq<real>, // on_shelf_availability_pct of the store KPI rows
    storeWaste: seq<real>,        // waste_units of the store KPI rows
    storeShelf: seq<real>,        // raw on_shelf_units (empty unless capacity is present too)
    storeCapacity: seq<real>,     // raw planogram_capacity_units
    released: seq<real>,          // raw released_to_dc_qty of the predictions
    storeDemand: seq<real>)       // raw predicted_demand of the next-hour store forecasts

  /** The mean of a column, or `fallback` when it has no value. */
  function MeanOr(xs: seq<real>, fallback: real): (m: real)
    ensures |xs| == 0 ==> m == fallback
    ensures |xs| > 0 ==> m * (|xs| as real) == SumReal(xs)
  {
    if |xs| == 0 then fallback else Mean(xs)
  }

  /** `max(0, min(100, 100 - mean MAPE))`. */
  function AccuracyFromMape(mape: seq<real>): (a: real)
    requires |mape| > 0
    ensures 0.0 <= a <= 100.0
    ensures 0.0 <= Mean(mape) <= 100.0 ==> a == 100.0 - Mean(mape)
    // a forecast off by 100% or more on average scores 0, a perfect one scores 100
    ensures Mean(mape) >= 100.0 ==> a == 0.0
    ensures Mean(mape) <= 0.0 ==> a == 100.0
  {
    Clamp(100.0 - Mean(mape), 0.0, 100.0)
  }

  /** Forecast accuracy as the source computes it: the adherence fallback is taken
      whenever the accuracy is 0.0, which also happens when MAPE data exists and its
      mean is 100 or more. */
  function ForecastAccuracyAsWritten(mape: seq<real>, adherence: seq<real>): (a: real)
    ensures |mape| > 0 && AccuracyFromMape(mape) != 0.0 ==> a == AccuracyFromMape(mape)
    ensures |adherence| > 0 && (|mape| == 0 || AccuracyFromMape(mape) == 0.0) ==> a == Mean(adherence)
  {
    var fromMape := if |mape| > 0 then AccuracyFromMape(mape) else 0.0;
    if fromMape == 0.0 && |adherence| > 0 then Mean(adherence) else fromMape
  }

  /** Forecast accuracy with the fallback taken only when there is no MAPE data, as the
      comment on the fallback says. */
  function ForecastAccuracy(mape: seq<real>, adherence: seq<real>): (a: real)
    ensures |mape| > 0 ==> 0.0 <= a <= 100.0 && a == AccuracyFromMape(mape)
    ensures |mape| == 0 ==> a == MeanOr(adherence, 0.0)
  {
    if |mape| > 0 then AccuracyFromMape(mape) else MeanOr(adherence, 0.0)
  }

  /** With a mean MAPE of 150 percent the source reports the production adherence (95)
      as forecast accuracy instead of 0. */
  lemma AdherenceMasksFailedForecast()
    ensures ForecastAccuracyAsWritten([150.0], [95.0]) == 95.0
    ensures ForecastAccuracy([150.0], [95.0]) == 0.0
  {
    assert Mean([150.0]) == 150.0;
    assert Mean([95.0]) == 95.0;
  }

  /** The two definitions agree except when MAPE data drives the accuracy to 0. */
  lemma ForecastAccuracyAgrees(mape: seq<real>, adherence: seq<real>)
    requires |mape| == 0 || AccuracyFromMape(mape) != 0.0 || |adherence| == 0
    ensures ForecastAccuracyAsWritten(mape, adherence) == ForecastAccuracy(mape, adherence)
  {
  }

  /** Factory scrap, DC spoilage (stock times the mean waste share) and store waste,
      each at the unit cost. */
  function WasteCost(i: Inputs): (w: real)
    ensures |i.dcWastePct| == 0 || |i.dcStock| == 0 ==>
      w == UnitCost * (SumReal(i.factoryWaste) + SumReal(i.storeWaste))
    ensures |i.dcWastePct| > 0 && |i.dcStock| > 0 ==>
      100.0 * w == UnitCost * (100.0 * (SumReal(i.factoryWaste) + SumReal(i.storeWaste))
                               + ClippedSum(i.dcStock) * Mean(i.dcWastePct))
  {
    var factory := SumReal(i.factoryWaste) * UnitCost;
    var dc := if |i.dcWastePct| > 0 && |i.dcStock| > 0
              then ClippedSum(i.dcStock) * (Mean(i.dcWastePct) / 100.0) * UnitCost else 0.0;
    var store := SumReal(i.storeWaste) * UnitCost;
    factory + dc + store
  }

  predicate AllNonNegative(xs: seq<real>) {
    forall k :: 0 <= k < |xs| ==> xs[k] >= 0.0
  }

  /** Waste cost is never negative when the waste columns are not (validation clips them). */
  lemma WasteCostNonNegative(i: Inputs)
    requires AllNonNegative(i.factoryWaste) && AllNonNegative(i.dcWastePct)
    requires AllNonNegative(i.storeWaste)
    ensures WasteCost(i) >= 0.0
  {
    SumRealNonNegative(i.factoryWaste);
    SumRealNonNegative(i.storeWaste);
    if |i.dcWastePct| > 0 {
      MeanNonNegative(i.dcWastePct);
    }
  }

  /** The mean of the DC service levels and the mean of the store availabilities, averaged
      over those that are present; 0 when neither is. */
  function ServiceLevel(i: Inputs): (s: real)
    ensures |i.dcService| == 0 && |i.storeAvailability| == 0 ==> s == 0.0
    ensures |i.dcService| > 0 && |i.storeAvailability| == 0 ==> s == Mean(i.dcService)
    ensures |i.dcService| == 0 && |i.storeAvailability| > 0 ==> s == Mean(i.storeAvailability)
    ensures |i.dcService| > 0 && |i.storeAvailability| > 0 ==>
      2.0 * s == Mean(i.dcService) + Mean(i.storeAvailability)
  {
    var count := (if |i.dcService| > 0 then 1 else 0) + (if |i.storeAvailability| > 0 then 1 else 0);
    var total := MeanOr(i.dcService, 0.0) + MeanOr(i.storeAvailability, 0.0);
    if count > 0 then total / (count as real) else 0.0
  }

  predicate AllPercent(xs: seq<real>) {
    forall k :: 0 <= k < |xs| ==> 0.0 <= xs[k] <= 100.0
  }

  /** When every input share is a percentage, so is the service level. */
  lemma ServiceLevelBounded(i: Inputs)
    requires AllPercent(i.dcService) && AllPercent(i.storeAvailability)
    ensures 0.0 <= ServiceLevel(i) <= 100.0
  {
    if |i.dcService| > 0 {
      MeanBounds(i.dcService, 0.0, 100.0);
    }
    if |i.storeAvailability| > 0 {
      MeanBounds(i.storeAvailability, 0.0, 100.0);
    }
  }

  /** Clipped on-shelf units over total capacity, as a percentage; 0 without positive capacity. */
  function OnShelfAvailability(i: Inputs): (a: real)
    ensures a >= 0.0
    ensures |i.storeShelf| == 0 || SumReal(i.storeCapacity) <= 0.0 ==> a == 0.0
    ensures |i.storeShelf| > 0 && SumReal(i.storeCapacity) > 0.0 ==>
      a * SumReal(i.storeCapacity) == 100.0 * ClippedSum(i.storeShelf)
  {
    var capacity := SumReal(i.storeCapacity);
    if |i.storeShelf| > 0 && capacity > 0.0 then
      var shelf := ClippedSum(i.storeShelf);
      DivBounds(shelf, capacity, 0.0, shelf);
      shelf / capacity * 100.0
    else 0.0
  }

  /** Released units at the unit price, falling back to next-hour store demand when that
      gives no revenue. */
  function Revenue(i: Inputs): (r: real)
    ensures r >= 0.0
    ensures ClippedSum(i.released) > 0.0 ==> r == ClippedSum(i.released) * UnitPrice
    ensures ClippedSum(i.released) == 0.0 && |i.storeDemand| > 0 ==> r == ClippedSum(i.storeDemand) * UnitPrice
  {
    var fromReleased := if |i.released| > 0 then ClippedSum(i.released) * UnitPrice else 0.0;
    if fromReleased == 0.0 && |i.storeDemand| > 0 then ClippedSum(i.storeDemand) * UnitPrice
    else fromReleased
  }

  datatype GlobalKpis = GlobalKpis(
    forecastAccuracy: real,
    wasteCost: real,
    serviceLevel: real,
    onShelfAvailability: real,
    netMargin: real,
    revenue: real,
    aiUplift: real)

  /** The uplift before it is floored at zero: the 15 percent waste saving plus a service
      benefit of 50 per point, minus a penalty of 1000 per point of missing service. */
  function RawUplift(wasteCost: real, service: real): (u: real)
    ensures u == 0.15 * wasteCost + 1050.0 * service - 100000.0
  {
    (wasteCost * 1.15 - wasteCost) + service * 50.0 - (100.0 - service) * 1000.0
  }

  /** The KPI record, with the corrected forecast accuracy. */
  function CommandCenterKpis(i: Inputs): (k: GlobalKpis)
    ensures k.forecastAccuracy == ForecastAccuracy(i.mape, i.adherence)
    ensures k.wasteCost == WasteCost(i) && k.serviceLevel == ServiceLevel(i)
    ensures k.revenue == Revenue(i) && k.onShelfAvailability == OnShelfAvailability(i)
    ensures |i.mape| > 0 ==> 0.0 <= k.forecastAccuracy <= 100.0
    ensures k.revenue >= 0.0 && k.onShelfAvailability >= 0.0
    // net margin is the distance between revenue and waste cost, so never negative
    ensures k.netMargin >= 0.0
    ensures k.netMargin == k.revenue - k.wasteCost || k.netMargin == k.wasteCost - k.revenue
    // the uplift is the raw uplift floored at zero
    ensures k.aiUplift >= 0.0 && k.aiUplift >= RawUplift(k.wasteCost, k.serviceLevel)
    ensures k.aiUplift == 0.0 || k.aiUplift == RawUplift(k.wasteCost, k.serviceLevel)
  {
    var waste := WasteCost(i);
    var service := ServiceLevel(i);
    var revenue := Revenue(i);
    GlobalKpis(
      ForecastAccuracy(i.mape, i.adherence),
      waste,
      service,
      OnShelfAvailability(i),
      AbsReal(revenue - waste),
      revenue,
      MaxReal(0.0, RawUplift(waste, service)))
  }

  /** The KPI record as the source computes it: the corrected record with the
      as-written forecast accuracy in its place. */
  function CommandCenterKpisAsWritten(i: Inputs): (k: GlobalKpis)
    ensures k.forecastAccuracy == ForecastAccuracyAsWritten(i.mape, i.adherence)
    ensures k == CommandCenterKpis(i).(forecastAccuracy := k.forecastAccuracy)
  {
    CommandCenterKpis(i).(forecastAccuracy := ForecastAccuracyAsWritten(i.mape, i.adherence))
  }

  /** The two records differ only in forecast accuracy, and only when MAPE data drives
      the accuracy to 0 while adherence data exists. */
  lemma CommandCenterKpisAgree(i: Inputs)
    requires |i.mape| == 0 || AccuracyFromMape(i.mape) != 0.0 || |i.adherence| == 0
    ensures CommandCenterKpisAsWritten(i) == CommandCenterKpis(i)
  {
    ForecastAccuracyAgrees(i.mape, i.adherence);
  }

  /** Below 95 percent service the uplift is zero unless waste cost is large: the service
      penalty outweighs the benefit. */
  lemma UpliftNeedsHighService(wasteCost: real, service: real)
    requires wasteCost <= 1000.0 && service <= 95.0
    ensures RawUplift(wasteCost, service) < 0.0
  {
  }
}

=== FILE: data_quality.dfy ===
/** The data-quality layer (`DataQualityLayer` in core/data_layer.py): negative quantities
    are clipped to zero, missing and clipped cells are counted in a quality report, and
    division is made safe against zero denominators. */
module DataQuality {
  import opened Frames
  import opened Text
  import opened Numeric

  /** Label fragments that mark a column as a quantity that cannot be negative. */
  const QuantityKeywords: seq<string> := ["qty", "units", "stock", "demand", "capacity"]

  /** A numeric column whose lower-cased label contains one of the quantity keywords. */
  predicate MustBeNonNegative(c: Column) {
    c.numeric && exists k :: 0 <= k < |QuantityKeywords| && Contains(Lower(c.name), QuantityKeywords[k])
  }

  predicate IsNegative(x: Cell) {
    x.Num? && x.value < 0.0
  }

  /** `(column < 0).sum()`: NaN is never below zero. */
  function NegativeCount(cells: seq<Cell>): (n: nat)
    ensures n <= |cells|
  {
    if |cells| == 0 then 0
    else NegativeCount(cells[..|cells| - 1]) + (if IsNegative(cells[|cells| - 1]) then 1 else 0)
  }

  /** `column.isnull().sum()`. */
  function MissingCount(cells: seq<Cell>): (n: nat)
    ensures n <= |cells|
  {
    if |cells| == 0 then 0
    else MissingCount(cells[..|cells| - 1]) + (if cells[|cells| - 1].Missing? then 1 else 0)
  }

  /** A cell is never both missing and negative, so the two counts fit in the column. */
  lemma {:induction false} MissingAndNegativeFit(cells: seq<Cell>)
    ensures MissingCount(cells) + NegativeCount(cells) <= |cells|
    decreases |cells|
  {
    if |cells| > 0 {
      MissingAndNegativeFit(cells[..|cells| - 1]);
    }
  }

  /** A count of zero means no cell is negative. */
  lemma {:induction false} NoNegativeCounted(cells: seq<Cell>)
    ensures NegativeCount(cells) == 0 <==> forall i :: 0 <= i < |cells| ==> !IsNegative(cells[i])
    decreases |cells|
  {
    if |cells| > 0 {
      var init := cells[..|cells| - 1];
      NoNegativeCounted(init);
      assert forall i :: 0 <= i < |init| ==> init[i] == cells[i];
    }
  }

  /** The number of cells the cleaning will clip in a column. */
  function InvalidCount(c: Column): nat {
    if MustBeNonNegative(c) then NegativeCount(c.cells) else 0
  }

  /** `series.clip(lower=0)` for one cell; NaN stays NaN. */
  function ClipCell(x: Cell): Cell {
    if IsNegative(x) then Num(0.0) else x
  }

  function ClipCells(cells: seq<Cell>): (r: seq<Cell>)
    ensures |r| == |cells|
    ensures forall i :: 0 <= i < |cells| ==> r[i] == ClipCell(cells[i])
  {
    seq(|cells|, i requires 0 <= i < |cells| => ClipCell(cells[i]))
  }

  /** The cleaned version of one column: clipped only when it is a quantity column with negatives. */
  function CleanColumn(c: Column): (r: Column)
    ensures r.name == c.name && r.numeric == c.numeric && |r.cells| == |c.cells|
    ensures forall i :: 0 <= i < |c.cells| ==>
      r.cells[i] == (if MustBeNonNegative(c) && IsNegative(c.cells[i]) then Num(0.0) else c.cells[i])
  {
    NoNegativeCounted(c.cells);
    if InvalidCount(c) > 0 then Column(c.name, c.numeric, ClipCells(c.cells)) else c
  }

  datatype QualityReport = QualityReport(
    name: string,
    originalRows: nat,
    missingValues: map<string, nat>,
    invalidValues: map<string, nat>,
    score: real,
    finalRows: nat,
    rowsDropped: int)

  datatype Validated = Validated(frame: Frame, report: QualityReport)

  function CleanColumns(cols: seq<Column>): (r: seq<Column>)
    ensures |r| == |cols|
    ensures forall j :: 0 <= j < |cols| ==> r[j] == CleanColumn(cols[j])
  {
    seq(|cols|, j requires 0 <= j < |cols| => CleanColumn(cols[j]))
  }

  /** Missing cells over all columns. */
  function TotalMissing(cols: seq<Column>): nat {
    if |cols| == 0 then 0 else TotalMissing(cols[..|cols| - 1]) + MissingCount(cols[|cols| - 1].cells)
  }

  /** Cells the cleaning clips, over all columns. */
  function TotalInvalid(cols: seq<Column>): nat {
    if |cols| == 0 then 0 else TotalInvalid(cols[..|cols| - 1]) + InvalidCount(cols[|cols| - 1])
  }

  /** `1 - (missing_cells + invalid_cells) / max(total_cells, 1)`. */
  function QualityScore(missing: int, invalid: int, totalCells: int): (s: real)
    // the shortfall from 1, times the cell count (at least 1), is the flagged cell count
    ensures (1.0 - s) * (Max(totalCells, 1) as real) == (missing + invalid) as real
    ensures s == 1.0 <==> missing + invalid == 0
  {
    1.0 - ((missing + invalid) as real) / (Max(totalCells, 1) as real)
  }

  /** Clipping never creates or removes a missing cell. */
  lemma {:induction false} ClipKeepsMissing(cells: seq<Cell>)
    ensures MissingCount(ClipCells(cells)) == MissingCount(cells)
    decreases |cells|
  {
    if |cells| > 0 {
      var init := cells[..|cells| - 1];
      assert ClipCells(cells)[..|cells| - 1] == ClipCells(init);
      ClipKeepsMissing(init);
    }
  }

  lemma CleanKeepsMissing(cols: seq<Column>)
    ensures TotalMissing(CleanColumns(cols)) == TotalMissing(cols)
  {
    CleanKeepsMissingFrom(cols, CleanColumns(cols));
  }

  lemma {:induction false} CleanKeepsMissingFrom(cols: seq<Column>, clean: seq<Column>)
    requires |clean| == |cols|
    requires forall j :: 0 <= j < |cols| ==> clean[j] == CleanColumn(cols[j])
    ensures TotalMissing(clean) == TotalMissing(cols)
    decreases |cols|
  {
    if |cols| > 0 {
      var n := |cols| - 1;
      CleanKeepsMissingFrom(cols[..n], clean[..n]);
      ClipKeepsMissing(cols[n].cells);
    }
  }

  /** Missing and clipped cells together never exceed the number of cells. */
  lemma {:induction false} FlaggedCellsFit(cols: seq<Column>, height: nat)
    requires forall j :: 0 <= j < |cols| ==> |cols[j].cells| == height
    ensures TotalMissing(cols) + TotalInvalid(cols) <= |cols| * height
    decreases |cols|
  {
    if |cols| > 0 {
      var n := |cols| - 1;
      FlaggedCellsFit(cols[..n], height);
      MissingAndNegativeFit(cols[n].cells);
      assert |cols| * height == n * height + height;
    }
  }

  lemma ScoreInUnitInterval(missing: int, invalid: int, totalCells: int)
    requires 0 <= missing && 0 <= invalid
    requires missing + invalid <= totalCells
    ensures 0.0 <= QualityScore(missing, invalid, totalCells) <= 1.0
    ensures missing + invalid == 0 ==> QualityScore(missing, invalid, totalCells) == 1.0
  {
    var d := Max(totalCells, 1) as real;
    DivBounds((missing + invalid) as real, d, 0.0, d);
    assert d / d == 1.0;
  }

  /** `missing[missing > 0].to_dict()`: the columns with missing cells and their counts. */
  function MissingMap(cols: seq<Column>): (m: map<string, nat>)
    requires forall j, k :: 0 <= j < k < |cols| ==> cols[j].name != cols[k].name
    ensures forall j :: 0 <= j < |cols| ==> (cols[j].name in m <==> MissingCount(cols[j].cells) > 0)
    ensures forall j :: 0 <= j < |cols| && cols[j].name in m ==> m[cols[j].name] == MissingCount(cols[j].cells)
    ensures m.Keys <= set j | 0 <= j < |cols| :: cols[j].name
  {
    CountMap(cols, (c: Column) => MissingCount(c.cells))
  }

  /** `quality_report["invalid_values"]`: the quantity columns that had negatives, and how many. */
  function InvalidMap(cols: seq<Column>): (m: map<string, nat>)
    requires forall j, k :: 0 <= j < k < |cols| ==> cols[j].name != cols[k].name
    ensures forall j :: 0 <= j < |cols| ==> (cols[j].name in m <==> InvalidCount(cols[j]) > 0)
    ensures forall j :: 0 <= j < |cols| && cols[j].name in m ==> m[cols[j].name] == NegativeCount(cols[j].cells)
    ensures m.Keys <= set j | 0 <= j < |cols| :: cols[j].name
  {
    CountMap(cols, InvalidCount)
  }

  /** A per-column count keyed by column name, keeping only the columns whose count is positive. */
  function CountMap(cols: seq<Column>, count: Column -> nat): (m: map<string, nat>)
    requires forall j, k :: 0 <= j < k < |cols| ==> cols[j].name != cols[k].name
    ensures forall j :: 0 <= j < |cols| ==> (cols[j].name in m <==> count(cols[j]) > 0)
    ensures forall j :: 0 <= j < |cols| && cols[j].name in m ==> m[cols[j].name] == count(cols[j])
    ensures m.Keys <= set j | 0 <= j < |cols| :: cols[j].name
  {
    map j | 0 <= j < |cols| && count(cols[j]) > 0 :: cols[j].name := count(cols[j])
  }

  /** The cleaned frame `df_clean`. */
  function CleanFrame(f: Frame): (g: Frame)
    requires WellFormed(f) && UniqueNames(f)
    ensures WellFormed(g) && UniqueNames(g)
    ensures g.height == f.height && Names(g) == Names(f)
    ensures g.columns == CleanColumns(f.columns)
    ensures forall j :: 0 <= j < |f.columns| ==> g.columns[j].numeric == f.columns[j].numeric
    ensures forall j, i :: 0 <= j < |f.columns| && 0 <= i < f.height ==>
      g.columns[j].cells[i] ==
        (if MustBeNonNegative(f.columns[j]) && IsNegative(f.columns[j].cells[i]) then Num(0.0)
         else f.columns[j].cells[i])
  {
    var clean := CleanColumns(f.columns);
    forall j | 0 <= j < |clean|
      ensures ColumnFits(clean[j], f.height)
    {
      assert ColumnFits(f.columns[j], f.height);
    }
    Frame(clean, f.height)
  }

  /** `DataQualityLayer.validate_dataframe`: the cleaned frame and its quality report.
      Column labels are distinct, as `read_csv` makes them by renaming repeated headers
      (a repeated label would make the source raise only for a numeric quantity column with
      a negative cell, where the truth test of a count Series fails). */
  function ValidateFrame(f: Frame, name: string): (r: Validated)
    requires WellFormed(f) && UniqueNames(f)
    ensures WellFormed(r.frame) && UniqueNames(r.frame)
    ensures r.frame.height == f.height && Names(r.frame) == Names(f)
    ensures forall j :: 0 <= j < |f.columns| ==> r.frame.columns[j].numeric == f.columns[j].numeric
    // quantity columns lose their negatives; every other cell is untouched
    ensures forall j, i :: 0 <= j < |f.columns| && 0 <= i < f.height ==>
      r.frame.columns[j].cells[i] ==
        (if MustBeNonNegative(f.columns[j]) && IsNegative(f.columns[j].cells[i]) then Num(0.0)
         else f.columns[j].cells[i])
    // the report counts, per column, the negatives that were clipped
    ensures forall j :: 0 <= j < |f.columns| ==>
      (f.columns[j].name in r.report.invalidValues <==> InvalidCount(f.columns[j]) > 0)
    ensures forall j :: 0 <= j < |f.columns| && f.columns[j].name in r.report.invalidValues ==>
      r.report.invalidValues[f.columns[j].name] == NegativeCount(f.columns[j].cells)
    ensures forall j :: 0 <= j < |f.columns| ==>
      (f.columns[j].name in r.report.missingValues <==> MissingCount(f.columns[j].cells) > 0)
    ensures forall j :: 0 <= j < |f.columns| && f.columns[j].name in r.report.missingValues ==>
      r.report.missingValues[f.columns[j].name] == MissingCount(f.columns[j].cells)
    ensures r.report.invalidValues.Keys <= set j | 0 <= j < |f.columns| :: f.columns[j].name
    ensures r.report.missingValues.Keys <= set j | 0 <= j < |f.columns| :: f.columns[j].name
    ensures r.report.name == name
    // no row is ever dropped
    ensures r.report.originalRows == r.report.finalRows == f.height && r.report.rowsDropped == 0
    // the score is one minus the flagged share of all cells, and 1 for a clean frame
    ensures r.report.score == QualityScore(TotalMissing(f.columns), TotalInvalid(f.columns), |f.columns| * f.height)
    ensures 0.0 <= r.report.score <= 1.0
    ensures TotalMissing(f.columns) + TotalInvalid(f.columns) == 0 ==> r.report.score == 1.0
    ensures f.height == 0 ==> r.report.score == 1.0
  {
    var cleaned := CleanFrame(f);
    var missingCells := TotalMissing(cleaned.columns);
    var invalidCells := TotalInvalid(f.columns);
    CleanKeepsMissing(f.columns);
    FlaggedCellsFit(f.columns, f.height);
    ScoreInUnitInterval(missingCells, invalidCells, |f.columns| * f.height);
    assert f.height == 0 ==> |f.columns| * f.height == 0;
    var score := QualityScore(missingCells, invalidCells, |f.columns| * f.height);
    var report := QualityReport(name, f.height, MissingMap(f.columns), InvalidMap(f.columns),
      score, cleaned.height, f.height - cleaned.height);
    Validated(cleaned, report)
  }

  /** The negative cells are as many as `NegativeCount` says. */
  lemma {:induction false} NegativeIndicesCounted(cells: seq<Cell>)
    ensures |set i | 0 <= i < |cells| && IsNegative(cells[i])| == NegativeCount(cells)
    decreases |cells|
  {
    var neg := set i | 0 <= i < |cells| && IsNegative(cells[i]);
    if |cells| > 0 {
      var n := |cells| - 1;
      var init := cells[..n];
      NegativeIndicesCounted(init);
      var before := set i | 0 <= i < |init| && IsNegative(init[i]);
      if IsNegative(cells[n]) {
        assert neg == before + {n};
      } else {
        assert neg == before;
      }
    } else {
      assert neg == {};
    }
  }

  /** The report counts exactly the cells that the cleaning changed. */
  lemma ClippedCellsCounted(cells: seq<Cell>)
    ensures |set i | 0 <= i < |cells| && ClipCells(cells)[i] != cells[i]| == NegativeCount(cells)
  {
    var c := ClipCells(cells);
    assert (set i | 0 <= i < |cells| && c[i] != cells[i])
        == (set i | 0 <= i < |cells| && IsNegative(cells[i]));
    NegativeIndicesCounted(cells);
  }

  /** Cleaning a cleaned frame changes nothing and reports no further invalid values. */
  lemma ValidateIdempotent(f: Frame, name: string)
    requires WellFormed(f) && UniqueNames(f)
    ensures ValidateFrame(ValidateFrame(f, name).frame, name).frame == ValidateFrame(f, name).frame
    ensures ValidateFrame(ValidateFrame(f, name).frame, name).report.invalidValues == map[]
  {
    var g := ValidateFrame(f, name).frame;
    forall j | 0 <= j < |g.columns|
      ensures InvalidCount(g.columns[j]) == 0
    {
      NoNegativesLeft(f.columns[j]);
    }
    var h := ValidateFrame(g, name).frame;
    assert h.columns == g.columns;
  }

  lemma NoNegativesLeft(c: Column)
    ensures InvalidCount(CleanColumn(c)) == 0
  {
    if InvalidCount(c) > 0 {
      NoNegativeAfterClip(c.cells);
    }
  }

  lemma {:induction false} NoNegativeAfterClip(cells: seq<Cell>)
    ensures NegativeCount(ClipCells(cells)) == 0
    decreases |cells|
  {
    if |cells| > 0 {
      var init := cells[..|cells| - 1];
      assert ClipCells(cells)[..|cells| - 1] == ClipCells(init);
      NoNegativeAfterClip(init);
    }
  }

  /** `DataQualityLayer.safe_divide` on two numeric series aligned by position: the plain
      quotient where both values are present and the denominator is non-zero, and the
      fallback everywhere else (a zero denominator, NaN on either side, or a position
      only one series has). */
  function SafeDivide(num: seq<Cell>, den: seq<Cell>, fallback: real): (r: seq<real>)
    requires forall i :: 0 <= i < |num| ==> !num[i].Str?
    requires forall i :: 0 <= i < |den| ==> !den[i].Str?
    ensures |r| == Max(|num|, |den|)
    ensures forall i :: 0 <= i < |r| && Divisible(num, den, i) ==> r[i] * den[i].value == num[i].value
    ensures forall i :: 0 <= i < |r| && !Divisible(num, den, i) ==> r[i] == fallback
  {
    seq(Max(|num|, |den|), i requires 0 <= i =>
      if Divisible(num, den, i) then num[i].value / den[i].value else fallback)
  }

  /** Position `i` holds a number on both sides and a non-zero denominator. */
  predicate Divisible(num: seq<Cell>, den: seq<Cell>, i: int) {
    0 <= i < |num| && 0 <= i < |den| && num[i].Num? && den[i].Num? && den[i].value != 0.0
  }
}

=== FILE: db_builder.dfy ===
/** The local SQLite database: how `execute_sql` tells reads from writes, which tables
    `build_database` loads from CSV, and the column map of `load_schema`. The database is
    a map from table name to table; SQLite itself and CSV reading are parameters, given
    as the outcome they produce for a statement or a path. */
module DbBuilder {
  import opened Wrappers
  import opened Text
  import opened Frames

  // ---------------------------------------------------------------- execute_sql

  /** The read test: the statement, stripped and lower-cased, begins with "select". */
  predicate IsRead(sql: string) {
    StartsWith(Lower(Strip(sql)), "select")
  }

  /** What a successful call returns: the rows of a read, or the row count of a write. */
  datatype Executed = Rows(frame: Frame) | RowCount(count: int)

  /** What happens on the connection, in order. */
  datatype ConnEvent = Open | ReadQuery(sql: string) | RunStatement(sql: string) | Commit | Close

  datatype Execution = Execution(result: Result<Executed>, events: seq<ConnEvent>)

  const ExecErrorPrefix: string := "SQL execution failed: "

  /** `execute_sql(db_path, sql)`. `read` is what `pd.read_sql_query` makes of the
      statement and `write` what `cur.execute` and `commit` make of it: the cursor's row
      count, or the message of the exception raised. */
  function ExecuteSql(sql: string, read: string -> Result<Frame>, write: string -> Result<int>)
    : (r: Execution)
    ensures |r.events| >= 3
    // reads and writes are told apart by the read test alone, and the original text runs
    ensures IsRead(sql) ==> r.events[1] == ReadQuery(sql)
    ensures !IsRead(sql) ==> r.events[1] == RunStatement(sql)
    ensures r.result.Success? && r.result.value.Rows? <==> IsRead(sql) && read(sql).Success?
    ensures r.result.Success? && r.result.value.RowCount? <==> !IsRead(sql) && write(sql).Success?
    ensures IsRead(sql) && read(sql).Success? ==> r.result.value.frame == read(sql).value
    ensures !IsRead(sql) && write(sql).Success? ==> r.result.value.count == write(sql).value
    // every failure surfaces with the same prefix and the underlying message
    ensures r.result.Failure? ==>
      r.result.error == ExecErrorPrefix + (if IsRead(sql) then read(sql).error else write(sql).error)
    // the connection is opened first and closed last, exactly once
    ensures r.events[0] == Open && r.events[|r.events| - 1] == Close
    ensures Close !in r.events[..|r.events| - 1]
    // only a successful write commits
    ensures Commit in r.events <==> !IsRead(sql) && write(sql).Success?
  {
    if IsRead(sql) then
      match read(sql)
      case Success(f) => Execution(Success(Rows(f)), [Open, ReadQuery(sql), Close])
      case Failure(e) => Execution(Failure(ExecErrorPrefix + e), [Open, ReadQuery(sql), Close])
    else
      match write(sql)
      case Success(n) => Execution(Success(RowCount(n)), [Open, RunStatement(sql), Commit, Close])
      case Failure(e) => Execution(Failure(ExecErrorPrefix + e), [Open, RunStatement(sql), Close])
  }

  /** The read test ignores letter case. */
  lemma IsReadIgnoresCase(sql: string)
    ensures IsRead(Upper(sql)) == IsRead(sql)
    ensures IsRead(Lower(sql)) == IsRead(sql)
  {
    StripLower(sql);
    StripLower(Upper(sql));
    LowerOfUpper(sql);
    StripLower(Lower(sql));
    LowerIdempotent(sql);
  }

  /** The read test ignores leading whitespace. */
  lemma IsReadIgnoresIndent(pre: string, sql: string)
    requires AllSpace(pre)
    ensures IsRead(pre + sql) == IsRead(sql)
  {
    StripAfterPad(pre, sql);
  }

  /** A statement that begins with SELECT, in capitals or not, is a read. */
  lemma SelectIsRead(rest: string)
    ensures IsRead("SELECT " + rest)
    ensures IsRead("select " + rest)
  {
    SelectWordIsRead("SELECT ", rest);
    SelectWordIsRead("select ", rest);
  }

  lemma SelectWordIsRead(p: string, rest: string)
    requires p == "SELECT " || p == "select "
    ensures IsRead(p + rest)
  {
    SelectWord(p);
    ReadAfterWord(p, rest);
  }

  lemma SelectWord(p: string)
    requires p == "SELECT " || p == "select "
    ensures |p| == 7 && p[6] == ' ' && !IsSpace(p[0]) && !IsSpace(p[5])
    ensures Lower(p[..6]) == "select"
  {
    var w := p[..6];
    forall i | 0 <= i < 6
      ensures Lower(w)[i] == "select"[i]
    {
    }
  }

  lemma ReadAfterWord(p: string, rest: string)
    requires |p| == 7 && p[6] == ' ' && !IsSpace(p[0]) && !IsSpace(p[5])
    requires Lower(p[..6]) == "select"
    ensures IsRead(p + rest)
  {
    var w := p[..6];
    ReadByPrefix(w, [' '] + rest);
    assert w + ([' '] + rest) == p + rest;
  }

  /** A statement opening with a word that lower-cases to one beginning with "select". */
  lemma ReadByPrefix(p: string, rest: string)
    requires |p| > 0 && !IsSpace(p[0]) && !IsSpace(p[|p| - 1])
    requires StartsWith(Lower(p), "select")
    ensures IsRead(p + rest)
  {
    StripPrefixKept(p, rest);
    var r := Strip(p + rest);
    assert Lower(r)[..|p|] == Lower(r[..|p|]);
  }

  /** Stripping keeps a prefix whose first and last characters are not whitespace. */
  lemma StripPrefixKept(p: string, rest: string)
    requires |p| > 0 && !IsSpace(p[0]) && !IsSpace(p[|p| - 1])
    ensures StartsWith(Strip(p + rest), p)
  {
    var s := p + rest;
    assert LStrip(s) == s;
    RStripShape(s);
    RStripKeeps(s, |p| - 1);
    var r := Strip(s);
    assert r[..|p|] == s[..|p|] == p;
  }

  /** A query written with a WITH clause fails the read test and takes the write path,
      where the row count of the cursor is returned instead of the rows. */
  lemma WithClauseIsNotRead(rest: string)
    ensures !IsRead("WITH " + rest)
  {
    var s := "WITH " + rest;
    assert LStrip(s) == s;
    RStripShape(s);
    RStripKeeps(s, 0);
    var r := Strip(s);
    assert r[0] == 'W';
    assert Lower(r)[0] == 'w';
  }

  // ---------------------------------------------------------------- build_database

  type Database = map<string, Frame>

  datatype SchemaItem = SchemaItem(tableName: string, path: string)

  const OrderLog: string := "order_log"

  /** The empty transactional table created for `order_log`. */
  const OrderLogTable: Frame := Frame([
    Column("order_id", false, []),
    Column("product_id", false, []),
    Column("forecast_date", false, []),
    Column("order_date", false, []),
    Column("quantity", true, []),
    Column("created_at", false, []),
    Column("source", false, [])], 0)

  /** The database after a build, and the message of the exception that stopped it. */
  datatype BuildOutcome = BuildOutcome(db: Database, error: Option<string>)

  /** One schema item: `order_log` is created when absent and otherwise left alone; any
      other table is replaced by the contents of its CSV file. */
  function BuildStep(db: Database, item: SchemaItem, csv: string -> Result<Frame>): (r: BuildOutcome)
    ensures item.tableName == OrderLog ==> r.error.None?
    ensures item.tableName == OrderLog && OrderLog in db ==> r.db == db
    ensures item.tableName == OrderLog && OrderLog !in db ==> r.db == db[OrderLog := OrderLogTable]
    ensures item.tableName != OrderLog && csv(item.path).Success? ==>
      r.error.None? && r.db == db[item.tableName := csv(item.path).value]
    ensures item.tableName != OrderLog && csv(item.path).Failure? ==>
      r.error == Some(csv(item.path).error) && r.db == db
  {
    if item.tableName == OrderLog then
      BuildOutcome(if OrderLog in db then db else db[OrderLog := OrderLogTable], None)
    else
      match csv(item.path)
      case Success(f) => BuildOutcome(db[item.tableName := f], None)
      case Failure(e) => BuildOutcome(db, Some(e))
  }

  /** `build_database(schema_list)` on a database: the items in order, stopping at the
      first CSV that cannot be read (the tables written before it stay written). */
  function BuildDatabase(items: seq<SchemaItem>, db: Database, csv: string -> Result<Frame>)
    : (r: BuildOutcome)
    ensures |items| == 0 ==> r == BuildOutcome(db, None)
    decreases |items|
  {
    if |items| == 0 then BuildOutcome(db, None)
    else
      var prev := BuildDatabase(items[..|items| - 1], db, csv);
      if prev.error.Some? then prev else BuildStep(prev.db, items[|items| - 1], csv)
  }

  predicate Names(items: seq<SchemaItem>, t: string) {
    exists i :: 0 <= i < |items| && items[i].tableName == t
  }

  /** Item `i` is the last item naming table `t`. */
  predicate LastNaming(items: seq<SchemaItem>, i: int, t: string) {
    && 0 <= i < |items| && items[i].tableName == t
    && forall j :: i < j < |items| ==> items[j].tableName != t
  }

  /** An existing `order_log` is never replaced, whatever the schema lists and whatever
      its CSV holds; an absent one is created empty. */
  lemma {:induction false} OrderLogPreserved(items: seq<SchemaItem>, db: Database,
    csv: string -> Result<Frame>)
    ensures OrderLog in db ==>
      (OrderLog in BuildDatabase(items, db, csv).db &&
       BuildDatabase(items, db, csv).db[OrderLog] == db[OrderLog])
    ensures OrderLog !in db && OrderLog in BuildDatabase(items, db, csv).db ==>
      BuildDatabase(items, db, csv).db[OrderLog] == OrderLogTable
    decreases |items|
  {
    if |items| > 0 {
      OrderLogPreserved(items[..|items| - 1], db, csv);
    }
  }

  /** The CSV of an `order_log` item is never read: two CSV sources that differ only on
      such paths build the same database. */
  lemma {:induction false} OrderLogCsvUnread(items: seq<SchemaItem>, db: Database,
    csv1: string -> Result<Frame>, csv2: string -> Result<Frame>)
    requires forall i :: 0 <= i < |items| && items[i].tableName != OrderLog ==>
      csv1(items[i].path) == csv2(items[i].path)
    ensures BuildDatabase(items, db, csv1) == BuildDatabase(items, db, csv2)
    decreases |items|
  {
    if |items| > 0 {
      var init := items[..|items| - 1];
      assert forall i :: 0 <= i < |init| ==> init[i] == items[i];
      OrderLogCsvUnread(init, db, csv1, csv2);
    }
  }

  /** A completed build holds every table it held before and every table the schema
      names; a table the schema does not name is unchanged, and a table other than
      `order_log` holds the contents of the CSV of the last item naming it. */
  lemma BuildDatabaseTables(items: seq<SchemaItem>, db: Database,
    csv: string -> Result<Frame>, t: string)
    requires BuildDatabase(items, db, csv).error.None?
    ensures t in BuildDatabase(items, db, csv).db <==> t in db || Names(items, t)
    ensures !Names(items, t) && t in db ==> BuildDatabase(items, db, csv).db[t] == db[t]
    ensures forall i :: LastNaming(items, i, t) && t != OrderLog ==>
      (csv(items[i].path).Success? &&
       BuildDatabase(items, db, csv).db[t] == csv(items[i].path).value)
  {
    BuildDatabaseKeys(items, db, csv, t);
    if !Names(items, t) && t in db {
      BuildDatabaseUntouched(items, db, csv, t);
    }
    forall i | LastNaming(items, i, t) && t != OrderLog
      ensures csv(items[i].path).Success?
      ensures BuildDatabase(items, db, csv).db[t] == csv(items[i].path).value
    {
      BuildDatabaseLast(items, db, csv, t, i);
    }
  }

  lemma {:induction false} BuildDatabaseKeys(items: seq<SchemaItem>, db: Database,
    csv: string -> Result<Frame>, t: string)
    requires BuildDatabase(items, db, csv).error.None?
    ensures t in BuildDatabase(items, db, csv).db <==> t in db || Names(items, t)
    decreases |items|
  {
    if |items| > 0 {
      var n := |items| - 1;
      var init := items[..n];
      BuildDatabaseKeys(init, db, csv, t);
      if Names(items, t) && items[n].tableName != t {
        var i :| 0 <= i < |items| && items[i].tableName == t;
        assert init[i] == items[i];
      }
      if Names(init, t) {
        var i :| 0 <= i < |init| && init[i].tableName == t;
        assert items[i] == init[i];
      }
    }
  }

  lemma {:induction false} BuildDatabaseUntouched(items: seq<SchemaItem>, db: Database,
    csv: string -> Result<Frame>, t: string)
    requires BuildDatabase(items, db, csv).error.None?
    requires !Names(items, t) && t in db
    ensures t in BuildDatabase(items, db, csv).db
    ensures BuildDatabase(items, db, csv).db[t] == db[t]
    decreases |items|
  {
    if |items| > 0 {
      var n := |items| - 1;
      var init := items[..n];
      assert forall i :: 0 <= i < n ==> init[i] == items[i];
      BuildDatabaseUntouched(init, db, csv, t);
    }
  }

  lemma {:induction false} BuildDatabaseLast(items: seq<SchemaItem>, db: Database,
    csv: string -> Result<Frame>, t: string, i: int)
    requires BuildDatabase(items, db, csv).error.None?
    requires LastNaming(items, i, t) && t != OrderLog
    ensures csv(items[i].path).Success?
    ensures t in BuildDatabase(items, db, csv).db
    ensures BuildDatabase(items, db, csv).db[t] == csv(items[i].path).value
    decreases |items|
  {
    var n := |items| - 1;
    if i < n {
      var init := items[..n];
      assert init[i] == items[i];
      assert LastNaming(init, i, t);
      BuildDatabaseLast(init, db, csv, t, i);
    }
  }

  /** Every CSV the build reads (those of the items other than `order_log`) can be read. */
  predicate AllReadable(items: seq<SchemaItem>, csv: string -> Result<Frame>) {
    forall j :: 0 <= j < |items| && items[j].tableName != OrderLog ==> csv(items[j].path).Success?
  }

  /** Item `k` is the first item whose CSV the build reads and cannot read. */
  predicate FirstFailure(items: seq<SchemaItem>, k: int, csv: string -> Result<Frame>) {
    && 0 <= k < |items| && items[k].tableName != OrderLog && csv(items[k].path).Failure?
    && AllReadable(items[..k], csv)
  }

  /** A build completes exactly when every CSV it reads can be read. */
  lemma {:induction false} BuildDatabaseSucceeds(items: seq<SchemaItem>, db: Database,
    csv: string -> Result<Frame>)
    ensures BuildDatabase(items, db, csv).error.None? <==> AllReadable(items, csv)
    decreases |items|
  {
    if |items| > 0 {
      var n := |items| - 1;
      var init := items[..n];
      BuildDatabaseSucceeds(init, db, csv);
      assert forall j :: 0 <= j < n ==> init[j] == items[j];
      if AllReadable(items, csv) {
        assert AllReadable(init, csv);
      }
    }
  }

  /** A build stops at the first item whose CSV cannot be read, with that CSV's message:
      every CSV before it was read, the tables written before it stay written, and no later
      item is reached. */
  lemma {:induction false} BuildDatabaseError(items: seq<SchemaItem>, db: Database,
    csv: string -> Result<Frame>)
    requires BuildDatabase(items, db, csv).error.Some?
    ensures exists k ::
      && FirstFailure(items, k, csv)
      && BuildDatabase(items, db, csv).error == Some(csv(items[k].path).error)
      && BuildDatabase(items[..k], db, csv).error.None?
      && BuildDatabase(items, db, csv).db == BuildDatabase(items[..k], db, csv).db
    decreases |items|
  {
    var n := |items| - 1;
    var init := items[..n];
    if BuildDatabase(init, db, csv).error.Some? {
      BuildDatabaseError(init, db, csv);
      var k :| FirstFailure(init, k, csv)
        && BuildDatabase(init, db, csv).error == Some(csv(init[k].path).error)
        && BuildDatabase(init[..k], db, csv).error.None?
        && BuildDatabase(init, db, csv).db == BuildDatabase(init[..k], db, csv).db;
      assert init[k] == items[k];
      assert init[..k] == items[..k];
      assert FirstFailure(items, k, csv);
    } else {
      BuildDatabaseSucceeds(init, db, csv);
      assert init == items[..n];
      assert FirstFailure(items, n, csv);
    }
  }

  // ---------------------------------------------------------------- load_schema

  /** `load_schema(schema_list)`: table name to column list, reading every item's CSV
      (including `order_log`'s); the first unreadable file raises. `columns` gives the
      header of the CSV at a path. */
  function LoadSchema(items: seq<SchemaItem>, columns: string -> Result<seq<string>>)
    : (r: Result<map<string, seq<string>>>)
    ensures r.Success? ==> r.value.Keys == set i | 0 <= i < |items| :: items[i].tableName
    decreases |items|
  {
    if |items| == 0 then Success(map[])
    else
      var n := |items| - 1;
      match LoadSchema(items[..n], columns)
      case Failure(e) => Failure(e)
      case Success(m) =>
        match columns(items[n].path)
        case Failure(e) => Failure(e)
        case Success(cols) =>
          assert (set i | 0 <= i < |items| :: items[i].tableName)
              == (set i | 0 <= i < n :: items[..n][i].tableName) + {items[n].tableName};
          Success(m[items[n].tableName := cols])
  }

  /** The load succeeds exactly when every file can be read. */
  lemma {:induction false} LoadSchemaSucceeds(items: seq<SchemaItem>,
    columns: string -> Result<seq<string>>)
    ensures LoadSchema(items, columns).Success? <==>
      forall i :: 0 <= i < |items| ==> columns(items[i].path).Success?
    decreases |items|
  {
    if |items| > 0 {
      var n := |items| - 1;
      var init := items[..n];
      LoadSchemaSucceeds(init, columns);
      assert forall i :: 0 <= i < n ==> init[i] == items[i];
    }
  }

  /** Each table name maps to the header of the last item naming it. */
  lemma {:induction false} LoadSchemaColumns(items: seq<SchemaItem>,
    columns: string -> Result<seq<string>>, i: nat)
    requires LoadSchema(items, columns).Success?
    requires i < |items| && LastNaming(items, i, items[i].tableName)
    ensures columns(items[i].path).Success?
    ensures LoadSchema(items, columns).value[items[i].tableName] == columns(items[i].path).value
    decreases |items|
  {
    var n := |items| - 1;
    if i < n {
      var init := items[..n];
      assert init[i] == items[i];
      assert LastNaming(init, i, init[i].tableName);
      LoadSchemaColumns(init, columns, i);
    }
  }
}

=== FILE: frames.dfy ===
/** A pandas DataFrame as the backend sees it: named columns of equal height, each
    either numeric (numbers and NaN) or of object dtype. */
module Frames {

  /** One cell: NaN/None, a number, or a string. */
  datatype Cell = Missing | Num(value: real) | Str(text: string)

  datatype Column = Column(name: string, numeric: bool, cells: seq<Cell>)

  datatype Frame = Frame(columns: seq<Column>, height: nat)

  /** Every column has one cell per row, and numeric columns hold no strings. */
  predicate WellFormed(f: Frame) {
    forall j :: 0 <= j < |f.columns| ==> ColumnFits(f.columns[j], f.height)
  }

  predicate ColumnFits(c: Column, height: nat) {
    && |c.cells| == height
    && (c.numeric ==> forall i :: 0 <= i < |c.cells| ==> !c.cells[i].Str?)
  }

  /** Column labels are distinct. */
  predicate UniqueNames(f: Frame) {
    forall j, k :: 0 <= j < k < |f.columns| ==> f.columns[j].name != f.columns[k].name
  }

  /** `df.columns.tolist()`. */
  function Names(f: Frame): (r: seq<string>)
    ensures |r| == |f.columns|
    ensures forall j :: 0 <= j < |r| ==> r[j] == f.columns[j].name
  {
    seq(|f.columns|, j requires 0 <= j < |f.columns| => f.columns[j].name)
  }

  /** `df.empty`: true when either axis has length zero. */
  predicate IsEmpty(f: Frame) {
    f.height == 0 || |f.columns| == 0
  }

  /** One row as a record (a dict from column label to value); with repeated labels the
      rightmost column wins, as in `to_dict(orient="records")`. */
  function Record(cols: seq<Column>, i: nat): (m: map<string, Cell>)
    requires forall j :: 0 <= j < |cols| ==> i < |cols[j].cells|
    ensures m.Keys == set j | 0 <= j < |cols| :: cols[j].name
    ensures |cols| > 0 ==> m[cols[|cols| - 1].name] == cols[|cols| - 1].cells[i]
  {
    if |cols| == 0 then map[]
    else
      var last := cols[|cols| - 1];
      var init := cols[..|cols| - 1];
      var m := Record(init, i)[last.name := last.cells[i]];
      assert m.Keys == (set j | 0 <= j < |init| :: init[j].name) + {last.name};
      assert (set j | 0 <= j < |init| :: init[j].name) + {last.name}
          == set j | 0 <= j < |cols| :: cols[j].name;
      m
  }

  /** With distinct labels, every column's value in row `i` appears under its label. */
  lemma {:induction false} RecordValue(cols: seq<Column>, i: nat, j: nat)
    requires forall k :: 0 <= k < |cols| ==> i < |cols[k].cells|
    requires forall a, b :: 0 <= a < b < |cols| ==> cols[a].name != cols[b].name
    requires j < |cols|
    ensures Record(cols, i)[cols[j].name] == cols[j].cells[i]
    decreases |cols|
  {
    if j < |cols| - 1 {
      var init := cols[..|cols| - 1];
      assert init[j] == cols[j];
      RecordValue(init, i, j);
    }
  }

  /** `df.to_dict(orient="records")`. */
  function Records(f: Frame): (r: seq<map<string, Cell>>)
    requires WellFormed(f)
    ensures |r| == f.height
    ensures forall i :: 0 <= i < |r| ==> r[i] == Record(f.columns, i)
  {
    seq(f.height, i requires 0 <= i < f.height => Record(f.columns, i))
  }

  /** `df.head(n)`. */
  function Head(f: Frame, n: nat): (r: Frame)
    requires WellFormed(f)
    ensures WellFormed(r)
    ensures r.height == if n < f.height then n else f.height
    ensures Names(r) == Names(f)
    ensures forall j :: 0 <= j < |f.columns| ==> r.columns[j].cells == f.columns[j].cells[..r.height]
  {
    var h := if n < f.height then n else f.height;
    var cols := seq(|f.columns|, j requires 0 <= j < |f.columns| =>
      Column(f.columns[j].name, f.columns[j].numeric, f.columns[j].cells[..h]));
    assert forall j :: 0 <= j < |cols| ==> ColumnFits(cols[j], h) by {
      forall j | 0 <= j < |cols|
        ensures ColumnFits(cols[j], h)
      {
        assert ColumnFits(f.columns[j], f.height);
      }
    }
    Frame(cols, h)
  }
}

=== FILE: hourly.dfy ===
/** `FactoryKPIService.get_factory_hourly_production`: the raw factory predictions grouped
    by hour, each hour reported as "HH:00" with its truncated actual production and demand,
    sorted by hour and completed with zero entries for the hours 0..23 that have no rows. */
module Hourly {
  import opened Wrappers
  import opened Numeric
  import opened Seqs
  import opened Sorting
  import opened Hours
  import opened Text
  import Kpi

  /** One raw factory-prediction row, as far as the factory endpoints read it. */
  datatype ProdRow = ProdRow(factory: string, line: string, sku: string, hour: int,
    actual: real, plan: real, scrap: real, batch: real, yPred: real, dcDemand: real)

  /** The raw factory frame: its rows and which optional columns it has. `hasHour` holds
      when the frame has an `hour` column or a `timestamp` column the hour is derived from. */
  datatype ProdFrame = ProdFrame(rows: seq<ProdRow>, hasHour: bool, hasYPred: bool,
    hasDcDemand: bool)

  /** The equality filters applied for the ids that are given (non-empty). */
  predicate InScope(r: ProdRow, factoryId: Option<string>, lineId: Option<string>) {
    && (Kpi.Given(factoryId) ==> r.factory == factoryId.value)
    && (Kpi.Given(lineId) ==> r.line == lineId.value)
  }

  function Scoped(rows: seq<ProdRow>, factoryId: Option<string>, lineId: Option<string>)
    : (r: seq<ProdRow>)
    ensures forall i :: 0 <= i < |r| ==> r[i] in rows && InScope(r[i], factoryId, lineId)
    ensures forall i :: 0 <= i < |rows| && InScope(rows[i], factoryId, lineId) ==> rows[i] in r
    ensures forall x :: multiset(r)[x] == if InScope(x, factoryId, lineId) then multiset(rows)[x] else 0
  {
    FilterMultiset(rows, ScopeOf(factoryId, lineId));
    Filter(rows, ScopeOf(factoryId, lineId))
  }

  /** The scope filter as a condition on rows. */
  function ScopeOf(factoryId: Option<string>, lineId: Option<string>): ProdRow -> bool {
    (x: ProdRow) => InScope(x, factoryId, lineId)
  }

  /** Without ids every row is in scope, in its original order. */
  lemma ScopedWithoutIds(rows: seq<ProdRow>)
    ensures Scoped(rows, None, None) == rows
  {
    FilterAll(rows, ScopeOf(None, None));
  }

  // ---------------------------------------------------------------- grouping by hour

  predicate HasHour(rows: seq<ProdRow>, h: int) {
    exists i :: 0 <= i < |rows| && rows[i].hour == h
  }

  function MinHour(rows: seq<ProdRow>): (m: int)
    requires |rows| > 0
    ensures forall i :: 0 <= i < |rows| ==> m <= rows[i].hour
  {
    if |rows| == 1 then rows[0].hour else Min(rows[0].hour, MinHour(rows[1..]))
  }

  function MaxHour(rows: seq<ProdRow>): (m: int)
    requires |rows| > 0
    ensures forall i :: 0 <= i < |rows| ==> rows[i].hour <= m
  {
    if |rows| == 1 then rows[0].hour else Max(rows[0].hour, MaxHour(rows[1..]))
  }

  /** The hours in `[lo, hi)` that some row has, ascending. */
  function HoursBetween(rows: seq<ProdRow>, lo: int, hi: int): (hs: seq<int>)
    ensures forall i :: 0 <= i < |hs| ==> lo <= hs[i] < hi && HasHour(rows, hs[i])
    ensures forall i, j :: 0 <= i < j < |hs| ==> hs[i] < hs[j]
    ensures forall h :: lo <= h < hi && HasHour(rows, h) ==> h in hs
    decreases hi - lo
  {
    if lo >= hi then []
    else (if HasHour(rows, lo) then [lo] else []) + HoursBetween(rows, lo + 1, hi)
  }

  /** The keys of `groupby("hour")`: every hour some row has, once, ascending. */
  function GroupHours(rows: seq<ProdRow>): (hs: seq<int>)
    ensures forall i :: 0 <= i < |hs| ==> HasHour(rows, hs[i])
    ensures forall i, j :: 0 <= i < j < |hs| ==> hs[i] < hs[j]
    ensures forall h :: HasHour(rows, h) ==> h in hs
  {
    if |rows| == 0 then [] else HoursBetween(rows, MinHour(rows), MaxHour(rows) + 1)
  }

  /** The columns summed per hour. */
  datatype ProdColumn = ActualQty | PredictedDemand | DcDemand24h

  function ValueOf(r: ProdRow, c: ProdColumn): real {
    match c
    case ActualQty => r.actual
    case PredictedDemand => r.yPred
    case DcDemand24h => r.dcDemand
  }

  /** The sum of column `c` over the rows of hour `h`. */
  function SumAt(rows: seq<ProdRow>, h: int, c: ProdColumn): real {
    if |rows| == 0 then 0.0
    else
      var last := rows[|rows| - 1];
      SumAt(rows[..|rows| - 1], h, c) + (if last.hour == h then ValueOf(last, c) else 0.0)
  }

  lemma SumAtSingle(r: ProdRow, h: int, c: ProdColumn)
    ensures SumAt([r], h, c) == if r.hour == h then ValueOf(r, c) else 0.0
  {
    assert [r][..0] == [];
  }

  /** The sum of column `c` over all rows. */
  function ColumnTotal(rows: seq<ProdRow>, c: ProdColumn): real {
    if |rows| == 0 then 0.0
    else ColumnTotal(rows[..|rows| - 1], c) + ValueOf(rows[|rows| - 1], c)
  }

  /** Where the demand series comes from: the predictions, unless they are missing or sum
      to zero, then the DC demand, else nothing. */
  datatype DemandSource = FromPrediction | FromDcDemand | NoDemand

  function DemandSourceOf(rows: seq<ProdRow>, hasYPred: bool, hasDcDemand: bool)
    : (s: DemandSource)
    ensures s == FromPrediction <==> hasYPred && ColumnTotal(rows, PredictedDemand) != 0.0
    ensures s == FromDcDemand <==>
      hasDcDemand && (!hasYPred || ColumnTotal(rows, PredictedDemand) == 0.0)
  {
    if !hasYPred || ColumnTotal(rows, PredictedDemand) == 0.0 then
      (if hasDcDemand then FromDcDemand else NoDemand)
    else FromPrediction
  }

  // ---------------------------------------------------------------- hour slots

  /** One hour's entry before its label is rendered. */
  datatype Slot = Slot(hour: int, actual: int, demand: int)

  function SlotHour(s: Slot): int {
    s.hour
  }

  function DemandAt(rows: seq<ProdRow>, src: DemandSource, h: int): int {
    match src
    case FromPrediction => Trunc(SumAt(rows, h, PredictedDemand))
    case FromDcDemand => Trunc(SumAt(rows, h, DcDemand24h))
    case NoDemand => 0
  }

  /** The entry of a grouped hour: its truncated actual production and demand. */
  function SlotAt(rows: seq<ProdRow>, src: DemandSource, h: int): Slot {
    Slot(h, Trunc(SumAt(rows, h, ActualQty)), DemandAt(rows, src, h))
  }

  /** The grouped entries in `groupby` order. */
  function Slots(rows: seq<ProdRow>, src: DemandSource): (ss: seq<Slot>)
    ensures |ss| == |GroupHours(rows)|
    ensures forall i :: 0 <= i < |ss| ==> ss[i] == SlotAt(rows, src, GroupHours(rows)[i])
  {
    var hs := GroupHours(rows);
    seq(|hs|, i requires 0 <= i < |hs| => SlotAt(rows, src, hs[i]))
  }

  /** The entry of every grouped hour, by hour. */
  function Grouped(rows: seq<ProdRow>, src: DemandSource): (g: map<int, Slot>)
    ensures forall h :: h in g <==> HasHour(rows, h)
    ensures forall h :: h in g ==> g[h] == SlotAt(rows, src, h)
  {
    map h | h in (set i | 0 <= i < |rows| :: rows[i].hour) :: SlotAt(rows, src, h)
  }

  /** The zero entries for the hours `h..23` not in `have`, ascending. */
  function MissingSlots(have: set<int>, h: int): seq<Slot>
    requires 0 <= h
    decreases 24 - h
  {
    if h >= 24 then []
    else (if h !in have then [Slot(h, 0, 0)] else []) + MissingSlots(have, h + 1)
  }

  /** The zero entries are those of exactly the hours from `h` to 23 not in `have`,
      ascending. */
  lemma MissingSlotsSpec(have: set<int>, h: int)
    requires 0 <= h
    ensures var ms := MissingSlots(have, h);
      && (forall s :: s in ms ==> h <= s.hour < 24 && s == Slot(s.hour, 0, 0) && s.hour !in have)
      && (forall i, j :: 0 <= i < j < |ms| ==> ms[i].hour < ms[j].hour)
      && (forall k :: h <= k < 24 && k !in have ==> Slot(k, 0, 0) in ms)
  {
    MissingSlotsMembers(have, h);
    MissingSlotsAscending(have, h);
    MissingSlotsComplete(have, h);
  }

  lemma {:induction false} MissingSlotsMembers(have: set<int>, h: int)
    requires 0 <= h
    ensures forall s :: s in MissingSlots(have, h) ==>
      h <= s.hour < 24 && s == Slot(s.hour, 0, 0) && s.hour !in have
    decreases 24 - h
  {
    if h < 24 {
      MissingSlotsMembers(have, h + 1);
    }
  }

  lemma {:induction false} MissingSlotsHours(have: set<int>, h: int)
    requires 0 <= h
    ensures forall i :: 0 <= i < |MissingSlots(have, h)| ==> h <= MissingSlots(have, h)[i].hour < 24
    decreases 24 - h
  {
    if h < 24 {
      MissingSlotsHours(have, h + 1);
      var tail := MissingSlots(have, h + 1);
      if h !in have {
        var ms := [Slot(h, 0, 0)] + tail;
        assert MissingSlots(have, h) == ms;
        forall i | 0 <= i < |ms|
          ensures h <= ms[i].hour < 24
        {
          if i > 0 {
            assert ms[i] == tail[i - 1];
          }
        }
      } else {
        assert MissingSlots(have, h) == tail;
      }
    }
  }

  lemma {:induction false} MissingSlotsAscending(have: set<int>, h: int)
    requires 0 <= h
    ensures AscendingHours(MissingSlots(have, h))
    decreases 24 - h
  {
    if h < 24 {
      MissingSlotsAscending(have, h + 1);
      MissingSlotsHours(have, h + 1);
      var tail := MissingSlots(have, h + 1);
      if h !in have {
        assert MissingSlots(have, h) == [Slot(h, 0, 0)] + tail;
        ConsAscending(Slot(h, 0, 0), tail);
      } else {
        assert MissingSlots(have, h) == tail;
      }
    }
  }

  predicate AscendingHours(ss: seq<Slot>) {
    forall i, j :: 0 <= i < j < |ss| ==> ss[i].hour < ss[j].hour
  }

  /** An entry below every hour of an ascending list extends it ascending. */
  lemma ConsAscending(x: Slot, tail: seq<Slot>)
    requires AscendingHours(tail)
    requires forall i :: 0 <= i < |tail| ==> x.hour < tail[i].hour
    ensures AscendingHours([x] + tail)
  {
    var ms := [x] + tail;
    forall i, j | 0 <= i < j < |ms|
      ensures ms[i].hour < ms[j].hour
    {
      assert ms[j] == tail[j - 1];
      if i > 0 {
        assert ms[i] == tail[i - 1];
      }
    }
  }

  lemma {:induction false} MissingSlotsComplete(have: set<int>, h: int)
    requires 0 <= h
    ensures forall k :: h <= k < 24 && k !in have ==> Slot(k, 0, 0) in MissingSlots(have, h)
    decreases 24 - h
  {
    if h < 24 {
      MissingSlotsComplete(have, h + 1);
      var tail := MissingSlots(have, h + 1);
      if h !in have {
        assert MissingSlots(have, h) == [Slot(h, 0, 0)] + tail;
      } else {
        assert MissingSlots(have, h) == tail;
      }
    }
  }

  /** The fill-and-sort on hours: sort, add a zero entry for every hour of 0..23 not yet
      present, sort again. */
  function FillSlots(slots: seq<Slot>): seq<Slot> {
    var sorted := Sort(slots, SlotHour, IntLe);
    var have := set s | s in sorted :: s.hour;
    Sort(sorted + MissingSlots(have, 0), SlotHour, IntLe)
  }

  /** What a filled series is, independent of how it is built: strictly ascending by
      hour; an entry of a grouped hour is that hour's entry and any other entry is a zero
      entry of an hour of the day; every grouped hour and every hour of the day appears. */
  ghost predicate FilledDay(r: seq<Slot>, grouped: map<int, Slot>) {
    && (forall i, j :: 0 <= i < j < |r| ==> r[i].hour < r[j].hour)
    && (forall s :: s in r && s.hour in grouped ==> s == grouped[s.hour])
    && (forall s :: s in r && s.hour !in grouped ==> 0 <= s.hour < 24 && s == Slot(s.hour, 0, 0))
    && (forall h :: h in grouped ==> grouped[h] in r)
    && (forall h :: 0 <= h < 24 && h !in grouped ==> Slot(h, 0, 0) in r)
  }

  /** The fill-and-sort of the entries of distinct grouped hours is a filled series. */
  lemma FillSlotsShape(slots: seq<Slot>, grouped: map<int, Slot>)
    requires forall i, j :: 0 <= i < j < |slots| ==> slots[i].hour != slots[j].hour
    requires forall s :: s in slots ==> s.hour in grouped && s == grouped[s.hour]
    requires forall h :: h in grouped ==> grouped[h] in slots && grouped[h].hour == h
    ensures FilledDay(FillSlots(slots), grouped)
  {
    var sorted := Sort(slots, SlotHour, IntLe);
    var have := set s | s in sorted :: s.hour;
    var ms := MissingSlots(have, 0);
    var c := sorted + ms;
    var r := Sort(c, SlotHour, IntLe);
    SortedPart(slots, sorted, grouped);
    ConcatHoursDistinct(sorted, have, ms);
    IntLePreorder();
    SortSorted(c, SlotHour, IntLe);
    SortedDistinctIsStrict(c, r, SlotHour);
    FillMembers(sorted, have, ms, r, grouped);
  }

  /** The first sort keeps the grouped entries and their distinct hours. */
  lemma SortedPart(slots: seq<Slot>, sorted: seq<Slot>, grouped: map<int, Slot>)
    requires forall i, j :: 0 <= i < j < |slots| ==> slots[i].hour != slots[j].hour
    requires forall s :: s in slots ==> s.hour in grouped && s == grouped[s.hour]
    requires forall h :: h in grouped ==> grouped[h] in slots
    requires multiset(sorted) == multiset(slots)
    ensures forall i, j :: 0 <= i < j < |sorted| ==> SlotHour(sorted[i]) != SlotHour(sorted[j])
    ensures forall s :: s in sorted ==> s.hour in grouped && s == grouped[s.hour]
    ensures forall h :: h in grouped ==> grouped[h] in sorted
  {
    DistinctKeysTransfer(slots, sorted, SlotHour);
    forall s | s in sorted
      ensures s in slots
    {
      assert s in multiset(slots);
    }
    forall h | h in grouped
      ensures grouped[h] in sorted
    {
      assert grouped[h] in multiset(slots);
    }
  }

  /** The zero entries take hours the grouped ones do not have, so no hour repeats. */
  lemma ConcatHoursDistinct(sorted: seq<Slot>, have: set<int>, ms: seq<Slot>)
    requires forall i, j :: 0 <= i < j < |sorted| ==> SlotHour(sorted[i]) != SlotHour(sorted[j])
    requires have == set s | s in sorted :: s.hour
    requires ms == MissingSlots(have, 0)
    ensures forall i, j :: 0 <= i < j < |sorted + ms| ==>
      SlotHour((sorted + ms)[i]) != SlotHour((sorted + ms)[j])
  {
    MissingSlotsSpec(have, 0);
    var c := sorted + ms;
    forall i, j | 0 <= i < j < |c|
      ensures SlotHour(c[i]) != SlotHour(c[j])
    {
      if j < |sorted| {
        assert c[i] == sorted[i] && c[j] == sorted[j];
      } else if i >= |sorted| {
        assert c[i] == ms[i - |sorted|] && c[j] == ms[j - |sorted|];
      } else {
        var x, y := sorted[i], ms[j - |sorted|];
        assert c[i] == x && c[j] == y;
        assert x in sorted && x.hour in have;
        assert y in ms;
      }
    }
  }

  /** The second sort keeps exactly the grouped and the zero entries. */
  lemma FillMembers(sorted: seq<Slot>, have: set<int>, ms: seq<Slot>, r: seq<Slot>,
    grouped: map<int, Slot>)
    requires forall s :: s in sorted ==> s.hour in grouped && s == grouped[s.hour]
    requires forall h :: h in grouped ==> grouped[h] in sorted && grouped[h].hour == h
    requires have == set s | s in sorted :: s.hour
    requires ms == MissingSlots(have, 0)
    requires multiset(r) == multiset(sorted + ms)
    ensures forall s :: s in r && s.hour in grouped ==> s == grouped[s.hour]
    ensures forall s :: s in r && s.hour !in grouped ==> 0 <= s.hour < 24 && s == Slot(s.hour, 0, 0)
    ensures forall h :: h in grouped ==> grouped[h] in r
    ensures forall h :: 0 <= h < 24 && h !in grouped ==> Slot(h, 0, 0) in r
  {
    MissingSlotsSpec(have, 0);
    forall s | s in ms
      ensures s.hour !in grouped && 0 <= s.hour < 24 && s == Slot(s.hour, 0, 0)
    {
    }
    forall h | 0 <= h < 24 && h !in grouped
      ensures Slot(h, 0, 0) in ms
    {
      assert h !in have;
    }
    FillKept(sorted, ms, r, grouped);
    FillReached(sorted, ms, r, grouped);
  }

  lemma FillKept(sorted: seq<Slot>, ms: seq<Slot>, r: seq<Slot>, grouped: map<int, Slot>)
    requires forall s :: s in sorted ==> s.hour in grouped && s == grouped[s.hour]
    requires forall s :: s in ms ==> s.hour !in grouped && 0 <= s.hour < 24 && s == Slot(s.hour, 0, 0)
    requires multiset(r) == multiset(sorted + ms)
    ensures forall s :: s in r && s.hour in grouped ==> s == grouped[s.hour]
    ensures forall s :: s in r && s.hour !in grouped ==> 0 <= s.hour < 24 && s == Slot(s.hour, 0, 0)
  {
    forall s | s in r
      ensures s in sorted || s in ms
    {
      assert s in multiset(sorted + ms);
    }
  }

  lemma FillReached(sorted: seq<Slot>, ms: seq<Slot>, r: seq<Slot>, grouped: map<int, Slot>)
    requires forall h :: h in grouped ==> grouped[h] in sorted
    requires forall h :: 0 <= h < 24 && h !in grouped ==> Slot(h, 0, 0) in ms
    requires multiset(r) == multiset(sorted + ms)
    ensures forall h :: h in grouped ==> grouped[h] in r
    ensures forall h :: 0 <= h < 24 && h !in grouped ==> Slot(h, 0, 0) in r
  {
    var c := sorted + ms;
    forall h | h in grouped
      ensures grouped[h] in r
    {
      assert grouped[h] in c;
      assert grouped[h] in multiset(r);
    }
    forall h | 0 <= h < 24 && h !in grouped
      ensures Slot(h, 0, 0) in r
    {
      assert Slot(h, 0, 0) in c;
      assert Slot(h, 0, 0) in multiset(r);
    }
  }

  /** Hours taken from timestamps lie in 0..23; then a filled series is exactly the 24
      hours of the day in order, each its grouped entry or a zero entry. */
  lemma {:induction false} FilledDayExact(r: seq<Slot>, grouped: map<int, Slot>)
    requires FilledDay(r, grouped)
    requires forall h :: h in grouped ==> 0 <= h < 24 && grouped[h].hour == h
    ensures |r| == 24
    ensures forall h :: 0 <= h < 24 ==>
      r[h] == if h in grouped then grouped[h] else Slot(h, 0, 0)
  {
    forall s | s in r
      ensures 0 <= s.hour < 24
    {
    }
    HoursAreIndices(r, grouped, |r|);
    assert |r| >= 24 by {
      var x := if 23 in grouped then grouped[23] else Slot(23, 0, 0);
      assert x in r;
      var k :| 0 <= k < |r| && r[k] == x;
      assert r[k].hour == k;
    }
    forall h | 0 <= h < 24
      ensures r[h] == if h in grouped then grouped[h] else Slot(h, 0, 0)
    {
      assert r[h] in r;
    }
  }

  /** In a filled series whose hours all lie in 0..23, the entry at index `i` has hour `i`. */
  lemma {:induction false} HoursAreIndices(r: seq<Slot>, grouped: map<int, Slot>, n: nat)
    requires FilledDay(r, grouped)
    requires forall h :: h in grouped ==> grouped[h].hour == h
    requires forall s :: s in r ==> 0 <= s.hour < 24
    requires n <= |r|
    ensures n <= 24
    ensures forall i :: 0 <= i < n ==> r[i].hour == i
    decreases n
  {
    if n > 0 {
      var i := n - 1;
      HoursAreIndices(r, grouped, i);
      assert r[i] in r;
      assert i <= r[i].hour by {
        if i > 0 {
          assert r[i - 1].hour < r[i].hour;
        }
      }
      if r[i].hour != i {
        var x := if i in grouped then grouped[i] else Slot(i, 0, 0);
        assert 0 <= i < 24 && x in r && x.hour == i;
        var k :| 0 <= k < |r| && r[k] == x;
        assert false;
      }
    }
  }

  // ---------------------------------------------------------------- labelled entries

  datatype HourlyPoint = HourlyPoint(hour: string, actual: int, demand: int)

  /** The response entry of a slot: its hour rendered as "HH:00". */
  function Render(s: Slot): HourlyPoint {
    HourlyPoint(HourLabel(s.hour), s.actual, s.demand)
  }

  /** The sort key `int(x["hour"].split(":")[0])`; every label rendered here parses. */
  function PointKey(p: HourlyPoint): int {
    match HourKey(p.hour)
    case Some(v) => v
    case None => 0
  }

  /** The sort key reads a rendered entry's hour back. */
  lemma PointKeyOfRender(s: Slot)
    ensures PointKey(Render(s)) == SlotHour(s)
  {
    HourKeyOfLabel(s.hour);
  }

  lemma PointKeyRenders()
    ensures forall s :: PointKey(Render(s)) == SlotHour(s)
  {
    forall s
      ensures PointKey(Render(s)) == SlotHour(s)
    {
      PointKeyOfRender(s);
    }
  }

  /** The zero entries for the labels `name(h)`, ..., `name(23)` not in `existing`. */
  function MissingFrom(existing: set<string>, name: int -> string, h: int): seq<HourlyPoint>
    requires 0 <= h
    decreases 24 - h
  {
    if h >= 24 then []
    else
      (if name(h) !in existing then [HourlyPoint(name(h), 0, 0)] else [])
      + MissingFrom(existing, name, h + 1)
  }

  /** The fill-and-sort on labelled entries, for a sort key `key` and a label format `name`:
      sort, append a zero entry for every label of the hours 0..23 not yet present, sort
      again. */
  function FillBy(points: seq<HourlyPoint>, key: HourlyPoint -> int, name: int -> string)
    : seq<HourlyPoint>
  {
    var sorted := Sort(points, key, IntLe);
    var existing := set p | p in sorted :: p.hour;
    Sort(sorted + MissingFrom(existing, name, 0), key, IntLe)
  }

  /** The endpoint's fill-and-sort: sorted by the parsed label, labels "00:00".."23:00". */
  function FillHours(points: seq<HourlyPoint>): seq<HourlyPoint> {
    FillBy(points, PointKey, HourLabel)
  }

  /** Filling by labels is filling by hours, then rendering. */
  lemma FillHoursRenders(slots: seq<Slot>)
    ensures FillHours(MapSeq(Render, slots)) == MapSeq(Render, FillSlots(slots))
  {
    PointKeyRenders();
    LabelsInjective();
    FillByRenders(slots, Render, PointKey, HourLabel);
  }

  /** Rendering labels an entry with its hour, and different hours get different labels. */
  lemma LabelsInjective()
    ensures forall s :: Render(s) == HourlyPoint(HourLabel(s.hour), s.actual, s.demand)
    ensures forall a, b :: HourLabel(a) == HourLabel(b) ==> a == b
  {
    forall a, b | HourLabel(a) == HourLabel(b)
      ensures a == b
    {
      HourLabelInjective(a, b);
    }
  }

  /** For a rendering whose labels tell hours apart and whose sort key reads the hour back,
      filling the rendered entries by labels is rendering the entries filled by hours. */
  lemma FillByRenders(slots: seq<Slot>, rend: Slot -> HourlyPoint, key: HourlyPoint -> int,
    name: int -> string)
    requires forall s :: rend(s) == HourlyPoint(name(s.hour), s.actual, s.demand)
    requires forall s :: key(rend(s)) == SlotHour(s)
    requires forall a, b :: name(a) == name(b) ==> a == b
    ensures FillBy(MapSeq(rend, slots), key, name) == MapSeq(rend, FillSlots(slots))
  {
    var sorted := Sort(slots, SlotHour, IntLe);
    var have := set s | s in sorted :: s.hour;
    SortMap(slots, rend, SlotHour, key, IntLe);
    var existing := set p | p in MapSeq(rend, sorted) :: p.hour;
    LabelsOfHours(sorted, have, existing, rend, name);
    MissingRenders(existing, have, rend, name, 0);
    MapSeqAppend(rend, sorted, MissingSlots(have, 0));
    SortMap(sorted + MissingSlots(have, 0), rend, SlotHour, key, IntLe);
  }

  /** With labels that tell hours apart, an hour has a rendered entry exactly when it has
      an entry. */
  lemma LabelsOfHours(sorted: seq<Slot>, have: set<int>, existing: set<string>,
    rend: Slot -> HourlyPoint, name: int -> string)
    requires have == set s | s in sorted :: s.hour
    requires existing == set p | p in MapSeq(rend, sorted) :: p.hour
    requires forall s :: rend(s) == HourlyPoint(name(s.hour), s.actual, s.demand)
    requires forall a, b :: name(a) == name(b) ==> a == b
    ensures forall k :: name(k) in existing <==> k in have
  {
    var rs := MapSeq(rend, sorted);
    forall k
      ensures name(k) in existing <==> k in have
    {
      if name(k) in existing {
        var p :| p in rs && p.hour == name(k);
        var i :| 0 <= i < |rs| && rs[i] == p;
        assert name(sorted[i].hour) == name(k);
      }
      if k in have {
        var x :| x in sorted && x.hour == k;
        var i :| 0 <= i < |sorted| && sorted[i] == x;
        assert rs[i].hour == name(k);
      }
    }
  }

  /** The zero entries by label are the rendered zero entries by hour. */
  lemma {:induction false} MissingRenders(existing: set<string>, have: set<int>,
    rend: Slot -> HourlyPoint, name: int -> string, h: int)
    requires 0 <= h
    requires forall s :: rend(s) == HourlyPoint(name(s.hour), s.actual, s.demand)
    requires forall k :: name(k) in existing <==> k in have
    ensures MissingFrom(existing, name, h) == MapSeq(rend, MissingSlots(have, h))
    decreases 24 - h
  {
    if h < 24 {
      MissingRenders(existing, have, rend, name, h + 1);
      var head := if h !in have then [Slot(h, 0, 0)] else [];
      var headP := if name(h) !in existing then [HourlyPoint(name(h), 0, 0)] else [];
      assert MapSeq(rend, head) == headP by {
        if h !in have {
          assert rend(Slot(h, 0, 0)) == HourlyPoint(name(h), 0, 0);
        }
      }
      MapSeqAppend(rend, head, MissingSlots(have, h + 1));
    }
  }

  // ---------------------------------------------------------------- the endpoint

  /** The endpoint as corrected: when the frame has no `y_pred` column the demand falls
      back to `dc_demand_24h` (or zero), as the fallback branch intends. */
  function HourlyProduction(raw: Option<ProdFrame>, factoryId: Option<string>,
    lineId: Option<string>): (r: seq<HourlyPoint>)
    ensures raw.None? || |raw.value.rows| == 0 || !raw.value.hasHour ==> r == []
    ensures raw.Some? && |Scoped(raw.value.rows, factoryId, lineId)| == 0 ==> r == []
    ensures raw.Some? && raw.value.hasHour && |Scoped(raw.value.rows, factoryId, lineId)| > 0 ==>
      var rows := Scoped(raw.value.rows, factoryId, lineId);
      var src := DemandSourceOf(rows, raw.value.hasYPred, raw.value.hasDcDemand);
      RendersFilledDay(r, Grouped(rows, src))
  {
    if raw.None? || |raw.value.rows| == 0 then []
    else
      var rows := Scoped(raw.value.rows, factoryId, lineId);
      if |rows| == 0 || !raw.value.hasHour then []
      else
        var src := DemandSourceOf(rows, raw.value.hasYPred, raw.value.hasDcDemand);
        var slots := Slots(rows, src);
        SlotsGrouped(rows, src);
        FillSlotsShape(slots, Grouped(rows, src));
        FillHoursRenders(slots);
        FillHours(MapSeq(Render, slots))
  }

  /** `r` renders a filled series of the grouped entries. */
  ghost predicate RendersFilledDay(r: seq<HourlyPoint>, grouped: map<int, Slot>) {
    exists day :: r == MapSeq(Render, day) && FilledDay(day, grouped)
  }

  /** The grouped entries hold distinct hours, each grouped, and every grouped hour. */
  lemma SlotsGrouped(rows: seq<ProdRow>, src: DemandSource)
    ensures var ss := Slots(rows, src);
      var g := Grouped(rows, src);
      && (forall i, j :: 0 <= i < j < |ss| ==> ss[i].hour != ss[j].hour)
      && (forall s :: s in ss ==> s.hour in g && s == g[s.hour])
      && (forall h :: h in g ==> g[h] in ss)
  {
    var hs := GroupHours(rows);
    var ss := Slots(rows, src);
    forall h | h in Grouped(rows, src)
      ensures Grouped(rows, src)[h] in ss
    {
      var p :| 0 <= p < |hs| && hs[p] == h;
      assert ss[p] == SlotAt(rows, src, h);
    }
  }

  /** With hours from timestamps the response is the 24 hours of the day in order: the
      grouped hours with their sums, the others with zeros. */
  lemma HourlyProductionDay(raw: ProdFrame, factoryId: Option<string>, lineId: Option<string>)
    requires raw.hasHour
    requires forall i :: 0 <= i < |raw.rows| ==> 0 <= raw.rows[i].hour < 24
    requires |Scoped(raw.rows, factoryId, lineId)| > 0
    ensures var r := HourlyProduction(Some(raw), factoryId, lineId);
      var rows := Scoped(raw.rows, factoryId, lineId);
      var g := Grouped(rows, DemandSourceOf(rows, raw.hasYPred, raw.hasDcDemand));
      && |r| == 24
      && forall h :: 0 <= h < 24 ==>
        r[h] == Render(if h in g then g[h] else Slot(h, 0, 0))
  {
    var r := HourlyProduction(Some(raw), factoryId, lineId);
    var rows := Scoped(raw.rows, factoryId, lineId);
    var g := Grouped(rows, DemandSourceOf(rows, raw.hasYPred, raw.hasDcDemand));
    var day :| r == MapSeq(Render, day) && FilledDay(day, g);
    forall h | h in g
      ensures 0 <= h < 24
    {
      var i :| 0 <= i < |rows| && rows[i].hour == h;
      assert rows[i] in raw.rows;
    }
    FilledDayExact(day, g);
  }

  /** The endpoint as written: `agg({"y_pred": "sum"})` raises `KeyError` on a frame
      without `y_pred` before the fallback that handles that case is reached. */
  function HourlyProductionAsWritten(raw: Option<ProdFrame>, factoryId: Option<string>,
    lineId: Option<string>): (r: Result<seq<HourlyPoint>>)
    ensures r.Failure? <==>
      && raw.Some? && |raw.value.rows| > 0 && raw.value.hasHour && !raw.value.hasYPred
      && |Scoped(raw.value.rows, factoryId, lineId)| > 0
    ensures r.Success? ==> r.value == HourlyProduction(raw, factoryId, lineId)
  {
    if raw.None? || |raw.value.rows| == 0 then Success([])
    else
      var rows := Scoped(raw.value.rows, factoryId, lineId);
      if |rows| == 0 || !raw.value.hasHour then Success([])
      else if !raw.value.hasYPred then Failure("KeyError: Column(s) ['y_pred'] do not exist")
      else Success(HourlyProduction(raw, factoryId, lineId))
  }

  /** A frame without `y_pred` whose one row carries `dc_demand_24h`: the source raises
      where the corrected endpoint reports 10 units produced and 7 demanded at 03:00. */
  lemma MissingPredictionFails(raw: ProdFrame)
    requires raw == ProdFrame([ProdRow("F1", "L1", "SKU_A", 3, 10.0, 0.0, 0.0, 0.0, 0.0, 7.0)],
      true, false, true)
    ensures HourlyProductionAsWritten(Some(raw), None, None).Failure?
    ensures |HourlyProduction(Some(raw), None, None)| == 24
    ensures HourlyProduction(Some(raw), None, None)[3] == HourlyPoint("03:00", 10, 7)
  {
    var row := raw.rows[0];
    assert raw.rows == [row];
    forall i | 0 <= i < |raw.rows|
      ensures 0 <= raw.rows[i].hour < 24
    {
      assert i == 0;
    }
    var rows := Scoped(raw.rows, None, None);
    ScopedWithoutIds(raw.rows);
    HourlyProductionDay(raw, None, None);
    assert DemandSourceOf(rows, raw.hasYPred, raw.hasDcDemand) == FromDcDemand;
    OneRowSlot(row, 3, FromDcDemand);
    assert Trunc(10.0) == 10 && Trunc(7.0) == 7;
    HourLabelOneDigit(3);
    assert DigitChar(3) == '3';
    assert Render(Slot(3, 10, 7)) == HourlyPoint("03:00", 10, 7);
    assert HasHour(rows, 3);
  }

  /** The entry of a one-row frame at the row's hour. */
  lemma OneRowSlot(row: ProdRow, h: int, src: DemandSource)
    requires src == FromDcDemand && row.hour == h
    ensures SlotAt([row], src, h) == Slot(h, Trunc(row.actual), Trunc(row.dcDemand))
  {
    SumAtSingle(row, h, ActualQty);
    SumAtSingle(row, h, DcDemand24h);
  }

  /** With a `y_pred` column the source and the corrected endpoint agree. */
  lemma HourlyProductionAgrees(raw: Option<ProdFrame>, factoryId: Option<string>,
    lineId: Option<string>)
    requires raw.Some? ==> raw.value.hasYPred
    ensures HourlyProductionAsWritten(raw, factoryId, lineId)
      == Success(HourlyProduction(raw, factoryId, lineId))
  {
  }
}

=== FILE: hours.dfy ===
/** Hour-of-day labels `f"{h:02d}:00"` and the sort key `int(label.split(":")[0])`
    that reads them back. */
module Hours {
  import opened Wrappers
  import opened Text

  /** `f"{h:02d}"`: at least two characters, zero-padded after any sign. */
  function Pad2(h: int): (r: string)
    ensures ':' !in r
    ensures 0 <= h < 10 ==> |r| == 2 && r[0] == '0'
    ensures 10 <= h < 100 ==> |r| == 2
  {
    if 0 <= h < 10 then "0" + NatString(h)
    else
      assert 10 <= h < 100 ==> NatString(h) == NatString(h / 10) + [DigitChar(h % 10)];
      IntString(h)
  }

  /** The label of hour `h`, such as "07:00". */
  function HourLabel(h: int): (r: string)
    ensures EndsWith(r, ":00")
    ensures 0 <= h < 24 ==> |r| == 5 && r[2] == ':' && IsDigits(r[..2])
  {
    Pad2(h) + ":00"
  }

  /** The label of a one-digit hour, character by character. */
  lemma HourLabelOneDigit(h: int)
    requires 0 <= h < 10
    ensures HourLabel(h) == ['0', DigitChar(h), ':', '0', '0']
  {
    assert NatString(h) == [DigitChar(h)];
  }

  /** Python's `int(s)` on an optional minus sign and decimal digits; anything else raises. */
  function ParseInt(s: string): (r: Option<int>)
    ensures r.Some? ==> |s| > 0
  {
    if |s| > 0 && IsDigits(s) then Some(ParseDigits(s))
    else if |s| > 1 && s[0] == '-' && IsDigits(s[1..]) then Some(0 - ParseDigits(s[1..]))
    else None
  }

  /** The sort key of a label: the integer before its first colon. */
  function HourKey(s: string): Option<int> {
    ParseInt(Split(s, ':')[0])
  }

  /** A leading zero does not change the value of a digit string. */
  lemma {:induction false} ParseLeadingZero(s: string)
    requires IsDigits(s)
    ensures IsDigits("0" + s) && ParseDigits("0" + s) == ParseDigits(s)
    decreases |s|
  {
    if |s| > 0 {
      var t := "0" + s;
      assert t[..|t| - 1] == "0" + s[..|s| - 1];
      ParseLeadingZero(s[..|s| - 1]);
    }
  }

  /** Reading a label back gives its hour, for every integer hour. */
  lemma HourKeyOfLabel(h: int)
    ensures HourKey(HourLabel(h)) == Some(h)
  {
    var p := Pad2(h);
    assert HourLabel(h) == p + [':'] + "00";
    SplitAtSeparator(p, "00", ':');
    SplitNoSeparator(p, ':');
    assert Split(HourLabel(h), ':')[0] == p;
    if 0 <= h < 10 {
      ParseNatString(h);
      ParseLeadingZero(NatString(h));
    } else if h >= 0 {
      ParseNatString(h);
    } else {
      ParseNatString(-h);
      assert !IsDigits(p) by {
        assert p[0] == '-';
      }
    }
  }

  /** Distinct hours have distinct labels. */
  lemma HourLabelInjective(h: int, k: int)
    requires HourLabel(h) == HourLabel(k)
    ensures h == k
  {
    HourKeyOfLabel(h);
    HourKeyOfLabel(k);
  }
}

=== FILE: kpi.dfy ===
/** The KPI formulas that the intermediate-dataframe builder precomputes for each group of
    validated rows (`_compute_factory_kpis`, `_compute_dc_kpis`, `_compute_store_kpis`), the
    aggregation-level preference of `GlobalDataLayer.get_*_kpis`, and the global
    command-centre KPIs. A group is the rows pandas `groupby` puts together; its KPIs
    depend only on the column sums of those rows. */
module Kpi {
  import opened Wrappers
  import opened Numeric
  import opened Seqs

  // ---------------------------------------------------------------- factory

  /** One validated row of the factory predictions. */
  datatype FactoryRow = FactoryRow(actual: real, plan: real, defect: real, scrap: real, batch: real)

  /** The per-group sums of `prod_actual_qty`, `prod_plan_qty`, `defect_qty`, `scrap_qty`
      and `batch_size_units`. */
  function FactoryTotals(rows: seq<FactoryRow>): FactoryRow {
    if |rows| == 0 then FactoryRow(0.0, 0.0, 0.0, 0.0, 0.0)
    else
      var t := FactoryTotals(rows[..|rows| - 1]);
      var r := rows[|rows| - 1];
      FactoryRow(t.actual + r.actual, t.plan + r.plan, t.defect + r.defect, t.scrap + r.scrap,
        t.batch + r.batch)
  }

  /** The sums of a group do not depend on how its rows are split: the totals of `a + b`
      are the field-wise sums of the totals of `a` and of `b`. */
  lemma {:induction false} FactoryTotalsAppend(a: seq<FactoryRow>, b: seq<FactoryRow>)
    ensures var t := FactoryTotals(a + b);
      var ta := FactoryTotals(a);
      var tb := FactoryTotals(b);
      t == FactoryRow(ta.actual + tb.actual, ta.plan + tb.plan, ta.defect + tb.defect,
        ta.scrap + tb.scrap, ta.batch + tb.batch)
    decreases |b|
  {
    if |b| == 0 {
      assert a + b == a;
    } else {
      assert (a + b)[..|a + b| - 1] == a + b[..|b| - 1];
      FactoryTotalsAppend(a, b[..|b| - 1]);
    }
  }

  datatype FactoryKpi = FactoryKpi(
    actual: real,
    utilizationPct: real,
    adherencePct: real,
    defectRatePct: real,
    wasteUnits: real,
    wasteSar: real)

  /** The KPIs of one factory group, the same at every factory aggregation level. */
  function FactoryGroupKpi(rows: seq<FactoryRow>): (k: FactoryKpi)
    ensures var t := FactoryTotals(rows);
      && k.actual == t.actual
      && (t.batch == 0.0 ==> k.utilizationPct == 0.0)
      && (t.batch != 0.0 ==> k.utilizationPct * t.batch == 100.0 * t.actual)
      && (t.plan == 0.0 ==> k.adherencePct == 0.0)
      && (t.plan != 0.0 ==> k.adherencePct * t.plan == 100.0 * t.actual)
      && (t.actual == 0.0 ==> k.defectRatePct == 0.0)
      && (t.actual != 0.0 ==> k.defectRatePct * t.actual == 100.0 * t.defect)
      && k.wasteUnits == t.scrap
      && k.wasteSar == 10.0 * k.wasteUnits
  {
    var t := FactoryTotals(rows);
    FactoryKpi(
      t.actual,
      SafeDiv(t.actual, t.batch, 0.0) * 100.0,
      SafeDiv(t.actual, t.plan, 0.0) * 100.0,
      SafeDiv(t.defect, t.actual, 0.0) * 100.0,
      t.scrap,
      t.scrap * 10.0)
  }

  /** Row by row bounds carry over to the group sums. */
  lemma {:induction false} FactoryTotalsBounds(rows: seq<FactoryRow>)
    requires forall i :: 0 <= i < |rows| ==> 0.0 <= rows[i].defect <= rows[i].actual <= rows[i].batch
    ensures var t := FactoryTotals(rows); 0.0 <= t.defect <= t.actual <= t.batch
    decreases |rows|
  {
    if |rows| > 0 {
      FactoryTotalsBounds(rows[..|rows| - 1]);
    }
  }

  /** When no row produces more than its batch size and defects are part of production,
      utilisation and defect rate are percentages in [0, 100]. */
  lemma FactoryPercentagesBounded(rows: seq<FactoryRow>)
    requires forall i :: 0 <= i < |rows| ==> 0.0 <= rows[i].defect <= rows[i].actual <= rows[i].batch
    ensures 0.0 <= FactoryGroupKpi(rows).utilizationPct <= 100.0
    ensures 0.0 <= FactoryGroupKpi(rows).defectRatePct <= 100.0
  {
    FactoryTotalsBounds(rows);
    var t := FactoryTotals(rows);
    SafeDivFraction(t.actual, t.batch);
    SafeDivFraction(t.defect, t.actual);
  }

  // ---------------------------------------------------------------- DC

  /** One validated row of the DC forecasts. */
  datatype DcRow = DcRow(stock: real, demand: real, offset: int)

  datatype DcLevel = DcSkuDateHour | DcSku | DcOnly

  function DcLevelName(l: DcLevel): string {
    match l
    case DcSkuDateHour => "dc_sku_date_hour"
    case DcSku => "dc_sku"
    case DcOnly => "dc"
  }

  /** Keeps only the next-hour forecasts when the frame has a `forecast_hour_offset` column. */
  function DcNextHour(rows: seq<DcRow>, hasOffset: bool): (r: seq<DcRow>)
    ensures hasOffset ==> forall i :: 0 <= i < |r| ==> r[i].offset == 1
    ensures hasOffset ==> forall i :: 0 <= i < |rows| && rows[i].offset == 1 ==> rows[i] in r
    ensures forall i :: 0 <= i < |r| ==> r[i] in rows
    ensures !hasOffset ==> r == rows
    ensures hasOffset ==> forall x :: multiset(r)[x] == if x.offset == 1 then multiset(rows)[x] else 0
  {
    if hasOffset then
      var p := (x: DcRow) => x.offset == 1;
      FilterMultiset(rows, p);
      Filter(rows, p)
    else rows
  }

  /** Per-group sums of `opening_stock_units` and `predicted_demand` (the offset is unused). */
  function DcTotals(rows: seq<DcRow>): DcRow {
    if |rows| == 0 then DcRow(0.0, 0.0, 0)
    else
      var t := DcTotals(rows[..|rows| - 1]);
      DcRow(t.stock + rows[|rows| - 1].stock, t.demand + rows[|rows| - 1].demand, 0)
  }

  /** The totals of `a + b` are the sums of the totals of `a` and of `b`. */
  lemma {:induction false} DcTotalsAppend(a: seq<DcRow>, b: seq<DcRow>)
    ensures DcTotals(a + b) == DcRow(DcTotals(a).stock + DcTotals(b).stock,
      DcTotals(a).demand + DcTotals(b).demand, 0)
    decreases |b|
  {
    if |b| == 0 {
      assert a + b == a;
    } else {
      assert (a + b)[..|a + b| - 1] == a + b[..|b| - 1];
      DcTotalsAppend(a, b[..|b| - 1]);
    }
  }

  lemma {:induction false} DcTotalsNonNegative(rows: seq<DcRow>)
    requires forall i :: 0 <= i < |rows| ==> rows[i].stock >= 0.0 && rows[i].demand >= 0.0
    ensures DcTotals(rows).stock >= 0.0 && DcTotals(rows).demand >= 0.0
    decreases |rows|
  {
    if |rows| > 0 {
      DcTotalsNonNegative(rows[..|rows| - 1]);
    }
  }

  /** `daysCover` is absent (NaN after the concat) at the DC-only level. */
  datatype DcKpi = DcKpi(servicePct: real, excess: real, wastePct: real, backorderUnits: real,
    daysCover: Option<real>)

  /** The KPIs of one DC group at a given level. */
  function DcGroupKpi(level: DcLevel, rows: seq<DcRow>): (k: DcKpi)
    ensures var t := DcTotals(rows);
      && (t.demand == 0.0 ==> k.servicePct == 0.0)
      && (t.demand != 0.0 ==> k.servicePct * t.demand == 100.0 * MinReal(t.stock, t.demand))
      && k.excess >= 0.0 && k.excess >= t.stock - t.demand
      && (t.stock > t.demand ==> k.excess == t.stock - t.demand)
      && (t.stock <= t.demand ==> k.excess == 0.0)
      && (t.stock == 0.0 ==> k.wastePct == 0.0)
      && (t.stock != 0.0 ==> k.wastePct * t.stock == 100.0 * k.excess)
      && (t.stock == 0.0 ==> k.backorderUnits == t.demand)
      && (t.stock != 0.0 ==> k.backorderUnits == 0.0)
      && (level == DcOnly <==> k.daysCover.None?)
      && (k.daysCover.Some? && t.demand != 0.0 ==> k.daysCover.value * t.demand == t.stock)
      && (level != DcOnly && t.demand == 0.0 ==> k.daysCover == Some(0.0))
  {
    var t := DcTotals(rows);
    var excess := ClipLowReal(t.stock - t.demand);
    DcKpi(
      SafeDiv(MinReal(t.stock, t.demand), t.demand, 0.0) * 100.0,
      excess,
      SafeDiv(excess, t.stock, 0.0) * 100.0,
      if t.stock == 0.0 then t.demand else 0.0,
      if level == DcOnly then None else Some(SafeDiv(t.stock, t.demand, 0.0)))
  }

  /** With non-negative stock and demand, the service level is a percentage, and it is 100
      exactly when stock covers a positive demand. */
  lemma DcServiceBounded(level: DcLevel, rows: seq<DcRow>)
    requires forall i :: 0 <= i < |rows| ==> rows[i].stock >= 0.0 && rows[i].demand >= 0.0
    ensures 0.0 <= DcGroupKpi(level, rows).servicePct <= 100.0
    ensures DcTotals(rows).demand > 0.0 ==>
      (DcGroupKpi(level, rows).servicePct == 100.0 <==> DcTotals(rows).stock >= DcTotals(rows).demand)
  {
    DcTotalsNonNegative(rows);
    var t := DcTotals(rows);
    SafeDivFraction(MinReal(t.stock, t.demand), t.demand);
    if t.demand > 0.0 {
      RatioOne(MinReal(t.stock, t.demand), t.demand);
    }
  }

  /** The waste share is a percentage whenever stock is non-negative. */
  lemma DcWasteBounded(level: DcLevel, rows: seq<DcRow>)
    requires forall i :: 0 <= i < |rows| ==> rows[i].stock >= 0.0 && rows[i].demand >= 0.0
    ensures 0.0 <= DcGroupKpi(level, rows).wastePct <= 100.0
  {
    DcTotalsNonNegative(rows);
    var t := DcTotals(rows);
    SafeDivFraction(ClipLowReal(t.stock - t.demand), t.stock);
  }

  // ---------------------------------------------------------------- store

  /** One validated row of the store forecasts; `waste` and `cost` are the CSV's
      `waste_units` and `waste_cost` when it has them. */
  datatype StoreRow = StoreRow(onShelf: real, capacity: real, waste: real, cost: real, offset: int)

  datatype StoreLevel = StoreSkuDateHour | StoreSku | StoreOnly

  function StoreLevelName(l: StoreLevel): string {
    match l
    case StoreSkuDateHour => "store_sku_date_hour"
    case StoreSku => "store_sku"
    case StoreOnly => "store"
  }

  /** Keeps only the next-hour forecasts when the frame has a `forecast_hour_offset` column. */
  function StoreNextHour(rows: seq<StoreRow>, hasOffset: bool): (r: seq<StoreRow>)
    ensures hasOffset ==> forall i :: 0 <= i < |r| ==> r[i].offset == 1
    ensures hasOffset ==> forall i :: 0 <= i < |rows| && rows[i].offset == 1 ==> rows[i] in r
    ensures forall i :: 0 <= i < |r| ==> r[i] in rows
    ensures !hasOffset ==> r == rows
    ensures hasOffset ==> forall x :: multiset(r)[x] == if x.offset == 1 then multiset(rows)[x] else 0
  {
    if hasOffset then
      var p := (x: StoreRow) => x.offset == 1;
      FilterMultiset(rows, p);
      Filter(rows, p)
    else rows
  }

  function ShelfColumn(rows: seq<StoreRow>): (r: seq<real>)
    ensures |r| == |rows| && forall i :: 0 <= i < |rows| ==> r[i] == rows[i].onShelf
  {
    seq(|rows|, i requires 0 <= i < |rows| => rows[i].onShelf)
  }

  /** Per-group sums of capacity, CSV waste units and CSV waste cost. */
  function StoreTotals(rows: seq<StoreRow>): StoreRow {
    if |rows| == 0 then StoreRow(0.0, 0.0, 0.0, 0.0, 0)
    else
      var t := StoreTotals(rows[..|rows| - 1]);
      var r := rows[|rows| - 1];
      StoreRow(0.0, t.capacity + r.capacity, t.waste + r.waste, t.cost + r.cost, 0)
  }

  /** The totals of `a + b` are the sums of the totals of `a` and of `b`. */
  lemma {:induction false} StoreTotalsAppend(a: seq<StoreRow>, b: seq<StoreRow>)
    ensures StoreTotals(a + b) == StoreRow(0.0, StoreTotals(a).capacity + StoreTotals(b).capacity,
      StoreTotals(a).waste + StoreTotals(b).waste, StoreTotals(a).cost + StoreTotals(b).cost, 0)
    decreases |b|
  {
    if |b| == 0 {
      assert a + b == a;
    } else {
      assert (a + b)[..|a + b| - 1] == a + b[..|b| - 1];
      StoreTotalsAppend(a, b[..|b| - 1]);
    }
  }

  /** The rows that count as a stockout: on-shelf units, once clipped at zero, are zero. */
  predicate IsStockout(r: StoreRow) {
    ClipLowReal(r.onShelf) <= 0.0
  }

  datatype StoreKpi = StoreKpi(onShelf: real, capacity: real, availabilityPct: real,
    stockouts: nat, wasteUnits: real, wasteSar: real)

  /** The KPIs of one store group. On-shelf units are clipped at zero before summing.
      `csvWaste` says whether the CSV has both `waste_units` and `waste_cost`. */
  function StoreGroupKpi(level: StoreLevel, rows: seq<StoreRow>, csvWaste: bool): (k: StoreKpi)
    ensures k.onShelf >= 0.0 && k.capacity == StoreTotals(rows).capacity
    ensures k.capacity == 0.0 ==> k.availabilityPct == 0.0
    ensures k.capacity != 0.0 ==> k.availabilityPct * k.capacity == 100.0 * k.onShelf
    // below the store level a group reports one stockout exactly when it has nothing on shelf
    ensures level != StoreOnly ==> k.stockouts <= 1
    ensures level != StoreOnly ==> (k.stockouts == 1 <==> k.onShelf == 0.0)
    ensures level != StoreOnly ==>
      (k.stockouts == 1 <==> forall i :: 0 <= i < |rows| ==> rows[i].onShelf <= 0.0)
    // at the store level it counts the rows with nothing on shelf
    ensures level == StoreOnly ==> k.stockouts == Count(rows, IsStockout)
    ensures k.wasteUnits >= 0.0
    ensures !csvWaste ==> k.wasteUnits == MaxReal(k.onShelf - k.capacity, 0.0)
    ensures !csvWaste ==> k.wasteSar == 10.0 * k.wasteUnits
    ensures csvWaste ==> k.wasteUnits == ClipLowReal(StoreTotals(rows).waste)
    ensures csvWaste ==> k.wasteSar == StoreTotals(rows).cost
  {
    var t := StoreTotals(rows);
    var shelf := ClippedSum(ShelfColumn(rows));
    var waste := StoreWasteUnits(shelf, t, csvWaste);
    var sar := if csvWaste then t.cost else waste * 10.0;
    StoreKpi(shelf, t.capacity, Percent(shelf, t.capacity), GroupStockouts(level, rows), waste, sar)
  }

  /** A group's stockout count: the rows with nothing on shelf at the store level, and below
      it one stockout when the group as a whole has nothing on shelf. */
  function GroupStockouts(level: StoreLevel, rows: seq<StoreRow>): (n: nat)
    ensures level != StoreOnly ==> n <= 1
    ensures level != StoreOnly ==> (n == 1 <==> ClippedSum(ShelfColumn(rows)) == 0.0)
    ensures level != StoreOnly ==>
      (n == 1 <==> forall i :: 0 <= i < |rows| ==> rows[i].onShelf <= 0.0)
    ensures level == StoreOnly ==> n == Count(rows, IsStockout)
  {
    if level == StoreOnly then Count(rows, IsStockout)
    else if ClippedSum(ShelfColumn(rows)) == 0.0 then 1 else 0
  }

  /** A group's waste units: the CSV's summed waste clipped at zero when it has the columns,
      otherwise the shelf units above capacity. */
  function StoreWasteUnits(shelf: real, t: StoreRow, csvWaste: bool): (w: real)
    ensures w >= 0.0
    ensures !csvWaste ==> w == MaxReal(shelf - t.capacity, 0.0)
    ensures csvWaste ==> w == ClipLowReal(t.waste)
  {
    if csvWaste then ClipLowReal(t.waste) else ClipLowReal(shelf - t.capacity)
  }

  lemma {:induction false} StoreShelfAtMostCapacity(rows: seq<StoreRow>)
    requires forall i :: 0 <= i < |rows| ==> ClipLowReal(rows[i].onShelf) <= rows[i].capacity
    ensures SumReal(ClipAll(ShelfColumn(rows))) <= StoreTotals(rows).capacity
    decreases |rows|
  {
    if |rows| > 0 {
      var init := rows[..|rows| - 1];
      StoreShelfAtMostCapacity(init);
      assert ClipAll(ShelfColumn(rows))[..|rows| - 1] == ClipAll(ShelfColumn(init));
    }
  }

  /** When no row holds more than its planogram capacity, availability is a percentage. */
  lemma StoreAvailabilityBounded(level: StoreLevel, rows: seq<StoreRow>, csvWaste: bool)
    requires forall i :: 0 <= i < |rows| ==> ClipLowReal(rows[i].onShelf) <= rows[i].capacity
    ensures 0.0 <= StoreGroupKpi(level, rows, csvWaste).availabilityPct <= 100.0
    ensures !csvWaste ==> StoreGroupKpi(level, rows, csvWaste).wasteUnits == 0.0
  {
    StoreShelfAtMostCapacity(rows);
    var k := StoreGroupKpi(level, rows, csvWaste);
    SafeDivFraction(k.onShelf, k.capacity);
  }

  // ---------------------------------------------------------------- level preference

  /** One row of the intermediate frame as `get_*_kpis` sees it: the node id (missing on
      rows of other node kinds), the secondary id (line or SKU, missing on coarser levels),
      the aggregation level and the KPI payload. */
  datatype KpiRow<T> = KpiRow(node: Option<string>, sub: Option<string>, level: string, kpi: T)

  /** Python truthiness of an optional id: present and non-empty. */
  predicate Given(id: Option<string>) {
    id.Some? && id.value != ""
  }

  /** The row survives `dropna` on the node id and the equality filters for the given ids. */
  predicate Matches<T>(x: KpiRow<T>, node: Option<string>, sub: Option<string>) {
    && x.node.Some?
    && (Given(node) ==> x.node == node)
    && (Given(sub) ==> x.sub == sub)
  }

  /** `Matches` as a row condition. */
  function MatchOf<T>(node: Option<string>, sub: Option<string>): KpiRow<T> -> bool {
    (x: KpiRow<T>) => Matches(x, node, sub)
  }

  /** The condition that a row's level is one of `levels`. */
  function AtLevels<T>(levels: set<string>): KpiRow<T> -> bool {
    (x: KpiRow<T>) => x.level in levels
  }

  /** Some row matches the ids at one of the preferred levels. */
  predicate HasPreferred<T>(rows: seq<KpiRow<T>>, node: Option<string>, sub: Option<string>,
    levels: set<string>)
  {
    exists i :: 0 <= i < |rows| && Matches(rows[i], node, sub) && rows[i].level in levels
  }

  /** The levels preferred for a query: the pair levels with both ids, the node level with
      only the node id, no preference otherwise. */
  function PreferredLevels(node: Option<string>, sub: Option<string>, pairLevels: set<string>,
    nodeLevel: string): Option<set<string>>
  {
    if Given(node) && Given(sub) then Some(pairLevels)
    else if Given(node) then Some({nodeLevel})
    else None
  }

  /** `get_factory_kpis`, `get_dc_kpis` and `get_store_kpis` share this selection. */
  function SelectKpis<T(!new)>(rows: seq<KpiRow<T>>, node: Option<string>, sub: Option<string>,
    pairLevels: set<string>, nodeLevel: string): (r: seq<KpiRow<T>>)
    ensures forall i :: 0 <= i < |r| ==> r[i] in rows && Matches(r[i], node, sub)
    // with a preference some matching row meets, exactly the matching rows at preferred levels
    ensures var pref := PreferredLevels(node, sub, pairLevels, nodeLevel);
      pref.Some? && HasPreferred(rows, node, sub, pref.value) ==>
        && (forall i :: 0 <= i < |r| ==> r[i].level in pref.value)
        && (forall i :: 0 <= i < |rows| && Matches(rows[i], node, sub) && rows[i].level in pref.value ==> rows[i] in r)
    // otherwise every matching row
    ensures var pref := PreferredLevels(node, sub, pairLevels, nodeLevel);
      !(pref.Some? && HasPreferred(rows, node, sub, pref.value)) ==>
        forall i :: 0 <= i < |rows| && Matches(rows[i], node, sub) ==> rows[i] in r
  {
    var matching := Filter(rows, MatchOf(node, sub));
    var pref := PreferredLevels(node, sub, pairLevels, nodeLevel);
    if pref.None? then matching
    else
      var preferred := Filter(matching, AtLevels(pref.value));
      if |preferred| > 0 then
        assert preferred[0] in matching;
        preferred
      else
        matching
  }

  /** The selection keeps each chosen row as often as it occurs in the input: the matching
      rows at preferred levels when some exist, every matching row otherwise. */
  lemma SelectKpisCounts<T(!new)>(rows: seq<KpiRow<T>>, node: Option<string>, sub: Option<string>,
    pairLevels: set<string>, nodeLevel: string)
    ensures var pref := PreferredLevels(node, sub, pairLevels, nodeLevel);
      var r := SelectKpis(rows, node, sub, pairLevels, nodeLevel);
      pref.Some? && HasPreferred(rows, node, sub, pref.value) ==>
        forall x :: multiset(r)[x] == if Matches(x, node, sub) && x.level in pref.value then multiset(rows)[x] else 0
    ensures var pref := PreferredLevels(node, sub, pairLevels, nodeLevel);
      var r := SelectKpis(rows, node, sub, pairLevels, nodeLevel);
      !(pref.Some? && HasPreferred(rows, node, sub, pref.value)) ==>
        forall x :: multiset(r)[x] == if Matches(x, node, sub) then multiset(rows)[x] else 0
  {
    var matching := Filter(rows, MatchOf(node, sub));
    var pref := PreferredLevels(node, sub, pairLevels, nodeLevel);
    var r := SelectKpis(rows, node, sub, pairLevels, nodeLevel);
    MatchingCounts(rows, node, sub);
    if pref.Some? {
      PreferredNonEmpty(rows, node, sub, pref.value);
      if HasPreferred(rows, node, sub, pref.value) {
        assert r == Filter(matching, AtLevels(pref.value));
        PreferredCounts(rows, node, sub, pref.value);
      } else {
        assert r == matching;
      }
    } else {
      assert r == matching;
    }
  }

  /** The rows matching the ids, each as often as it occurs in the input. */
  lemma MatchingCounts<T(!new)>(rows: seq<KpiRow<T>>, node: Option<string>, sub: Option<string>)
    ensures forall x ::
      multiset(Filter(rows, MatchOf(node, sub)))[x] == if Matches(x, node, sub) then multiset(rows)[x] else 0
  {
    FilterMultiset(rows, MatchOf(node, sub));
    forall x
      ensures multiset(Filter(rows, MatchOf(node, sub)))[x] == if Matches(x, node, sub) then multiset(rows)[x] else 0
    {
      assert MatchOf(node, sub)(x) == Matches(x, node, sub);
    }
  }

  /** The matching rows at the given levels, each as often as it occurs in the input. */
  lemma PreferredCounts<T(!new)>(rows: seq<KpiRow<T>>, node: Option<string>, sub: Option<string>,
    levels: set<string>)
    ensures forall x ::
      multiset(Filter(Filter(rows, MatchOf(node, sub)), AtLevels(levels)))[x] ==
        if Matches(x, node, sub) && x.level in levels then multiset(rows)[x] else 0
  {
    var matching := Filter(rows, MatchOf(node, sub));
    MatchingCounts(rows, node, sub);
    FilterMultiset(matching, AtLevels(levels));
    forall x
      ensures multiset(Filter(matching, AtLevels(levels)))[x] ==
        (if Matches(x, node, sub) && x.level in levels then multiset(rows)[x] else 0)
    {
      assert AtLevels(levels)(x) == (x.level in levels);
    }
  }

  /** Preferring levels selects something exactly when some matching row is at one of them. */
  lemma PreferredNonEmpty<T(!new)>(rows: seq<KpiRow<T>>, node: Option<string>, sub: Option<string>,
    levels: set<string>)
    ensures |Filter(Filter(rows, MatchOf(node, sub)), AtLevels(levels))| > 0
        <==> HasPreferred(rows, node, sub, levels)
  {
    var matching := Filter(rows, MatchOf(node, sub));
    var preferred := Filter(matching, AtLevels(levels));
    FilterMultiset(rows, MatchOf(node, sub));
    FilterMultiset(matching, AtLevels(levels));
    if |preferred| > 0 {
      var x := preferred[0];
      assert multiset(preferred)[x] > 0;
      assert multiset(rows)[x] > 0;
      var i :| 0 <= i < |rows| && rows[i] == x;
    }
    if HasPreferred(rows, node, sub, levels) {
      var i :| 0 <= i < |rows| && Matches(rows[i], node, sub) && rows[i].level in levels;
      assert multiset(rows)[rows[i]] > 0;
      assert multiset(preferred)[rows[i]] > 0;
    }
  }

  const FactoryPairLevels: set<string> := {"factory_line", "factory_line_date"}
  const DcPairLevels: set<string> := {"dc_sku", "dc_sku_date_hour"}
  const StorePairLevels: set<string> := {"store_sku", "store_sku_date_hour"}

  /** `GlobalDataLayer.get_factory_kpis`. */
  function GetFactoryKpis(rows: seq<KpiRow<FactoryKpi>>, factoryId: Option<string>,
    lineId: Option<string>): (r: seq<KpiRow<FactoryKpi>>)
    ensures forall i :: 0 <= i < |r| ==> r[i] in rows && Matches(r[i], factoryId, lineId)
    ensures Given(factoryId) && Given(lineId)
      && (exists i :: 0 <= i < |rows| && Matches(rows[i], factoryId, lineId) && rows[i].level in FactoryPairLevels)
      ==> forall i :: 0 <= i < |r| ==> r[i].level == "factory_line" || r[i].level == "factory_line_date"
    ensures Given(factoryId) && !Given(lineId)
      && (exists i :: 0 <= i < |rows| && Matches(rows[i], factoryId, lineId) && rows[i].level == "factory")
      ==> forall i :: 0 <= i < |r| ==> r[i].level == "factory"
  {
    SelectKpis(rows, factoryId, lineId, FactoryPairLevels, "factory")
  }

  /** `GlobalDataLayer.get_dc_kpis`. */
  function GetDcKpis(rows: seq<KpiRow<DcKpi>>, dcId: Option<string>, skuId: Option<string>)
    : (r: seq<KpiRow<DcKpi>>)
    ensures forall i :: 0 <= i < |r| ==> r[i] in rows && Matches(r[i], dcId, skuId)
    ensures Given(dcId) && Given(skuId)
      && (exists i :: 0 <= i < |rows| && Matches(rows[i], dcId, skuId) && rows[i].level in DcPairLevels)
      ==> forall i :: 0 <= i < |r| ==> r[i].level == "dc_sku" || r[i].level == "dc_sku_date_hour"
    ensures Given(dcId) && !Given(skuId)
      && (exists i :: 0 <= i < |rows| && Matches(rows[i], dcId, skuId) && rows[i].level == "dc")
      ==> forall i :: 0 <= i < |r| ==> r[i].level == "dc"
  {
    SelectKpis(rows, dcId, skuId, DcPairLevels, "dc")
  }

  /** `GlobalDataLayer.get_store_kpis`. */
  function GetStoreKpis(rows: seq<KpiRow<StoreKpi>>, storeId: Option<string>, skuId: Option<string>)
    : (r: seq<KpiRow<StoreKpi>>)
    ensures forall i :: 0 <= i < |r| ==> r[i] in rows && Matches(r[i], storeId, skuId)
    ensures Given(storeId) && Given(skuId)
      && (exists i :: 0 <= i < |rows| && Matches(rows[i], storeId, skuId) && rows[i].level in StorePairLevels)
      ==> forall i :: 0 <= i < |r| ==> r[i].level == "store_sku" || r[i].level == "store_sku_date_hour"
    ensures Given(storeId) && !Given(skuId)
      && (exists i :: 0 <= i < |rows| && Matches(rows[i], storeId, skuId) && rows[i].level == "store")
      ==> forall i :: 0 <= i < |r| ==> r[i].level == "store"
  {
    SelectKpis(rows, storeId, skuId, StorePairLevels, "store")
  }

  /** An empty id filters nothing: `""` and a missing id select the same rows. */
  lemma EmptyIdIsNoFilter<T(!new)>(rows: seq<KpiRow<T>>, sub: Option<string>, pairLevels: set<string>,
    nodeLevel: string)
    ensures SelectKpis(rows, Some(""), sub, pairLevels, nodeLevel)
         == SelectKpis(rows, None, sub, pairLevels, nodeLevel)
  {
    FilterSameCondition(rows, MatchOf(Some(""), sub), MatchOf(None, sub));
  }
}

=== FILE: mailer.dfy ===
/** The alert mailer: the recipient list read from the comma-separated `ALERT_EMAILS`
    setting, and the message `send_success_email` builds for it. SMTP delivery is a
    parameter: its outcome is given, not computed. */
module Mailer {
  import opened Wrappers
  import opened Text

  /** A recipient as the parser produces it: non-empty, no surrounding whitespace, no comma. */
  predicate Clean(e: string) {
    && |e| > 0
    && !IsSpace(e[0]) && !IsSpace(e[|e| - 1])
    && ',' !in e
  }

  /** `[e.strip() for e in pieces if e.strip()]`. */
  function StrippedPieces(pieces: seq<string>): (r: seq<string>)
    ensures |r| <= |pieces|
    decreases |pieces|
  {
    if |pieces| == 0 then []
    else (if Strip(pieces[0]) != "" then [Strip(pieces[0])] else []) + StrippedPieces(pieces[1..])
  }

  /** Every recipient is a stripped piece that is not blank, and every piece that is not
      blank gives a recipient. */
  lemma {:induction false} StrippedPiecesMembers(pieces: seq<string>)
    ensures forall i :: 0 <= i < |pieces| && Strip(pieces[i]) != "" ==> Strip(pieces[i]) in StrippedPieces(pieces)
    ensures forall x :: x in StrippedPieces(pieces) ==>
      exists i :: 0 <= i < |pieces| && Strip(pieces[i]) == x && x != ""
    decreases |pieces|
  {
    if |pieces| > 0 {
      StrippedPiecesMembers(pieces[1..]);
      assert forall i :: 1 <= i < |pieces| ==> pieces[i] == pieces[1..][i - 1];
      forall x | x in StrippedPieces(pieces)
        ensures exists i :: 0 <= i < |pieces| && Strip(pieces[i]) == x && x != ""
      {
        if x !in StrippedPieces(pieces[1..]) {
          assert Strip(pieces[0]) == x && x != "";
        } else {
          var k :| 0 <= k < |pieces[1..]| && Strip(pieces[1..][k]) == x && x != "";
          assert pieces[k + 1] == pieces[1..][k];
        }
      }
    }
  }

  /** The recipients: the comma-separated pieces of the setting, stripped, blanks dropped. */
  function Recipients(setting: string): (r: seq<string>)
    ensures forall k :: 0 <= k < |r| ==> Clean(r[k])
  {
    var pieces := Split(setting, ',');
    SplitPiecesFree(setting, ',');
    StrippedPiecesClean(pieces);
    StrippedPieces(pieces)
  }

  lemma {:induction false} StrippedPiecesClean(pieces: seq<string>)
    requires forall i :: 0 <= i < |pieces| ==> ',' !in pieces[i]
    ensures forall k :: 0 <= k < |StrippedPieces(pieces)| ==> Clean(StrippedPieces(pieces)[k])
    decreases |pieces|
  {
    if |pieces| > 0 {
      StripOmits(pieces[0], ',');
      StrippedPiecesClean(pieces[1..]);
    }
  }

  /** Blanks contribute nothing and the pieces keep their order: the recipients of two
      runs of pieces are those of the first followed by those of the second. */
  lemma {:induction false} StrippedPiecesAppend(a: seq<string>, b: seq<string>)
    ensures StrippedPieces(a + b) == StrippedPieces(a) + StrippedPieces(b)
    decreases |a|
  {
    if |a| > 0 {
      assert (a + b)[0] == a[0];
      assert (a + b)[1..] == a[1..] + b;
      StrippedPiecesAppend(a[1..], b);
      var head := if Strip(a[0]) != "" then [Strip(a[0])] else [];
      assert StrippedPieces(a + b) == head + StrippedPieces(a[1..] + b);
      assert StrippedPieces(a) == head + StrippedPieces(a[1..]);
      AppendAssoc(head, StrippedPieces(a[1..]), StrippedPieces(b));
    } else {
      assert a + b == b;
    }
  }

  /** An unset, empty or whitespace-only setting gives no recipients. */
  lemma BlankSettingHasNoRecipients(setting: string)
    requires AllSpace(setting)
    ensures Recipients(setting) == []
  {
    SplitNoSeparator(setting, ',');
    StripEmptyIff(setting);
  }

  /** A setting written as clean addresses joined by commas parses back to exactly those
      addresses, in order. */
  lemma {:induction false} RecipientsOfJoined(xs: seq<string>)
    requires |xs| >= 1
    requires forall k :: 0 <= k < |xs| ==> Clean(xs[k])
    ensures Recipients(Join(xs, ",")) == xs
  {
    SplitJoin(xs, ',');
    StrippedOfClean(xs);
  }

  lemma {:induction false} StrippedOfClean(xs: seq<string>)
    requires forall k :: 0 <= k < |xs| ==> Clean(xs[k])
    ensures StrippedPieces(xs) == xs
    decreases |xs|
  {
    if |xs| > 0 {
      StripOfTrimmed(xs[0]);
      StrippedOfClean(xs[1..]);
      assert [xs[0]] + xs[1..] == xs;
    }
  }

  // ---------------------------------------------------------------- the message

  datatype Message = Message(sender: Option<string>, to: string, subject: string,
    body: string, subtype: string)

  /** `NotConfigured` is the early return: nothing is built and SMTP is not contacted. */
  datatype SendOutcome = NotConfigured | Sent(msg: Message) | SendFailed(msg: Message, error: string)

  /** `send_success_email(subject, body)` for the parsed recipients, the configured SMTP
      user and the outcome of handing the message to the SMTP server (None when it was
      accepted). A delivery failure is logged, not raised. */
  function SendSuccessEmail(recipients: seq<string>, user: Option<string>, subject: string,
    body: string, delivery: Option<string>): (r: SendOutcome)
    ensures r.NotConfigured? <==> |recipients| == 0
    ensures !r.NotConfigured? ==>
      && r.msg.to == Join(recipients, ", ") && r.msg.sender == user
      && r.msg.subject == subject && r.msg.body == body && r.msg.subtype == "html"
    ensures r.Sent? <==> |recipients| > 0 && delivery.None?
  {
    if |recipients| == 0 then NotConfigured
    else
      var msg := Message(user, Join(recipients, ", "), subject, body, "html");
      match delivery
      case None => Sent(msg)
      case Some(e) => SendFailed(msg, e)
  }

  /** The To header lists the recipients: parsing it as a setting gives them back. */
  lemma ToHeaderRoundTrip(setting: string, user: Option<string>, subject: string, body: string,
    delivery: Option<string>)
    requires |Recipients(setting)| > 0
    ensures Recipients(SendSuccessEmail(Recipients(setting), user, subject, body, delivery).msg.to)
      == Recipients(setting)
  {
    var xs := Recipients(setting);
    JoinSpaced(xs);
    var sp := Spaced(xs);
    SpaceEachOmits(xs[1..], ',');
    assert forall k :: 0 <= k < |sp| ==> ',' !in sp[k] by {
      assert forall k :: 1 <= k < |sp| ==> sp[k] == SpaceEach(xs[1..])[k - 1];
    }
    SplitJoin(sp, ',');
    StrippedSpaced(xs);
  }

  /** Each item preceded by one space. */
  function SpaceEach(ys: seq<string>): (r: seq<string>)
    ensures |r| == |ys|
  {
    if |ys| == 0 then [] else [" " + ys[0]] + SpaceEach(ys[1..])
  }

  /** The items after the first, each preceded by one space. */
  function Spaced(xs: seq<string>): (r: seq<string>)
    requires |xs| >= 1
    ensures |r| == |xs| && r[0] == xs[0]
  {
    [xs[0]] + SpaceEach(xs[1..])
  }

  /** A spaced list of two or more items: its head, then the spaced tail with a space
      before the tail's head. */
  lemma SpacedTail(xs: seq<string>)
    requires |xs| >= 2
    ensures Spaced(xs) == [xs[0]] + ([" " + Spaced(xs[1..])[0]] + Spaced(xs[1..])[1..])
  {
    var ys := xs[1..];
    assert SpaceEach(ys) == [" " + ys[0]] + SpaceEach(ys[1..]);
    assert Spaced(ys)[1..] == SpaceEach(ys[1..]);
  }

  /** Spacing adds no character other than the space. */
  lemma {:induction false} SpaceEachOmits(ys: seq<string>, c: char)
    requires c != ' '
    requires forall k :: 0 <= k < |ys| ==> c !in ys[k]
    ensures forall k :: 0 <= k < |ys| ==> c !in SpaceEach(ys)[k]
    decreases |ys|
  {
    if |ys| > 0 {
      SpaceEachOmits(ys[1..], c);
      var r := SpaceEach(ys);
      assert r[0] == " " + ys[0];
      assert forall k :: 1 <= k < |ys| ==> r[k] == SpaceEach(ys[1..])[k - 1];
    }
  }

  /** Joining with ", " is joining the spaced items with ",". */
  lemma {:induction false} JoinSpaced(xs: seq<string>)
    requires |xs| >= 1
    ensures Join(xs, ", ") == Join(Spaced(xs), ",")
    decreases |xs|
  {
    if |xs| >= 2 {
      var tail := Spaced(xs[1..]);
      var u := [" " + tail[0]] + tail[1..];
      JoinSpaced(xs[1..]);
      SpacedTail(xs);
      JoinCons(xs[0], u, ",");
      JoinHead(" ", tail);
      CommaSpace(xs[0], Join(tail, ","));
    }
  }

  lemma CommaSpace(x: string, j: string)
    ensures x + ", " + j == x + "," + (" " + j)
  {
  }

  /** Prefixing the first item of a list prefixes the joined text. */
  lemma JoinHead(p: string, xs: seq<string>)
    requires |xs| >= 1
    ensures Join([p + xs[0]] + xs[1..], ",") == p + Join(xs, ",")
  {
    if |xs| == 1 {
      assert [p + xs[0]] + xs[1..] == [p + xs[0]];
    } else {
      var t := xs[1..];
      assert xs == [xs[0]] + t;
      JoinCons(p + xs[0], t, ",");
      JoinCons(xs[0], t, ",");
      AppendAssoc(p, xs[0], ",");
      AppendAssoc(p, xs[0] + ",", Join(t, ","));
    }
  }

  lemma AppendAssoc<T>(a: seq<T>, b: seq<T>, c: seq<T>)
    ensures (a + b) + c == a + (b + c)
  {
  }

  lemma JoinCons(x: string, t: seq<string>, sep: string)
    requires |t| >= 1
    ensures Join([x] + t, sep) == x + sep + Join(t, sep)
  {
    assert ([x] + t)[1..] == t;
  }

  lemma {:induction false} StrippedSpaced(xs: seq<string>)
    requires |xs| >= 1
    requires forall k :: 0 <= k < |xs| ==> Clean(xs[k])
    ensures StrippedPieces(Spaced(xs)) == xs
    decreases |xs|
  {
    StripOfTrimmed(xs[0]);
    if |xs| >= 2 {
      var tail := Spaced(xs[1..]);
      var u := [" " + xs[1]] + tail[1..];
      StrippedSpaced(xs[1..]);
      SpacedTail(xs);
      StrippedPiecesCons(xs[0], u);
      StripPadded(" ", xs[1], "");
      assert " " + xs[1] + "" == " " + xs[1];
      StrippedPiecesCons(" " + xs[1], tail[1..]);
      StripOfTrimmed(xs[1]);
      assert tail == [xs[1]] + tail[1..];
      StrippedPiecesCons(xs[1], tail[1..]);
      assert [xs[0]] + xs[1..] == xs;
    } else {
      assert Spaced(xs) == xs;
    }
  }

  /** The recipients of a list of pieces: those of its head, then those of the rest. */
  lemma StrippedPiecesCons(x: string, rest: seq<string>)
    ensures StrippedPieces([x] + rest)
      == (if Strip(x) != "" then [Strip(x)] else []) + StrippedPieces(rest)
  {
    assert ([x] + rest)[0] == x;
    assert ([x] + rest)[1..] == rest;
  }
}

=== FILE: node_health.dfy ===
/** The node-health summary of `GlobalDataLayer.get_node_health`: per factory, DC and store
    a service level, a waste share, a MAPE, an alert count and a good/warning/danger status. */
module NodeHealth {
  import opened Wrappers
  import opened Numeric
  import opened Seqs

  datatype Status = Good | Warning | Danger

  function StatusName(s: Status): string {
    match s
    case Good => "good"
    case Warning => "warning"
    case Danger => "danger"
  }

  /** The status thresholds shared by the three node kinds. */
  function NodeStatus(service: real, waste: real): (s: Status)
    ensures s == Good <==> service > 90.0 && waste < 5.0
    ensures s == Warning ==> (75.0 <= service <= 90.0) || (5.0 <= waste <= 15.0)
  {
    if service > 90.0 && waste < 5.0 then Good
    else if (75.0 <= service <= 90.0) || (5.0 <= waste <= 15.0) then Warning
    else Danger
  }

  /** Danger, characterised without the if-chain: low service with waste outside the
      warning band, or high service with waste above it. */
  lemma DangerIff(service: real, waste: real)
    ensures NodeStatus(service, waste) == Danger <==>
      (service < 75.0 && (waste < 5.0 || waste > 15.0)) || (service > 90.0 && waste > 15.0)
  {
  }

  /** Every danger node has service below 75 or waste above 15; the converse fails because
      a waste share in the warning band downgrades low service to a warning only. */
  lemma DangerMeansLowServiceOrHighWaste(service: real, waste: real)
    requires NodeStatus(service, waste) == Danger
    ensures service < 75.0 || waste > 15.0
  {
    DangerIff(service, waste);
  }

  lemma LowServiceMidWasteIsWarning()
    ensures NodeStatus(60.0, 10.0) == Warning
  {
  }

  /** Factory and DC nodes raise one alert when the waste share exceeds 10 percent. */
  function WasteAlerts(waste: real): (n: nat)
    ensures n <= 1
    ensures n == 1 <==> waste > 10.0
  {
    if waste > 10.0 then 1 else 0
  }

  /** Store nodes add a second alert when the store has stockouts. */
  function StoreAlerts(stockouts: int, waste: real): (n: nat)
    ensures n <= 2
    ensures n == 0 <==> stockouts <= 0 && waste <= 10.0
    ensures n == 2 <==> stockouts > 0 && waste > 10.0
  {
    (if stockouts > 0 then 1 else 0) + WasteAlerts(waste)
  }

  /** A node with a waste alert is never reported as good. */
  lemma WasteAlertNotGood(service: real, waste: real)
    requires WasteAlerts(waste) > 0
    ensures NodeStatus(service, waste) != Good
  {
  }

  /** `abs((actual - forecast) / actual) * 100` when actual is positive, else 0. */
  function Mape(actual: real, forecast: real): (m: real)
    ensures m >= 0.0
    ensures m == 0.0 <==> actual <= 0.0 || actual == forecast
    ensures actual > 0.0 ==> m * actual == 100.0 * AbsReal(actual - forecast)
  {
    if actual > 0.0 then
      var q := (actual - forecast) / actual;
      assert q * actual == actual - forecast;
      assert AbsReal(q) * actual == AbsReal(actual - forecast);
      AbsReal(q) * 100.0
    else 0.0
  }

  lemma SharePctBounded(part: real, whole: real)
    requires 0.0 <= part <= whole
    ensures 0.0 <= SharePct(part, whole) <= 100.0
  {
    if whole > 0.0 {
      SafeDivFraction(part, whole);
    }
  }

  /** A share is 100 exactly for the whole and 0 exactly for nothing. */
  lemma SharePctEnds(part: real, whole: real)
    requires whole > 0.0
    ensures SharePct(part, whole) == 100.0 <==> part == whole
    ensures SharePct(part, whole) == 0.0 <==> part == 0.0
  {
    RatioOne(part, whole);
  }

  /** Two column sums over one node's raw rows. */
  datatype RawSums = RawSums(first: real, second: real)

  datatype NodeKind = FactoryNode | DcNode | StoreNode

  datatype Node = Node(id: string, kind: NodeKind, service: real, waste: real, mape: real,
    alerts: nat, status: Status)

  /** A factory node. `raw` holds the sums of `scrap_qty` and `prod_actual_qty` (for the
      waste share) and `plan` the sum of `prod_plan_qty`, when the loaded predictions hold rows
      for the factory. Without them waste and MAPE are 0: the KPI fallback divides by the KPI row's
      `prod_actual_qty`, a column the factory KPI rows never carry, so its total stays 0. */
  function FactoryHealth(id: string, adherence: real, raw: Option<RawSums>, plan: real): (n: Node)
    ensures n.kind == FactoryNode && n.id == id && n.service == adherence
    ensures raw.Some? ==> n.waste == SharePct(raw.value.first, raw.value.second)
    ensures raw.None? ==> n.waste == 0.0 && n.mape == 0.0
    ensures raw.Some? ==> n.mape == Mape(raw.value.second, plan)
    ensures n.alerts == WasteAlerts(n.waste) && n.alerts <= 1
    ensures n.status == NodeStatus(n.service, n.waste)
  {
    var waste := if raw.Some? then SharePct(raw.value.first, raw.value.second) else 0.0;
    var mape := if raw.Some? then Mape(raw.value.second, plan) else 0.0;
    Node(id, FactoryNode, adherence, waste, mape, WasteAlerts(waste), NodeStatus(adherence, waste))
  }

  /** A DC node. `raw` holds the sums of `expiring_within_24h_units` and
      `opening_stock_units`, and `demand` the sum of `predicted_demand`, when the DC
      forecasts are loaded; without them waste and MAPE are 0. */
  function DcHealth(id: string, service: real, raw: Option<RawSums>, demand: real): (n: Node)
    ensures n.kind == DcNode && n.id == id && n.service == service
    ensures raw.None? ==> n.waste == 0.0 && n.mape == 0.0
    ensures raw.Some? ==> n.waste == SharePct(raw.value.first, raw.value.second)
    ensures raw.Some? ==> n.mape == Mape(raw.value.second, demand)
    ensures n.alerts == WasteAlerts(n.waste) && n.alerts <= 1
    ensures n.status == NodeStatus(n.service, n.waste)
  {
    var waste := if raw.Some? then SharePct(raw.value.first, raw.value.second) else 0.0;
    var mape := if raw.Some? then Mape(raw.value.second, demand) else 0.0;
    Node(id, DcNode, service, waste, mape, WasteAlerts(waste), NodeStatus(service, waste))
  }

  predicate Positive(x: real) {
    x > 0.0
  }

  /** Store service level: the share of raw rows with stock on the shelf, or the KPI row's
      availability when the store forecasts are not loaded. */
  function StoreService(shelf: Option<seq<real>>, kpiAvailability: real): (s: real)
    ensures shelf.None? ==> s == kpiAvailability
    ensures shelf.Some? ==> 0.0 <= s <= 100.0
    ensures shelf.Some? && |shelf.value| > 0 ==>
      (s == 100.0 <==> forall i :: 0 <= i < |shelf.value| ==> shelf.value[i] > 0.0)
    ensures shelf.Some? && |shelf.value| > 0 ==>
      (s == 0.0 <==> forall i :: 0 <= i < |shelf.value| ==> shelf.value[i] <= 0.0)
  {
    if shelf.None? then kpiAvailability
    else
      var n := |shelf.value| as real;
      var p := Count(shelf.value, Positive) as real;
      SharePctBounded(p, n);
      assert |shelf.value| > 0 ==>
        ((SharePct(p, n) == 100.0 <==> p == n) && (SharePct(p, n) == 0.0 <==> p == 0.0)) by {
        if |shelf.value| > 0 {
          SharePctEnds(p, n);
        }
      }
      SharePct(p, n)
  }

  /** A store node. `demand` is the sum of `predicted_demand` and `actual` the sum of
      clipped on-shelf units over the store's raw rows, when those are loaded. */
  function StoreHealth(id: string, shelf: Option<seq<real>>, kpiAvailability: real,
    kpiWaste: real, stockouts: int, demand: real, actual: real): (n: Node)
    ensures n.kind == StoreNode && n.id == id
    ensures n.service == StoreService(shelf, kpiAvailability)
    ensures shelf.None? ==> n.waste == 0.0 && n.mape == 0.0
    ensures shelf.Some? ==> n.waste == SharePct(kpiWaste, demand) && n.mape == Mape(actual, demand)
    ensures n.alerts == StoreAlerts(stockouts, n.waste) && n.alerts <= 2
    ensures n.status == NodeStatus(n.service, n.waste)
  {
    var service := StoreService(shelf, kpiAvailability);
    var waste := if shelf.Some? then SharePct(kpiWaste, demand) else 0.0;
    var mape := if shelf.Some? then Mape(actual, demand) else 0.0;
    Node(id, StoreNode, service, waste, mape, StoreAlerts(stockouts, waste), NodeStatus(service, waste))
  }
}

=== FILE: numeric.dfy ===
/** Arithmetic shared by the KPI computations: zero-safe division, clipping at zero,
    sums and means, and Python's `int()` truncation of a scaled value. */
module Numeric {

  /** `numerator.div(denominator.replace(0, nan)).fillna(fallback)` for one pair of
      values: the quotient, or the fallback where the denominator is zero. */
  function SafeDiv(n: real, d: real, fallback: real): (q: real)
    ensures d == 0.0 ==> q == fallback
    ensures d != 0.0 ==> q * d == n
  {
    if d == 0.0 then fallback else n / d
  }

  /** A part as a percentage of a whole, `part / whole * 100`, and 0 when the whole is not
      positive (the waste rates of the node health and dispatch planning code). */
  function SharePct(part: real, whole: real): (p: real)
    ensures whole <= 0.0 ==> p == 0.0
    ensures whole > 0.0 ==> p * whole == 100.0 * part
  {
    if whole > 0.0 then part / whole * 100.0 else 0.0
  }

  /** A zero-safe ratio scaled to a percentage, zero where the whole is zero. */
  function Percent(part: real, whole: real): (p: real)
    ensures whole == 0.0 ==> p == 0.0
    ensures whole != 0.0 ==> p * whole == 100.0 * part
  {
    SafeDiv(part, whole, 0.0) * 100.0
  }

  /** A zero-safe ratio of a part to a non-negative whole that contains it lies in [0, 1]. */
  lemma SafeDivFraction(part: real, whole: real)
    requires 0.0 <= part <= whole
    ensures 0.0 <= SafeDiv(part, whole, 0.0) <= 1.0
  {
    if whole != 0.0 {
      DivBounds(part, whole, 0.0, whole);
      assert whole / whole == 1.0;
    }
  }

  /** A zero-safe ratio is one exactly when the part equals a non-zero whole. */
  lemma RatioOne(part: real, whole: real)
    requires whole != 0.0
    ensures SafeDiv(part, whole, 0.0) == 1.0 <==> part == whole
  {
    if SafeDiv(part, whole, 0.0) == 1.0 {
      assert part == 1.0 * whole;
    }
  }

  /** `series.clip(lower=0)` for one value. */
  function ClipLow(x: int): (r: int)
    ensures r >= 0 && r >= x
    ensures x >= 0 ==> r == x
    ensures x < 0 ==> r == 0
  {
    if x < 0 then 0 else x
  }

  function ClipLowReal(x: real): (r: real)
    ensures r >= 0.0 && r >= x
    ensures x >= 0.0 ==> r == x
    ensures x < 0.0 ==> r == 0.0
  {
    if x < 0.0 then 0.0 else x
  }

  function Min(a: int, b: int): int {
    if a <= b then a else b
  }

  function Max(a: int, b: int): int {
    if a >= b then a else b
  }

  function MinReal(a: real, b: real): real {
    if a <= b then a else b
  }

  function MaxReal(a: real, b: real): real {
    if a >= b then a else b
  }

  function AbsReal(x: real): real {
    if x < 0.0 then -x else x
  }

  /** `max(lo, min(hi, x))`. */
  function Clamp(x: real, lo: real, hi: real): (r: real)
    requires lo <= hi
    ensures lo <= r <= hi
    ensures lo <= x <= hi ==> r == x
    ensures x <= lo ==> r == lo
    ensures x >= hi ==> r == hi
  {
    MaxReal(lo, MinReal(hi, x))
  }

  /** The sum of `f` over a sequence (pandas `sum()` of a column). */
  function SumOf<T>(xs: seq<T>, f: T -> int): int {
    if |xs| == 0 then 0 else SumOf(xs[..|xs| - 1], f) + f(xs[|xs| - 1])
  }

  lemma {:induction false} SumOfAppend<T>(xs: seq<T>, ys: seq<T>, f: T -> int)
    ensures SumOf(xs + ys, f) == SumOf(xs, f) + SumOf(ys, f)
    decreases |ys|
  {
    if |ys| > 0 {
      assert (xs + ys)[..|xs + ys| - 1] == xs + ys[..|ys| - 1];
      SumOfAppend(xs, ys[..|ys| - 1], f);
    } else {
      assert xs + ys == xs;
    }
  }

  /** A sum of non-negative terms is non-negative. */
  lemma {:induction false} SumOfNonNegative<T>(xs: seq<T>, f: T -> int)
    requires forall i :: 0 <= i < |xs| ==> f(xs[i]) >= 0
    ensures SumOf(xs, f) >= 0
    decreases |xs|
  {
    if |xs| > 0 {
      SumOfNonNegative(xs[..|xs| - 1], f);
    }
  }

  /** The sum of a sequence of reals. */
  function SumReal(xs: seq<real>): real {
    if |xs| == 0 then 0.0 else SumReal(xs[..|xs| - 1]) + xs[|xs| - 1]
  }

  /** pandas `mean()` of a non-empty column. */
  function Mean(xs: seq<real>): real
    requires |xs| > 0
  {
    SumReal(xs) / (|xs| as real)
  }

  lemma {:induction false} SumRealBounds(xs: seq<real>, lo: real, hi: real)
    requires forall i :: 0 <= i < |xs| ==> lo <= xs[i] <= hi
    ensures (|xs| as real) * lo <= SumReal(xs) <= (|xs| as real) * hi
    decreases |xs|
  {
    if |xs| > 0 {
      var k := (|xs| - 1) as real;
      var init := xs[..|xs| - 1];
      assert forall i :: 0 <= i < |init| ==> init[i] == xs[i];
      SumRealBounds(init, lo, hi);
      assert SumReal(xs) == SumReal(init) + xs[|xs| - 1];
      assert |xs| as real == k + 1.0;
      assert k * lo + lo == (k + 1.0) * lo;
      assert k * hi + hi == (k + 1.0) * hi;
    }
  }

  /** A sum of non-negative reals is non-negative. */
  lemma {:induction false} SumRealNonNegative(xs: seq<real>)
    requires forall i :: 0 <= i < |xs| ==> xs[i] >= 0.0
    ensures SumReal(xs) >= 0.0
    decreases |xs|
  {
    if |xs| > 0 {
      SumRealNonNegative(xs[..|xs| - 1]);
    }
  }

  /** A sum of non-negative reals is zero exactly when every term is zero. */
  lemma {:induction false} SumRealZeroIff(xs: seq<real>)
    requires forall i :: 0 <= i < |xs| ==> xs[i] >= 0.0
    ensures SumReal(xs) == 0.0 <==> forall i :: 0 <= i < |xs| ==> xs[i] == 0.0
    decreases |xs|
  {
    if |xs| > 0 {
      var init := xs[..|xs| - 1];
      SumRealZeroIff(init);
      SumRealNonNegative(init);
      assert forall i :: 0 <= i < |init| ==> init[i] == xs[i];
    }
  }

  /** `series.clip(lower=0)`. */
  function ClipAll(xs: seq<real>): (r: seq<real>)
    ensures |r| == |xs|
    ensures forall i :: 0 <= i < |xs| ==> r[i] == ClipLowReal(xs[i])
  {
    seq(|xs|, i requires 0 <= i < |xs| => ClipLowReal(xs[i]))
  }

  /** `series.clip(lower=0).sum()`: never negative, and zero exactly when no term is positive. */
  function ClippedSum(xs: seq<real>): (t: real)
    ensures t >= 0.0
    ensures t == 0.0 <==> forall i :: 0 <= i < |xs| ==> xs[i] <= 0.0
  {
    var c := ClipAll(xs);
    SumRealNonNegative(c);
    SumRealZeroIff(c);
    assert (forall i :: 0 <= i < |c| ==> c[i] == 0.0) <==> (forall i :: 0 <= i < |xs| ==> xs[i] <= 0.0);
    SumReal(c)
  }

  /** Dividing by a positive number keeps bounds. */
  lemma DivBounds(x: real, d: real, lo: real, hi: real)
    requires d > 0.0 && lo <= x <= hi
    ensures lo / d <= x / d <= hi / d
  {
  }

  /** A mean lies between any bounds that hold for every value. */
  lemma MeanBounds(xs: seq<real>, lo: real, hi: real)
    requires |xs| > 0
    requires forall i :: 0 <= i < |xs| ==> lo <= xs[i] <= hi
    ensures lo <= Mean(xs) <= hi
  {
    SumRealBounds(xs, lo, hi);
    var n := |xs| as real;
    DivBounds(SumReal(xs), n, n * lo, n * hi);
    assert n * lo / n == lo;
    assert n * hi / n == hi;
  }

  /** The mean of non-negative values is non-negative. */
  lemma MeanNonNegative(xs: seq<real>)
    requires |xs| > 0
    requires forall i :: 0 <= i < |xs| ==> xs[i] >= 0.0
    ensures Mean(xs) >= 0.0
  {
    SumRealNonNegative(xs);
    DivBounds(SumReal(xs), |xs| as real, 0.0, SumReal(xs));
  }

  /** Python's `int(x)` on a float: the value truncated toward zero (Dafny's `Floor`
      rounds toward negative infinity). */
  function Trunc(x: real): (i: int)
    ensures x >= 0.0 ==> 0 <= i && i as real <= x < i as real + 1.0
    ensures x < 0.0 ==> i <= 0 && i as real - 1.0 < x <= i as real
  {
    if x >= 0.0 then x.Floor else -((-x).Floor)
  }
}

=== FILE: seqs.dfy ===
/** Row selection, as pandas boolean indexing `df[mask]` does it: the rows that satisfy
    a condition, in their original order. */
module Seqs {

  function Filter<T(!new)>(xs: seq<T>, p: T -> bool): (r: seq<T>)
    ensures |r| <= |xs|
    ensures forall i :: 0 <= i < |r| ==> p(r[i])
    ensures forall i :: 0 <= i < |r| ==> r[i] in xs
    ensures forall i :: 0 <= i < |xs| && p(xs[i]) ==> xs[i] in r
  {
    if |xs| == 0 then []
    else
      var init := xs[..|xs| - 1];
      var last := xs[|xs| - 1];
      assert xs == init + [last];
      Filter(init, p) + (if p(last) then [last] else [])
  }

  /** Selection keeps every row that meets the condition as often as it occurs, and no
      other row. */
  lemma {:induction false} FilterMultiset<T(!new)>(xs: seq<T>, p: T -> bool)
    ensures forall x :: multiset(Filter(xs, p))[x] == if p(x) then multiset(xs)[x] else 0
    decreases |xs|
  {
    if |xs| > 0 {
      var init := xs[..|xs| - 1];
      var last := xs[|xs| - 1];
      assert xs == init + [last];
      FilterMultiset(init, p);
      assert multiset(xs) == multiset(init) + multiset{last};
    }
  }

  /** Selection keeps the rows' order: selecting from `xs + ys` selects from `xs`, then
      from `ys`. */
  lemma {:induction false} FilterAppend<T(!new)>(xs: seq<T>, ys: seq<T>, p: T -> bool)
    ensures Filter(xs + ys, p) == Filter(xs, p) + Filter(ys, p)
    decreases |ys|
  {
    if |ys| == 0 {
      assert xs + ys == xs;
    } else {
      var init := ys[..|ys| - 1];
      assert (xs + ys)[..|xs + ys| - 1] == xs + init;
      FilterAppend(xs, init, p);
    }
  }

  /** Selecting with a condition every row meets keeps every row. */
  lemma {:induction false} FilterAll<T(!new)>(xs: seq<T>, p: T -> bool)
    requires forall i :: 0 <= i < |xs| ==> p(xs[i])
    ensures Filter(xs, p) == xs
    decreases |xs|
  {
    if |xs| > 0 {
      var init := xs[..|xs| - 1];
      var last := xs[|xs| - 1];
      assert xs == init + [last];
      forall i | 0 <= i < |init|
        ensures p(init[i])
      {
        assert init[i] == xs[i];
      }
      FilterAll(init, p);
      assert p(last);
    }
  }

  /** Selecting twice with the same condition selects nothing more. */
  lemma FilterIdempotent<T(!new)>(xs: seq<T>, p: T -> bool)
    ensures Filter(Filter(xs, p), p) == Filter(xs, p)
  {
    FilterAll(Filter(xs, p), p);
  }

  /** Conditions that agree on every element select the same rows. */
  lemma {:induction false} FilterSameCondition<T(!new)>(xs: seq<T>, p: T -> bool, q: T -> bool)
    requires forall i :: 0 <= i < |xs| ==> p(xs[i]) == q(xs[i])
    ensures Filter(xs, p) == Filter(xs, q)
    decreases |xs|
  {
    if |xs| > 0 {
      var init := xs[..|xs| - 1];
      assert forall i :: 0 <= i < |init| ==> init[i] == xs[i];
      FilterSameCondition(init, p, q);
    }
  }

  /** The number of elements satisfying a condition. */
  function Count<T>(xs: seq<T>, p: T -> bool): (n: nat)
    ensures n <= |xs|
    ensures n == 0 <==> forall i :: 0 <= i < |xs| ==> !p(xs[i])
    ensures n == |xs| <==> forall i :: 0 <= i < |xs| ==> p(xs[i])
  {
    if |xs| == 0 then 0
    else
      var init := xs[..|xs| - 1];
      assert forall i :: 0 <= i < |init| ==> init[i] == xs[i];
      Count(init, p) + (if p(xs[|xs| - 1]) then 1 else 0)
  }

  /** The distinct elements of `xs`, each at its first occurrence: the keys `groupby` forms. */
  function Distinct<T(==,!new)>(xs: seq<T>): (r: seq<T>)
    ensures forall i, j :: 0 <= i < j < |r| ==> r[i] != r[j]
    ensures forall x :: x in r <==> x in xs
  {
    if |xs| == 0 then []
    else
      var init := xs[..|xs| - 1];
      var last := xs[|xs| - 1];
      assert xs == init + [last];
      var d := Distinct(init);
      if last in d then d else d + [last]
  }
}

=== FILE: sorting.dfy ===
/** Python's `list.sort(key=...)` and `sorted(..., key=...)`: a stable sort by a key under a
    total order on keys. It is modelled as an insertion sort whose result is proved ordered,
    a permutation of its input, and stable: elements with equivalent keys keep their input
    order. */
module Sorting {
  import opened Seqs

  /** `le` is a total preorder: any two keys compare, and comparison chains. */
  ghost predicate TotalPreorder<K(!new)>(le: (K, K) -> bool) {
    && (forall a, b :: le(a, b) || le(b, a))
    && (forall a, b, c :: le(a, b) && le(b, c) ==> le(a, c))
  }

  /** The keys of `xs` never decrease. */
  ghost predicate Sorted<T, K>(xs: seq<T>, key: T -> K, le: (K, K) -> bool) {
    forall i, j :: 0 <= i < j < |xs| ==> le(key(xs[i]), key(xs[j]))
  }

  /** Python's ordering of strings: code point by code point, a proper prefix first. */
  predicate StrLe(a: string, b: string) {
    if |a| == 0 then true
    else if |b| == 0 then false
    else if a[0] != b[0] then a[0] < b[0]
    else StrLe(a[1..], b[1..])
  }

  predicate IntLe(a: int, b: int) {
    a <= b
  }

  lemma {:induction false} StrLeTotal(a: string, b: string)
    ensures StrLe(a, b) || StrLe(b, a)
    decreases |a|
  {
    if |a| > 0 && |b| > 0 && a[0] == b[0] {
      StrLeTotal(a[1..], b[1..]);
    }
  }

  lemma {:induction false} StrLeTransitive(a: string, b: string, c: string)
    requires StrLe(a, b) && StrLe(b, c)
    ensures StrLe(a, c)
    decreases |a|
  {
    if |a| > 0 && |b| > 0 && |c| > 0 && a[0] == b[0] && b[0] == c[0] {
      StrLeTransitive(a[1..], b[1..], c[1..]);
    }
  }

  /** String comparison is a total preorder, so sorting by a string key is well defined. */
  lemma StrLePreorder()
    ensures TotalPreorder(StrLe)
  {
    forall a, b
      ensures StrLe(a, b) || StrLe(b, a)
    {
      StrLeTotal(a, b);
    }
    forall a, b, c | StrLe(a, b) && StrLe(b, c)
      ensures StrLe(a, c)
    {
      StrLeTransitive(a, b, c);
    }
  }

  /** Inserts `x` before the trailing run of elements whose keys are above its own. */
  function Insert<T, K>(s: seq<T>, x: T, key: T -> K, le: (K, K) -> bool): (r: seq<T>)
    ensures multiset(r) == multiset(s) + multiset{x}
    ensures |r| == |s| + 1
  {
    if |s| == 0 then [x]
    else if le(key(s[|s| - 1]), key(x)) then s + [x]
    else
      var init := s[..|s| - 1];
      assert s == init + [s[|s| - 1]];
      Insert(init, x, key, le) + [s[|s| - 1]]
  }

  lemma {:induction false} InsertSorted<T, K(!new)>(s: seq<T>, x: T, key: T -> K, le: (K, K) -> bool)
    requires TotalPreorder(le)
    requires Sorted(s, key, le)
    ensures Sorted(Insert(s, x, key, le), key, le)
    decreases |s|
  {
    if |s| > 0 && !le(key(s[|s| - 1]), key(x)) {
      var init := s[..|s| - 1];
      var last := s[|s| - 1];
      InsertSorted(init, x, key, le);
      var r := Insert(init, x, key, le);
      assert le(key(x), key(last));
      forall y | y in multiset(r)
        ensures le(key(y), key(last))
      {
        assert y in multiset(init) + multiset{x};
        if y in multiset(init) {
          var k :| 0 <= k < |init| && init[k] == y;
          assert s[k] == y;
        }
      }
      forall i | 0 <= i < |r|
        ensures le(key(r[i]), key(last))
      {
        assert r[i] in multiset(r);
      }
    }
  }

  /** `xs.sort(key=key)`. */
  function Sort<T, K>(xs: seq<T>, key: T -> K, le: (K, K) -> bool): (r: seq<T>)
    ensures multiset(r) == multiset(xs)
    ensures |r| == |xs|
  {
    if |xs| == 0 then []
    else
      assert xs == xs[..|xs| - 1] + [xs[|xs| - 1]];
      Insert(Sort(xs[..|xs| - 1], key, le), xs[|xs| - 1], key, le)
  }

  /** The sorted list is ordered by key. */
  lemma {:induction false} SortSorted<T, K(!new)>(xs: seq<T>, key: T -> K, le: (K, K) -> bool)
    requires TotalPreorder(le)
    ensures Sorted(Sort(xs, key, le), key, le)
    decreases |xs|
  {
    if |xs| > 0 {
      SortSorted(xs[..|xs| - 1], key, le);
      InsertSorted(Sort(xs[..|xs| - 1], key, le), xs[|xs| - 1], key, le);
    }
  }

  /** The condition that an element's key is equivalent to `k` (neither is below the other). */
  function SameKey<T, K>(key: T -> K, le: (K, K) -> bool, k: K): T -> bool {
    (x: T) => le(key(x), k) && le(k, key(x))
  }

  /** Inserting places `x` after every element whose key is equivalent to its own. */
  lemma {:induction false} InsertStable<T(!new), K(!new)>(s: seq<T>, x: T, key: T -> K,
    le: (K, K) -> bool, k: K)
    requires TotalPreorder(le)
    ensures Filter(Insert(s, x, key, le), SameKey(key, le, k)) ==
      Filter(s, SameKey(key, le, k)) + Filter([x], SameKey(key, le, k))
    decreases |s|
  {
    var p := SameKey(key, le, k);
    if |s| == 0 {
      assert Insert(s, x, key, le) == [x];
      assert Filter(s, p) == [];
    } else if le(key(s[|s| - 1]), key(x)) {
      FilterAppend(s, [x], p);
    } else {
      var init := s[..|s| - 1];
      var last := s[|s| - 1];
      assert s == init + [last];
      InsertStable(init, x, key, le, k);
      FilterAppend(Insert(init, x, key, le), [last], p);
      FilterAppend(init, [last], p);
      // `last` sorts strictly after `x`, so both cannot be equivalent to `k`
      assert !(p(x) && p(last));
      if p(x) {
        assert Filter([last], p) == [];
      } else {
        assert Filter([x], p) == [];
      }
    }
  }

  /** The sort is stable: the elements whose key is equivalent to `k` come out in the order
      they went in. */
  lemma {:induction false} SortStable<T(!new), K(!new)>(xs: seq<T>, key: T -> K,
    le: (K, K) -> bool, k: K)
    requires TotalPreorder(le)
    ensures Filter(Sort(xs, key, le), SameKey(key, le, k)) == Filter(xs, SameKey(key, le, k))
    decreases |xs|
  {
    if |xs| > 0 {
      var init := xs[..|xs| - 1];
      var last := xs[|xs| - 1];
      assert xs == init + [last];
      SortStable(init, key, le, k);
      InsertStable(Sort(init, key, le), last, key, le, k);
      FilterAppend(init, [last], SameKey(key, le, k));
    }
  }

  /** Two strings that compare both ways are equal, so equivalent string keys are equal keys. */
  lemma {:induction false} StrLeAntisymmetric(a: string, b: string)
    requires StrLe(a, b) && StrLe(b, a)
    ensures a == b
    decreases |a|
  {
    if |a| > 0 && |b| > 0 {
      StrLeAntisymmetric(a[1..], b[1..]);
      assert a == [a[0]] + a[1..] && b == [b[0]] + b[1..];
    }
  }

  /** `[f(x) for x in xs]`. */
  function MapSeq<A, B>(f: A -> B, xs: seq<A>): (r: seq<B>)
    ensures |r| == |xs|
    ensures forall i :: 0 <= i < |xs| ==> r[i] == f(xs[i])
  {
    seq(|xs|, i requires 0 <= i < |xs| => f(xs[i]))
  }

  lemma MapSeqAppend<A, B>(f: A -> B, xs: seq<A>, ys: seq<A>)
    ensures MapSeq(f, xs + ys) == MapSeq(f, xs) + MapSeq(f, ys)
  {
  }

  /** Inserting commutes with a map that keeps keys. */
  lemma {:induction false} InsertMap<A(!new), B, K>(s: seq<A>, x: A, f: A -> B, ka: A -> K,
    kb: B -> K, le: (K, K) -> bool)
    requires forall a :: kb(f(a)) == ka(a)
    ensures Insert(MapSeq(f, s), f(x), kb, le) == MapSeq(f, Insert(s, x, ka, le))
    decreases |s|
  {
    if |s| > 0 {
      var init := s[..|s| - 1];
      var last := s[|s| - 1];
      MapSeqInit(f, s);
      if le(ka(last), ka(x)) {
        MapSeqSnoc(f, s, x);
      } else {
        InsertMap(init, x, f, ka, kb, le);
        MapSeqSnoc(f, Insert(init, x, ka, le), last);
      }
    }
  }

  lemma MapSeqInit<A, B>(f: A -> B, s: seq<A>)
    requires |s| > 0
    ensures MapSeq(f, s)[..|s| - 1] == MapSeq(f, s[..|s| - 1])
    ensures MapSeq(f, s)[|s| - 1] == f(s[|s| - 1])
  {
  }

  lemma MapSeqSnoc<A, B>(f: A -> B, xs: seq<A>, y: A)
    ensures MapSeq(f, xs + [y]) == MapSeq(f, xs) + [f(y)]
  {
  }

  /** Sorting commutes with a map that keeps keys: sorting the images by their key is
      mapping the sorted originals. */
  lemma {:induction false} SortMap<A(!new), B, K>(xs: seq<A>, f: A -> B, ka: A -> K, kb: B -> K,
    le: (K, K) -> bool)
    requires forall a :: kb(f(a)) == ka(a)
    ensures Sort(MapSeq(f, xs), kb, le) == MapSeq(f, Sort(xs, ka, le))
    decreases |xs|
  {
    if |xs| > 0 {
      var init := xs[..|xs| - 1];
      SortMap(init, f, ka, kb, le);
      MapSeqInit(f, xs);
      InsertMap(Sort(init, ka, le), xs[|xs| - 1], f, ka, kb, le);
    }
  }

  lemma IntLePreorder()
    ensures TotalPreorder(IntLe)
  {
  }

  /** Two equal keys never meet in a permutation of a list without repeated keys. */
  lemma DistinctKeysTransfer<T>(a: seq<T>, b: seq<T>, key: T -> int)
    requires multiset(a) == multiset(b)
    requires forall i, j :: 0 <= i < j < |a| ==> key(a[i]) != key(a[j])
    ensures forall i, j :: 0 <= i < j < |b| ==> key(b[i]) != key(b[j])
  {
    forall i, j | 0 <= i < j < |b|
      ensures key(b[i]) != key(b[j])
    {
      if key(b[i]) == key(b[j]) {
        var p, q;
        if b[i] == b[j] {
          TwoCopies(b, i, j);
          p, q := CopiesGivePositions(a, b[i]);
        } else {
          p, q := PositionsOf(a, b, i, j);
        }
        assert false;
      }
    }
  }

  /** Two different elements of a permutation sit at two different places of the original. */
  lemma PositionsOf<T>(a: seq<T>, b: seq<T>, i: nat, j: nat) returns (p: nat, q: nat)
    requires multiset(a) == multiset(b)
    requires i < |b| && j < |b| && b[i] != b[j]
    ensures p < |a| && q < |a| && p != q && a[p] == b[i] && a[q] == b[j]
  {
    assert b[i] in multiset(a) && b[j] in multiset(a);
    p :| 0 <= p < |a| && a[p] == b[i];
    q :| 0 <= q < |a| && a[q] == b[j];
  }

  lemma TwoCopies<T>(s: seq<T>, i: nat, j: nat)
    requires i < j < |s| && s[i] == s[j]
    ensures multiset(s)[s[i]] >= 2
  {
    assert s == s[..j] + [s[j]] + s[j + 1..];
    assert s[i] in s[..j];
  }

  lemma {:induction false} CopiesGivePositions<T>(s: seq<T>, x: T) returns (p: nat, q: nat)
    requires multiset(s)[x] >= 2
    ensures p < q < |s| && s[p] == x && s[q] == x
    decreases |s|
  {
    var n := |s| - 1;
    assert s == s[..n] + [s[n]];
    if s[n] == x {
      assert x in multiset(s[..n]);
      p :| 0 <= p < n && s[..n][p] == x;
      q := n;
    } else {
      p, q := CopiesGivePositions(s[..n], x);
    }
  }

  /** A sorted permutation of a list without repeated keys is strictly ascending. */
  lemma SortedDistinctIsStrict<T>(c: seq<T>, r: seq<T>, key: T -> int)
    requires forall i, j :: 0 <= i < j < |c| ==> key(c[i]) != key(c[j])
    requires multiset(r) == multiset(c)
    requires Sorted(r, key, IntLe)
    ensures forall i, j :: 0 <= i < j < |r| ==> key(r[i]) < key(r[j])
  {
    DistinctKeysTransfer(c, r, key);
    forall i, j | 0 <= i < j < |r|
      ensures key(r[i]) < key(r[j])
    {
      assert IntLe(key(r[i]), key(r[j]));
    }
  }
}

=== FILE: summarizer.dfy ===
/** The summarizer agent without its language model and plotting library: the chart-type
    keyword classifier, the branches of `summarize` that do not depend on what the model
    writes, and the guards of `generate_viz`. The model's reply and the rendered image
    are parameters. */
module Summarizer {
  import opened Wrappers
  import opened Text
  import opened Numeric
  import opened Frames

  // ---------------------------------------------------------------- chart type

  datatype ChartType = Line | Bar | Scatter | Hist | Pie | Auto

  function ChartName(t: ChartType): string {
    match t
    case Line => "line"
    case Bar => "bar"
    case Scatter => "scatter"
    case Hist => "hist"
    case Pie => "pie"
    case Auto => "auto"
  }

  /** The words that ask for each chart type. */
  function Keywords(t: ChartType): seq<string> {
    match t
    case Line => ["line", "trend", "time series"]
    case Bar => ["bar", "compare", "comparison"]
    case Scatter => ["scatter", "relationship", "correlation"]
    case Hist => ["hist", "distribution"]
    case Pie => ["pie"]
    case Auto => []
  }

  /** The order in which chart types are tried; `Auto` comes last. */
  function Rank(t: ChartType): nat {
    match t
    case Line => 0
    case Bar => 1
    case Scatter => 2
    case Hist => 3
    case Pie => 4
    case Auto => 5
  }

  /** The lower-cased question contains one of the words of `t`. */
  predicate Mentions(q: string, t: ChartType) {
    exists k :: 0 <= k < |Keywords(t)| && Contains(q, Keywords(t)[k])
  }

  /** `detect_chart_type(question)`: the first chart type, in rank order, whose words
      occur in the lower-cased question; otherwise auto. */
  function DetectChartType(question: string): (r: ChartType)
    ensures r != Auto ==> Mentions(Lower(question), r)
    ensures forall t :: Rank(t) < Rank(r) ==> !Mentions(Lower(question), t)
    ensures r == Auto <==> forall t :: t != Auto ==> !Mentions(Lower(question), t)
  {
    MentionsWords(Lower(question));
    var q := Lower(question);
    if Contains(q, "line") || Contains(q, "trend") || Contains(q, "time series") then Line
    else if Contains(q, "bar") || Contains(q, "compare") || Contains(q, "comparison") then Bar
    else if Contains(q, "scatter") || Contains(q, "relationship") || Contains(q, "correlation")
    then Scatter
    else if Contains(q, "hist") || Contains(q, "distribution") then Hist
    else if Contains(q, "pie") then Pie
    else Auto
  }

  /** The words of each type, spelled out. */
  lemma MentionsWords(q: string)
    ensures Mentions(q, Line) <==> Contains(q, "line") || Contains(q, "trend") || Contains(q, "time series")
    ensures Mentions(q, Bar) <==> Contains(q, "bar") || Contains(q, "compare") || Contains(q, "comparison")
    ensures Mentions(q, Scatter) <==>
      Contains(q, "scatter") || Contains(q, "relationship") || Contains(q, "correlation")
    ensures Mentions(q, Hist) <==> Contains(q, "hist") || Contains(q, "distribution")
    ensures Mentions(q, Pie) <==> Contains(q, "pie")
    ensures !Mentions(q, Auto)
  {
    var l := Keywords(Line);
    assert l[0] == "line" && l[1] == "trend" && l[2] == "time series";
    var b := Keywords(Bar);
    assert b[0] == "bar" && b[1] == "compare" && b[2] == "comparison";
    var c := Keywords(Scatter);
    assert c[0] == "scatter" && c[1] == "relationship" && c[2] == "correlation";
    var h := Keywords(Hist);
    assert h[0] == "hist" && h[1] == "distribution";
    var p := Keywords(Pie);
    assert p[0] == "pie";
  }

  /** The classifier ignores letter case. */
  lemma DetectChartTypeIgnoresCase(question: string)
    ensures DetectChartType(Upper(question)) == DetectChartType(question)
    ensures DetectChartType(Lower(question)) == DetectChartType(question)
  {
    LowerOfUpper(question);
    LowerIdempotent(question);
  }

  /** A word of a higher-ranked type wins even inside another word: "online" asks for a
      line chart although the question also says "compare". */
  lemma LinePrecedesBar(pre: string, post: string)
    ensures DetectChartType(pre + "compare online sales" + post) == Line
  {
    var q := pre + "compare online sales" + post;
    var lq := Lower(q);
    LowerAppend(pre + "compare online sales", post);
    LowerAppend(pre, "compare online sales");
    assert Lower("compare online sales") == "compare online sales";
    assert "compare online sales" == "compare on" + "line" + " sales";
    assert lq == (Lower(pre) + "compare on") + "line" + (" sales" + Lower(post));
    ContainsInfix(Lower(pre) + "compare on", "line", " sales" + Lower(post));
  }

  // ---------------------------------------------------------------- summarize

  /** The rows shown to the model: at most ten. */
  function SampleSize(rows: nat): (n: nat)
    ensures n <= 10 && n <= rows
    ensures n == 10 || n == rows
  {
    Min(10, rows)
  }

  /** The replies the source treats as the model failing to see the data (compared after
      lower-casing both sides). */
  const GenericPhrases: seq<string> := [
    "dataset is currently empty",
    "no data points or variables are available",
    "need to acquire and load the relevant data",
    "no data available for analysis"]

  predicate IsGeneric(reply: string) {
    exists k :: 0 <= k < |GenericPhrases| && Contains(Lower(reply), Lower(GenericPhrases[k]))
  }

  function NoDataMessage(q: string): string {
    "No data found for your query: '" + q
      + "'. Please try rephrasing your question or check if the data exists in the database."
  }

  /** The first 500 characters of the sample, with "..." when some were cut. */
  function Excerpt(sample: string): (r: string)
    ensures |sample| <= 500 ==> r == sample
    ensures |sample| > 500 ==> |r| == 503 && r[..500] == sample[..500] && r[500..] == "..."
  {
    if |sample| > 500 then sample[..500] + "..." else sample
  }

  /** `summarize(q, df)`. `sample` is `df.head(n).to_string()` for the `n` it is asked
      for, and `reply` is the model's answer or the message of the exception it raised. */
  function Summarize(q: string, df: Frame, sample: nat -> string, reply: Result<string>)
    : (r: string)
    ensures IsEmpty(df) ==> r == NoDataMessage(q)
    ensures !IsEmpty(df) && reply.Success? && !IsGeneric(reply.value) ==> r == reply.value
    ensures !IsEmpty(df) && reply.Success? && IsGeneric(reply.value) ==>
      r == "Found " + NatString(df.height) + " result(s) for your query. Here are the key details:\n\n"
        + Excerpt(sample(SampleSize(df.height)))
    ensures !IsEmpty(df) && reply.Failure? ==>
      r == "Query returned " + NatString(df.height) + " row(s). Data columns: "
        + Join(Names(df)[..Min(5, |df.columns|)], ", ")
  {
    if IsEmpty(df) then NoDataMessage(q)
    else
      var rows := df.height;
      var data := if SampleSize(rows) > 0 then sample(SampleSize(rows)) else "No data available";
      match reply
      case Success(text) =>
        if IsGeneric(text) then
          if rows > 0 then
            "Found " + NatString(rows) + " result(s) for your query. Here are the key details:\n\n"
              + Excerpt(data)
          else
            "No data found matching your query: '" + q + "'. Please try rephrasing or check if the data exists."
        else text
      case Failure(_) =>
        if rows > 0 then
          "Query returned " + NatString(rows) + " row(s). Data columns: "
            + Join(Names(df)[..Min(5, |df.columns|)], ", ")
        else "No data found for: '" + q + "'"
  }

  /** An empty result never reaches the model: the reply does not matter, and the
      message quotes the question. */
  lemma EmptyNeedsNoModel(q: string, df: Frame, sample: nat -> string, reply1: Result<string>,
    reply2: Result<string>)
    requires IsEmpty(df)
    ensures Summarize(q, df, sample, reply1) == Summarize(q, df, sample, reply2)
    ensures Contains(Summarize(q, df, sample, reply1), q)
  {
    ContainsInfix("No data found for your query: '", q,
      "'. Please try rephrasing your question or check if the data exists in the database.");
  }

  /** The generic-reply fallback shows at most 500 sample characters, and the "..." marks
      exactly the samples that were cut. */
  lemma ExcerptBound(sample: string)
    ensures |Excerpt(sample)| <= 503
    ensures EndsWith(Excerpt(sample), "...") && |Excerpt(sample)| == 503 <==> |sample| > 500
  {
    if |sample| <= 500 && EndsWith(Excerpt(sample), "...") {
      assert |Excerpt(sample)| <= 500;
    }
  }

  // ---------------------------------------------------------------- generate_viz

  const PngMime: string := "image/png"

  /** Whether the chart type can be drawn: line (or auto over a time column), bar, hist
      and pie need a numeric column, scatter needs two, and any other auto chart is handed
      to the frame's default plot without a check, so only its rendering decides. */
  predicate Drawable(chart: ChartType, numeric: nat, timeColumns: bool) {
    if chart == Line || (chart == Auto && timeColumns) then numeric > 0
    else if chart == Bar || chart == Hist || chart == Pie then numeric > 0
    else if chart == Scatter then numeric >= 2
    else true
  }

  /** `generate_viz(question, df)`, as the pair (image, mime type). `numeric` is the
      number of numeric columns and `timeColumns` whether any column looks like a time;
      `render` is the base64 PNG the plotting library produces, or its error. */
  function GenerateViz(question: string, df: Frame, numeric: nat, timeColumns: bool,
    render: Result<string>): (r: (Option<string>, Option<string>))
    ensures IsEmpty(df) ==> r == (None, None)
    ensures r.0.Some? <==> r.1.Some?
    ensures r.1.Some? ==> r.1.value == PngMime && render == Success(r.0.value)
    ensures r.0.Some? ==> !IsEmpty(df) && render.Success?
    ensures numeric == 0 && DetectChartType(question) != Auto ==> r == (None, None)
    ensures DetectChartType(question) == Scatter && numeric < 2 ==> r == (None, None)
    // a drawable chart of a non-empty frame is the rendered PNG; nothing else gives an image
    ensures !IsEmpty(df) && Drawable(DetectChartType(question), numeric, timeColumns) && render.Success? ==>
      r == (Some(render.value), Some(PngMime))
    ensures !Drawable(DetectChartType(question), numeric, timeColumns) ==> r == (None, None)
    ensures render.Failure? ==> r == (None, None)
  {
    if IsEmpty(df) then (None, None)
    else
      if !Drawable(DetectChartType(question), numeric, timeColumns) then (None, None)
      else
        match render
        case Success(png) => (Some(png), Some(PngMime))
        case Failure(_) => (None, None)
  }

  /** An image comes back exactly for a non-empty frame whose chart type is drawable and
      whose rendering succeeds. */
  lemma VizIffDrawable(question: string, df: Frame, numeric: nat, timeColumns: bool,
    render: Result<string>)
    ensures GenerateViz(question, df, numeric, timeColumns, render).0.Some? <==>
      !IsEmpty(df) && Drawable(DetectChartType(question), numeric, timeColumns) && render.Success?
  {
  }

  /** Without a time column, a question naming no chart type skips every column check:
      the image is whatever the default plot renders. */
  lemma AutoWithoutTimeDraws(question: string, df: Frame, numeric: nat, png: string)
    requires DetectChartType(question) == Auto && !IsEmpty(df)
    ensures GenerateViz(question, df, numeric, false, Success(png)) == (Some(png), Some(PngMime))
  {
  }
}

=== FILE: text.dfy ===
/** String operations of the Python standard library that the backend relies on:
    `str.isspace`, `str.strip`, ASCII `lower`/`upper`, substring search,
    `str.split(sep)`, `sep.join(...)` and decimal formatting of integers. */
module Text {

  /** Python 3's `str.isspace()`: the ASCII controls 9-13 and 28-31, the space, and the
      Unicode separators U+0085, U+00A0, U+1680, U+2000-U+200A, U+2028, U+2029, U+202F,
      U+205F and U+3000. */
  predicate IsSpace(c: char) {
    var n := c as int;
    || 9 <= n <= 13 || 28 <= n <= 32 || n == 0x85 || n == 0xA0 || n == 0x1680
    || 0x2000 <= n <= 0x200A || n == 0x2028 || n == 0x2029 || n == 0x202F || n == 0x205F
    || n == 0x3000
  }

  predicate AllSpace(s: string) {
    forall i :: 0 <= i < |s| ==> IsSpace(s[i])
  }

  /** `s.lstrip()`: the text after its leading whitespace. */
  function LStrip(s: string): string
    decreases |s|
  {
    if |s| > 0 && IsSpace(s[0]) then LStrip(s[1..]) else s
  }

  /** `s.rstrip()`: the text before its trailing whitespace. */
  function RStrip(s: string): string
    decreases |s|
  {
    if |s| > 0 && IsSpace(s[|s| - 1]) then RStrip(s[..|s| - 1]) else s
  }

  /** Python's `s.strip()`: whitespace removed at both ends. */
  function Strip(s: string): (r: string)
    ensures |r| <= |s|
    ensures |r| > 0 ==> !IsSpace(r[0]) && !IsSpace(r[|r| - 1])
  {
    LStripShape(s);
    RStripShape(LStrip(s));
    RStrip(LStrip(s))
  }

  /** `LStrip` drops a run of whitespace from the front and stops at the first other character. */
  lemma {:induction false} LStripShape(s: string)
    ensures |LStrip(s)| <= |s|
    ensures LStrip(s) == s[|s| - |LStrip(s)|..]
    ensures AllSpace(s[..|s| - |LStrip(s)|])
    ensures |LStrip(s)| > 0 ==> !IsSpace(LStrip(s)[0])
    decreases |s|
  {
    if |s| > 0 && IsSpace(s[0]) {
      LStripShape(s[1..]);
      var n := |s| - |LStrip(s)|;
      assert s[1..][n - 1..] == s[n..];
      forall i | 0 <= i < n
        ensures IsSpace(s[..n][i])
      {
        if i > 0 {
          assert s[..n][i] == s[1..][..n - 1][i - 1];
        }
      }
    }
  }

  /** `RStrip` drops a run of whitespace from the end and stops at the last other character. */
  lemma {:induction false} RStripShape(s: string)
    ensures |RStrip(s)| <= |s|
    ensures RStrip(s) == s[..|RStrip(s)|]
    ensures AllSpace(s[|RStrip(s)|..])
    ensures |RStrip(s)| > 0 ==> !IsSpace(RStrip(s)[|RStrip(s)| - 1])
    decreases |s|
  {
    if |s| > 0 && IsSpace(s[|s| - 1]) {
      var init := s[..|s| - 1];
      RStripShape(init);
      var n := |RStrip(s)|;
      assert init[..n] == s[..n];
      forall j | 0 <= j < |s| - n
        ensures IsSpace(s[n..][j])
      {
        if j < |s| - 1 - n {
          assert s[n..][j] == init[n..][j];
        }
      }
    }
  }

  /** The stripped text is the part of `s` between a whitespace prefix and a whitespace suffix. */
  lemma StripIsMiddle(s: string)
    ensures |LStrip(s)| <= |s|
    ensures var a := |s| - |LStrip(s)|;
      && a + |Strip(s)| <= |s|
      && Strip(s) == s[a..a + |Strip(s)|]
      && AllSpace(s[..a]) && AllSpace(s[a + |Strip(s)|..])
  {
    var l := LStrip(s);
    var a := |s| - |l|;
    LStripShape(s);
    RStripShape(l);
    var b := a + |Strip(s)|;
    assert Strip(s) == s[a..b] by {
      assert l[..|Strip(s)|] == s[a..b];
    }
    assert AllSpace(s[b..]) by {
      assert l[|Strip(s)|..] == s[b..];
    }
  }

  /** Stripping adds no character: one absent from `s` is absent from its strip. */
  lemma StripOmits(s: string, c: char)
    requires c !in s
    ensures c !in Strip(s)
  {
    StripIsMiddle(s);
  }

  lemma {:induction false} LStripEmptyIff(s: string)
    ensures LStrip(s) == "" <==> AllSpace(s)
    decreases |s|
  {
    if |s| > 0 {
      if IsSpace(s[0]) {
        LStripEmptyIff(s[1..]);
        assert AllSpace(s[1..]) ==> AllSpace(s) by {
          assert forall i :: 1 <= i < |s| ==> s[i] == s[1..][i - 1];
        }
      }
    }
  }

  lemma {:induction false} RStripEmptyIff(s: string)
    ensures RStrip(s) == "" <==> AllSpace(s)
    decreases |s|
  {
    if |s| > 0 {
      if IsSpace(s[|s| - 1]) {
        var init := s[..|s| - 1];
        RStripEmptyIff(init);
        assert AllSpace(init) ==> AllSpace(s) by {
          assert forall i :: 0 <= i < |s| - 1 ==> s[i] == init[i];
        }
      }
    }
  }

  /** A string that is entirely whitespace strips to the empty string, and only such a string does. */
  lemma StripEmptyIff(s: string)
    ensures Strip(s) == "" <==> AllSpace(s)
  {
    var l := LStrip(s);
    LStripEmptyIff(s);
    RStripEmptyIff(l);
    LStripShape(s);
  }

  /** Stripping a string that has no surrounding whitespace leaves it unchanged. */
  lemma StripOfTrimmed(s: string)
    requires |s| > 0 ==> !IsSpace(s[0]) && !IsSpace(s[|s| - 1])
    ensures Strip(s) == s
  {
    assert LStrip(s) == s;
  }

  /** Leading whitespace is all that `LStrip` looks at. */
  lemma {:induction false} LStripAfterPad(pre: string, u: string)
    requires AllSpace(pre)
    ensures LStrip(pre + u) == LStrip(u)
    decreases |pre|
  {
    if |pre| > 0 {
      assert (pre + u)[0] == pre[0];
      assert (pre + u)[1..] == pre[1..] + u;
      LStripAfterPad(pre[1..], u);
    } else {
      assert pre + u == u;
    }
  }

  /** Trailing whitespace is all that `RStrip` looks at. */
  lemma {:induction false} RStripBeforePad(u: string, post: string)
    requires AllSpace(post)
    ensures RStrip(u + post) == RStrip(u)
    decreases |post|
  {
    if |post| > 0 {
      var t := u + post;
      assert t[|t| - 1] == post[|post| - 1];
      assert t[..|t| - 1] == u + post[..|post| - 1];
      RStripBeforePad(u, post[..|post| - 1]);
    } else {
      assert u + post == u;
    }
  }

  /** `RStrip` keeps every character up to the last one that is not whitespace. */
  lemma {:induction false} RStripKeeps(s: string, k: nat)
    requires k < |s| && !IsSpace(s[k])
    ensures k < |RStrip(s)|
    decreases |s|
  {
    if IsSpace(s[|s| - 1]) {
      RStripKeeps(s[..|s| - 1], k);
    }
  }

  /** Whitespace added on either side is removed again by `Strip`. */
  lemma StripPadded(pre: string, s: string, post: string)
    requires AllSpace(pre) && AllSpace(post)
    requires |s| > 0 && !IsSpace(s[0]) && !IsSpace(s[|s| - 1])
    ensures Strip(pre + s + post) == s
  {
    assert pre + s + post == pre + (s + post);
    LStripAfterPad(pre, s + post);
    assert LStrip(s + post) == s + post;
    RStripBeforePad(s, post);
  }

  /** Leading whitespace does not change what a text strips to. */
  lemma StripAfterPad(pre: string, s: string)
    requires AllSpace(pre)
    ensures Strip(pre + s) == Strip(s)
  {
    LStripAfterPad(pre, s);
  }

  /** ASCII lower-casing of one character. */
  function LowerChar(c: char): (d: char)
    ensures 'A' <= c <= 'Z' ==> d as int == c as int + 32
    ensures !('A' <= c <= 'Z') ==> d == c
  {
    if 'A' <= c <= 'Z' then (c as int + 32) as char else c
  }

  /** ASCII upper-casing of one character. */
  function UpperChar(c: char): (d: char)
    ensures 'a' <= c <= 'z' ==> d as int == c as int - 32
    ensures !('a' <= c <= 'z') ==> d == c
  {
    if 'a' <= c <= 'z' then (c as int - 32) as char else c
  }

  /** `s.lower()`, restricted to the ASCII letters. */
  function Lower(s: string): (r: string)
    ensures |r| == |s|
    ensures forall i :: 0 <= i < |s| ==> r[i] == LowerChar(s[i])
  {
    seq(|s|, i requires 0 <= i < |s| => LowerChar(s[i]))
  }

  /** `s.upper()`, restricted to the ASCII letters. */
  function Upper(s: string): (r: string)
    ensures |r| == |s|
    ensures forall i :: 0 <= i < |s| ==> r[i] == UpperChar(s[i])
  {
    seq(|s|, i requires 0 <= i < |s| => UpperChar(s[i]))
  }

  /** Lower-casing twice is lower-casing once. */
  lemma LowerIdempotent(s: string)
    ensures Lower(Lower(s)) == Lower(s)
  {
    forall i | 0 <= i < |s|
      ensures Lower(Lower(s))[i] == Lower(s)[i]
    {
      var c := s[i];
      if 'A' <= c <= 'Z' {
        assert !('A' <= LowerChar(c) <= 'Z');
      }
    }
  }

  lemma LowerPrefix(s: string, n: nat)
    requires n <= |s|
    ensures Lower(s)[..n] == Lower(s[..n])
  {
  }

  lemma LowerAppend(a: string, b: string)
    ensures Lower(a + b) == Lower(a) + Lower(b)
  {
    assert forall i :: 0 <= i < |a + b| ==> Lower(a + b)[i] == (Lower(a) + Lower(b))[i];
  }

  /** Lower-casing ignores a prior upper-casing. */
  lemma LowerOfUpper(s: string)
    ensures Lower(Upper(s)) == Lower(s)
  {
    forall i | 0 <= i < |s|
      ensures Lower(Upper(s))[i] == Lower(s)[i]
    {
      var c := s[i];
      if 'a' <= c <= 'z' {
        assert 'A' <= UpperChar(c) <= 'Z';
      }
    }
  }

  /** Lower-casing a character never adds or removes whitespace. */
  lemma SpaceLowerChar(c: char)
    ensures IsSpace(LowerChar(c)) == IsSpace(c)
  {
  }

  lemma {:induction false} LStripLower(s: string)
    ensures LStrip(Lower(s)) == Lower(LStrip(s))
    decreases |s|
  {
    if |s| > 0 {
      SpaceLowerChar(s[0]);
      if IsSpace(s[0]) {
        assert Lower(s)[1..] == Lower(s[1..]);
        LStripLower(s[1..]);
      }
    }
  }

  lemma {:induction false} RStripLower(s: string)
    ensures RStrip(Lower(s)) == Lower(RStrip(s))
    decreases |s|
  {
    if |s| > 0 {
      SpaceLowerChar(s[|s| - 1]);
      if IsSpace(s[|s| - 1]) {
        assert Lower(s)[..|s| - 1] == Lower(s[..|s| - 1]);
        RStripLower(s[..|s| - 1]);
      }
    }
  }

  /** Case changes no whitespace, so lower-casing commutes with stripping. */
  lemma StripLower(s: string)
    ensures Strip(Lower(s)) == Lower(Strip(s))
  {
    LStripLower(s);
    RStripLower(LStrip(s));
  }

  /** `s.replace(old, new)` for single characters. */
  function ReplaceChar(s: string, from: char, to: char): (r: string)
    ensures |r| == |s|
    ensures forall i :: 0 <= i < |s| ==> r[i] == (if s[i] == from then to else s[i])
  {
    seq(|s|, i requires 0 <= i < |s| => if s[i] == from then to else s[i])
  }

  predicate StartsWith(s: string, prefix: string) {
    |prefix| <= |s| && s[..|prefix|] == prefix
  }

  predicate EndsWith(s: string, suffix: string) {
    |suffix| <= |s| && s[|s| - |suffix|..] == suffix
  }

  /** `sub` occurs in `s` starting at position `i`. */
  predicate OccursAt(s: string, sub: string, i: int) {
    0 <= i && i + |sub| <= |s| && s[i..i + |sub|] == sub
  }

  /** `sub in s`: some position of `s` starts an occurrence of `sub`. */
  predicate Contains(s: string, sub: string)
    decreases |s|
  {
    StartsWith(s, sub) || (|s| > 0 && Contains(s[1..], sub))
  }

  /** `Contains` finds exactly the occurrences that a position-wise search would. */
  lemma {:induction false} ContainsIff(s: string, sub: string)
    ensures Contains(s, sub) <==> exists i :: OccursAt(s, sub, i)
    decreases |s|
  {
    if StartsWith(s, sub) {
      assert OccursAt(s, sub, 0);
    } else if |s| > 0 {
      ContainsIff(s[1..], sub);
      if exists i :: OccursAt(s, sub, i) {
        var i :| OccursAt(s, sub, i);
        assert i != 0;
        assert OccursAt(s[1..], sub, i - 1);
      }
      if Contains(s[1..], sub) {
        var j :| OccursAt(s[1..], sub, j);
        assert OccursAt(s, sub, j + 1);
      }
    }
  }

  /** An occurrence at a known position is found. */
  lemma ContainsAt(s: string, sub: string, i: nat)
    requires OccursAt(s, sub, i)
    ensures Contains(s, sub)
  {
    ContainsIff(s, sub);
  }

  /** A text ending in `sub` contains it. */
  lemma ContainsSuffix(s: string, sub: string)
    ensures Contains(s + sub, sub)
  {
    var t := s + sub;
    assert OccursAt(t, sub, |s|);
    ContainsAt(t, sub, |s|);
  }

  /** Text placed between two others is found in the concatenation. */
  lemma ContainsInfix(a: string, sub: string, b: string)
    ensures Contains(a + sub + b, sub)
  {
    var t := a + sub + b;
    assert OccursAt(t, sub, |a|);
    ContainsAt(t, sub, |a|);
  }

  /** `sep.join(xs)`. */
  function Join(xs: seq<string>, sep: string): (r: string)
    ensures |xs| == 1 ==> r == xs[0]
    ensures |xs| == 0 ==> r == ""
  {
    if |xs| == 0 then ""
    else if |xs| == 1 then xs[0]
    else xs[0] + sep + Join(xs[1..], sep)
  }

  /** `s.split(sep)` for a one-character separator: the pieces between separators, empty pieces kept. */
  function Split(s: string, sep: char): (r: seq<string>)
    ensures |r| >= 1
    decreases |s|
  {
    if |s| == 0 then [""]
    else
      var rest := Split(s[1..], sep);
      if s[0] == sep then [""] + rest
      else [[s[0]] + rest[0]] + rest[1..]
  }

  /** No piece of a split holds the separator. */
  lemma {:induction false} SplitPiecesFree(s: string, sep: char)
    ensures forall k :: 0 <= k < |Split(s, sep)| ==> sep !in Split(s, sep)[k]
    decreases |s|
  {
    if |s| > 0 {
      SplitPiecesFree(s[1..], sep);
      var rest := Split(s[1..], sep);
      if s[0] != sep {
        assert sep !in [s[0]] + rest[0];
      }
    }
  }

  /** Joining the pieces of a split with the separator restores the text. */
  lemma {:induction false} JoinSplit(s: string, sep: char)
    ensures Join(Split(s, sep), [sep]) == s
    decreases |s|
  {
    if |s| > 0 {
      var rest := Split(s[1..], sep);
      JoinSplit(s[1..], sep);
      if s[0] == sep {
        assert Split(s, sep) == [""] + rest;
        assert Join([""] + rest, [sep]) == "" + [sep] + Join(rest, [sep]);
        assert s == [s[0]] + s[1..];
      } else {
        var r := [[s[0]] + rest[0]] + rest[1..];
        assert Split(s, sep) == r;
        if |rest| == 1 {
          assert Join(r, [sep]) == [s[0]] + rest[0];
        } else {
          assert r[1..] == rest[1..];
          assert Join(rest, [sep]) == rest[0] + [sep] + Join(rest[1..], [sep]);
          assert Join(r, [sep]) == [s[0]] + rest[0] + [sep] + Join(rest[1..], [sep]);
        }
        assert s == [s[0]] + s[1..];
      }
    }
  }

  /** Splitting a text at a separator splits its pieces: the pieces of `a + [sep] + b`
      are those of `a` followed by those of `b`. */
  lemma {:induction false} SplitAtSeparator(a: string, b: string, sep: char)
    ensures Split(a + [sep] + b, sep) == Split(a, sep) + Split(b, sep)
    decreases |a|
  {
    if |a| == 0 {
      assert a + [sep] + b == [sep] + b;
      SplitCons(sep, b, sep);
    } else {
      var tail := a[1..];
      assert a + [sep] + b == [a[0]] + (tail + [sep] + b);
      assert a == [a[0]] + tail;
      SplitAtSeparator(tail, b, sep);
      SplitCons(a[0], tail + [sep] + b, sep);
      SplitCons(a[0], tail, sep);
      PiecesAppend(a[0], sep, Split(tail, sep), Split(b, sep));
    }
  }

  /** Putting a character in front of the first piece, or a new empty piece in front, commutes
      with appending more pieces. */
  lemma PiecesAppend(c: char, sep: char, ra: seq<string>, rb: seq<string>)
    requires |ra| >= 1
    ensures (if c == sep then [""] + (ra + rb) else [[c] + (ra + rb)[0]] + (ra + rb)[1..])
      == (if c == sep then [""] + ra else [[c] + ra[0]] + ra[1..]) + rb
  {
    if c != sep {
      assert (ra + rb)[0] == ra[0];
      assert (ra + rb)[1..] == ra[1..] + rb;
    }
  }

  /** The pieces of a text that starts with a known character. */
  lemma SplitCons(c: char, s: string, sep: char)
    ensures Split([c] + s, sep) ==
      if c == sep then [""] + Split(s, sep)
      else [[c] + Split(s, sep)[0]] + Split(s, sep)[1..]
  {
    assert ([c] + s)[0] == c;
    assert ([c] + s)[1..] == s;
  }

  /** Splitting a text with no separator gives the text as the only piece. */
  lemma {:induction false} SplitNoSeparator(s: string, sep: char)
    requires sep !in s
    ensures Split(s, sep) == [s]
    decreases |s|
  {
    if |s| > 0 {
      SplitNoSeparator(s[1..], sep);
      assert [s[0]] + s[1..] == s;
    }
  }

  /** Splitting a joined list whose items hold no separator recovers the list. */
  lemma {:induction false} SplitJoin(xs: seq<string>, sep: char)
    requires |xs| >= 1
    requires forall k :: 0 <= k < |xs| ==> sep !in xs[k]
    ensures Split(Join(xs, [sep]), sep) == xs
    decreases |xs|
  {
    if |xs| == 1 {
      SplitNoSeparator(xs[0], sep);
    } else {
      SplitJoin(xs[1..], sep);
      SplitAtSeparator(xs[0], Join(xs[1..], [sep]), sep);
      SplitNoSeparator(xs[0], sep);
      assert [xs[0]] + xs[1..] == xs;
    }
  }

  /** The character of a decimal digit. */
  function DigitChar(d: nat): (c: char)
    requires d < 10
    ensures '0' <= c <= '9'
  {
    ('0' as int + d) as char
  }

  function DigitValue(c: char): nat
    requires '0' <= c <= '9'
  {
    c as int - '0' as int
  }

  predicate IsDigits(s: string) {
    forall i :: 0 <= i < |s| ==> '0' <= s[i] <= '9'
  }

  /** `str(n)` for a natural number: its decimal digits, most significant first. */
  function NatString(n: nat): (r: string)
    ensures |r| >= 1 && IsDigits(r)
    ensures |r| > 1 ==> r[0] != '0'
  {
    if n < 10 then [DigitChar(n)]
    else NatString(n / 10) + [DigitChar(n % 10)]
  }

  /** The value of a string of decimal digits. */
  function ParseDigits(s: string): nat
    requires IsDigits(s)
  {
    if |s| == 0 then 0
    else 10 * ParseDigits(s[..|s| - 1]) + DigitValue(s[|s| - 1])
  }

  /** Reading back the decimal form of `n` gives `n`. */
  lemma {:induction false} ParseNatString(n: nat)
    ensures ParseDigits(NatString(n)) == n
  {
    if n >= 10 {
      var s := NatString(n);
      assert s[..|s| - 1] == NatString(n / 10);
      ParseNatString(n / 10);
    }
  }

  /** `str(i)` for any integer: a minus sign in front of negative values. */
  function IntString(i: int): (r: string)
    ensures |r| >= 1
    ensures i >= 0 <==> r[0] != '-'
    ensures i >= 0 ==> r == NatString(i)
    ensures i < 0 ==> r[1..] == NatString(-i)
  {
    if i >= 0 then NatString(i) else "-" + NatString(-i)
  }

  /** The decimal form determines the integer. */
  lemma IntStringInjective(i: int, j: int)
    requires IntString(i) == IntString(j)
    ensures i == j
  {
    var s := IntString(i);
    if s[0] != '-' {
      assert i >= 0 && j >= 0;
      ParseNatString(i);
      ParseNatString(j);
    } else {
      assert i < 0 && j < 0;
      var n := s[1..];
      assert NatString(-i) == n == NatString(-j);
      ParseNatString(-i);
      ParseNatString(-j);
    }
  }
}

=== FILE: wrappers.dfy ===
/** Optional values and outcomes that may fail, shared by every module. */
module Wrappers {

  datatype Option<T> = None | Some(value: T)

  /** The outcome of an operation that may raise: its value, or the error message. */
  datatype Result<T> = Success(value: T) | Failure(error: string)
}
